=== FILE: README.md ===
# Flockr store model

Flockr is a small chat server written in Python for a university course. Everything it knows lives in
four module-level lists: the users, the channels, the per-channel message logs (each with a standup
buffer) and the per-channel trivia records. Alongside them sits a message-id counter. Every public
call is a sequential transition on these lists. It either returns a plain record or raises
`InputError` (HTTP 400) or `AccessError` (HTTP 403).

This project models that store and its operations in Dafny. The modelled operations are:

- registration, login, logout and password reset;
- profiles;
- channel creation, listing, invitation, joining, leaving and ownership;
- the message log: send, remove, edit, pin, react and send-later;
- standups;
- search and the admin permission change;
- the `/trivia` chat game: its command parser, category and question management, start and end,
  cheater detection and scoring;
- the `echo` route.

**How the model is built**

- The store is an immutable `Data.Store`.
- Each operation is a pure function returning `Wrappers.Result`. The error kinds are `InputError`,
  `AccessError` and `RuntimeError`. `RuntimeError` stands for an uncaught Python exception (a
  `ValueError`, `IndexError` or unbound name), which the server reports as HTTP 500.
- Timers become queued `Data.Timer` records that `Timers.Fire` runs.
- The clock is an integer `now` parameter.
- The outcome of each random draw is passed in as a sequence of numbers.
- The verdict of the email-address check is a boolean parameter.

**Python behaviour kept in the model**

- Loops without `break` act on every record with a matching id, and a later match overwrites an
  earlier result. So `check_user_owner` reads the last channel with the id, and the flags of
  `user_flockr_owner` come from the last user with the id.
- `message_remove` removes from a list while iterating over it, which skips the element after a
  removed one.
- `trivia_check_command` splits on single spaces and joins the rest of the line back.
- An `InputError` raised by a trivia command typed into `message_send` is stored as the message
  text: `str(e)`, which is `"400 Bad Request: "` followed by the description.

The membership invariant is in `Invariants.Valid`:

- users sit at the position of their u_id;
- channel ids are distinct and below the number of logs;
- no list repeats an entry;
- a user lists a channel exactly when the channel lists the user.

Create (corrected), invite, join, leave, the owner changes, registration and `clear` all preserve
it.

Decoding a token is modelled structurally. A token is `Jwt(u_id, email)`, which is what encoding the
payload determines, or `Raw(text)` for anything else. The logged-out marker is `Raw("")`.

## Model

| member | source | states |
|---|---|---|
| Helper.GetUserId | COMP1531/project/src/helper.py:11-26 | succeeds exactly when the token decodes to a u_id and some user record holds that u_id together with this very token; the result is that u_id, otherwise `AccessError` |
| Helper.GetUserIndex | COMP1531/project/src/helper.py:29-38 | the first position whose record has the u_id; `InputError` exactly when no record has it |
| Helper.CheckUserInChannel | COMP1531/project/src/helper.py:41-49 | `AccessError` exactly when some record with the u_id lacks the channel in its own `channels` list; membership is never read from the channel, and an unknown u_id passes |
| Helper.CheckUserOwner | COMP1531/project/src/helper.py:51-61 | true iff the last channel with the id lists the user among its owners (false when no channel has the id) |
| Helper.CheckChannelValid | COMP1531/project/src/helper.py:64-74 | the first position holding the channel id; `InputError` exactly when none does |
| Helper.UserFlockrOwner | COMP1531/project/src/helper.py:77-88 | true iff the last record with the u_id has global permission 1 |
| Helper.ValidMessageId | COMP1531/project/src/helper.py:91-102 | `InputError` iff no log holds the message id; otherwise the channel id of a log holding it |
| Helper.MessageCheckUser | COMP1531/project/src/helper.py:105-117 | true iff some log holds a message with that id and that author |
| Helper.ChangeUserReacted | COMP1531/project/src/helper.py:120-129 | same length and messages up to the flag; each flag is true iff the reader is among the message's reactors |
| Helper.ChangeUserReactedIdempotent | COMP1531/project/src/helper.py:126-127 | annotating a second time for the same reader changes nothing |
| Helper.EditUsers | COMP1531/project/src/user.py:70-73 | the edit reaches every record with the u_id and no other record; the fields the edit does not name are kept |
| Channels.ChannelsList | COMP1531/project/src/channels.py:13-33 | `AccessError` iff the token is invalid; otherwise the result holds exactly the channels whose member list holds the caller, as id and name |
| Channels.MemberChannelsAppend | COMP1531/project/src/channels.py:27-33 | the listing is an order-preserving filter: it distributes over concatenation of the channel list |
| Channels.ChannelsListall | COMP1531/project/src/channels.py:40-57 | `AccessError` iff the token is invalid; otherwise every channel in store order, whatever the caller's membership |
| Channels.ListWithinListall | COMP1531/project/src/channels.py:13-57 | an entry is in the caller's list iff it is the listall entry of a channel whose member list holds the caller |
| Channels.CreateChannel | COMP1531/project/src/channels.py:79-111 | one channel with the creator as sole owner and member and the creation time as standup deadline; an empty log and buffer; an inactive trivia record with limit 10; the id appended to the creator's list |
| Channels.ChannelsCreateAsWritten | COMP1531/project/src/channels.py:63-115 | `AccessError` on a bad token, then `InputError` iff the name is over 20 characters; the id is the current number of channels |
| Channels.ChannelsCreate | COMP1531/project/src/channels.py:79 | the same, with the id taken from the number of logs; when every channel id is below that number the new id is fresh, and `Invariants.CreateValid` and `Findings.CreateKeepsIdsDistinct` show that this holds in every valid store and is kept |
| ChannelOps.Invite | COMP1531/project/src/channel.py:16-44 | errors in the source's order (channel before token, then inviter membership, then target); inviting a member changes nothing; otherwise the target joins the members, the owners iff a global owner, and the channel joins the target's list |
| ChannelOps.ChannelDetails | COMP1531/project/src/channel.py:50-97 | errors in order; the channel's name, then the owners and the members as member records: for each stored id in order, one record per user holding it; in an indexed store, entry `k` is the record of user `ids[k]` |
| ChannelOps.Records | COMP1531/project/src/channel.py:68-94 | with users at the position of their u_id, one record per listed id, the `k`th that of the user with id `ids[k]` |
| ChannelOps.RecordsConcat | COMP1531/project/src/channel.py:68-94 | the records of two id lists laid end to end are the two record lists laid end to end |
| ChannelOps.RecordsSound | COMP1531/project/src/channel.py:68-94 | every listed record is the record of a user whose id is in the list |
| ChannelOps.RecordsForUnique | COMP1531/project/src/channel.py:69-71 | with distinct u_ids, an id held by user `i` yields exactly that user's record |
| ChannelOps.PaginateSpec | COMP1531/project/src/channel.py:124-144 | the page is the newest-first log from `start`, at most 50 entries, entry `k` being message `len-1-start-k`; `end` is -1 iff the log has at most 50 messages, else `start + 50` |
| ChannelOps.ConsecutivePages | COMP1531/project/src/channel.py:132-144 | two consecutive pages are one contiguous stretch of the newest-first log |
| ChannelOps.ChannelMessages | COMP1531/project/src/channel.py:103-144 | errors in order, `InputError` iff `start` exceeds the message count; otherwise the page of the channel's log, with `end` -1 iff the log has at most 50 messages and `start + 50` otherwise, for every `start` |
| ChannelOps.PaginateNegative | COMP1531/project/src/channel.py:124-138 | a negative `start` counts from the end of the newest-first log and the page runs from there to the end, except for a log over 50 messages with `-50 < start < 0`, whose page is empty |
| ChannelOps.AfterLeave | COMP1531/project/src/channel.py:170-185 | the leaver leaves the members (and the owners if owner); no members left deletes the channel, one member makes that member the sole owner, no owners left promotes the oldest member; a kept channel always has an owner |
| ChannelOps.Leave | COMP1531/project/src/channel.py:150-187 | errors in order; the leaver's record drops the channel and the post-leave rules apply to the channel at its first position; logs and trivia untouched |
| ChannelOps.Join | COMP1531/project/src/channel.py:193-223 | a member joining changes nothing; a private channel refuses non-global-owners with `AccessError`; a joining global owner also becomes an owner |
| ChannelOps.AddOwner | COMP1531/project/src/channel.py:229-259 | an existing owner is refused with `InputError` before the actor's rights are checked; the actor must be a channel or global owner; exactly one id is appended |
| ChannelOps.RemoveOwner | COMP1531/project/src/channel.py:265-294 | a non-owner target is refused with `InputError` before the actor's rights; an owner target removed by an elevated actor succeeds iff the first channel with the id lists the target (otherwise `list.remove` raises); exactly one occurrence is removed |
| MessageOps.Send | COMP1531/project/src/message.py:16-59 | over 1000 characters is `InputError` before the token; the empty text stores nothing and keeps the counter; otherwise token, membership, then the counter advances by one and is the returned id |
| MessageOps.SendAppends | COMP1531/project/src/message.py:35-55 | a plain message is appended to every log of the channel with the sender, the new id, no pin and an empty thumbs-up react; no other log changes |
| MessageOps.Posted | COMP1531/project/src/message.py:37-41 | a text starting with `/trivia` is replaced by the command's reply, or by `"400 Bad Request: "` and the reason when the command is rejected; the stored text is never itself a command |
| MessageOps.RemoveOnlyThatMessage | COMP1531/project/src/message.py:80-87 | removal keeps every message with another id, in order; with at most one message of that id in a log, exactly that message goes |
| MessageOps.Remove | COMP1531/project/src/message.py:64-87 | token, then message id (`InputError`), then the caller must be author, channel owner or global owner (`AccessError`); no membership is needed |
| MessageOps.Edit | COMP1531/project/src/message.py:92-131 | membership and the remove rights are required; the empty text is a removal; otherwise only text and time of the message change |
| MessageOps.EditKeepsShape | COMP1531/project/src/message.py:121-129 | an edit keeps every log's ids in place, and every other message unchanged |
| MessageOps.Moderate | COMP1531/project/src/message.py:136-205 | pin and unpin need membership and owner rights; pinning a pinned message or unpinning an unpinned one is `InputError`; success changes only the pin flag |
| MessageOps.PinThenUnpinStore | COMP1531/project/src/message.py:136-205 | unpinning a message just pinned restores the store |
| MessageOps.Respond | COMP1531/project/src/message.py:210-279 | token, message, membership; react id other than 1 is `InputError`; when some copy of the message refuses the change (the caller already reacted, or is absent on unreact) the result is `InputError`; otherwise every copy of the message in the channel's logs takes it and every log keeps its ids |
| MessageOps.RespondApplies | COMP1531/project/src/message.py:226-279 | a successful call applies the same change to every copy of the message in the channel's logs, none of which refused it, and keeps every log's ids in place |
| MessageOps.React | COMP1531/project/src/message.py:210-245 | on success the caller was not a reactor of any copy of the message, and is appended to each copy's reactors |
| MessageOps.Unreact | COMP1531/project/src/message.py:247-279 | on success the caller was a reactor of every copy, and exactly one occurrence is removed; with no repeated reactor the caller is no longer one |
| MessageOps.RespondKeepsDistinct | COMP1531/project/src/message.py:226-279 | reactor lists never acquire a duplicate |
| MessageOps.ReactThenUnreact | COMP1531/project/src/message.py:236-273 | unreacting a reaction just made restores the reactor list |
| MessageOps.SendLater | COMP1531/project/src/message.py:284-316 | token, channel, membership, over 1000 characters, time in the past (equal allowed); then the id is reserved and a pending send is queued; empty text is accepted |
| MessageOps.SendLaterAsSend | COMP1531/project/src/message.py:318-333 | for a plain text, firing the queued send leaves the logs and the counter exactly as an immediate send at the chosen time would |
| Timers.Fire | COMP1531/project/src/message.py:313-314 | firing a queued timer removes it from the queue; a delayed send appends its message with the reserved id; a standup flush numbers its message from the standup module's own counter, as written; only logs and the used counter change |
| Timers.FireIntended | COMP1531/project/src/standup.py:41-61 | the same queue with the corrected flush, which numbers from the counter sending advances; a delayed send fires as in `Fire` |
| MessageOps.FireLaterSend | COMP1531/project/src/message.py:318-333 | the reserved message is appended to every log of the channel, timed at the chosen send time, with nothing checked again; nothing else changes |
| Standup.Active | COMP1531/project/src/standup.py:66-89 | token, channel, membership; active iff `now` is before the stored deadline, which is returned only when active |
| Standup.Start | COMP1531/project/src/standup.py:13-39 | an active standup or an active trivia game is `InputError`; success stores and returns `now + length` and queues the flush |
| Standup.StartThenActive | COMP1531/project/src/standup.py:33-35 | right after a start, the standup reports active with that deadline until it passes |
| Standup.Send | COMP1531/project/src/standup.py:95-135 | no active standup, over 1000 characters, empty text or a `/trivia` text is `InputError`; otherwise the handle-prefixed line joins the buffer |
| Standup.PrefixedUnique | COMP1531/project/src/standup.py:124-126 | for a user with one record, the line is `handle: text` |
| Standup.AppendLineJoin | COMP1531/project/src/standup.py:128-133 | the buffer is the lines so far joined by newlines, in call order |
| Standup.FlushLogs | COMP1531/project/src/standup.py:41-61 | every log of the channel with a nonempty buffer gains exactly one message by the starter with the buffer as text, timed at the deadline and numbered above the starting counter; every buffer of the channel ends empty; other logs are unchanged; with no nonempty buffer nothing changes, the counter included |
| Standup.FlushOne | COMP1531/project/src/standup.py:50-57 | one log: a nonempty buffer of the channel becomes the next message and empties; any other log is kept and the counter too |
| Standup.FlushAsWritten | COMP1531/project/src/standup.py:41-61 | the flush as written numbers from the standup module's own counter, which goes up by exactly the number of the channel's logs with a nonempty buffer, and leaves the sending counter as it was |
| Standup.Flush | COMP1531/project/src/standup.py:41-61 | the corrected flush numbers from the sending counter, which goes up by exactly the number of the channel's logs with a nonempty buffer; the standup counter is kept |
| UserProfile.ReadProfile | COMP1531/project/src/user.py:12-38 | `InputError` for an unknown u_id; otherwise the profile of the last record with it |
| UserProfile.SetName | COMP1531/project/src/user.py:43-75 | success iff both names have 1 to 50 characters and their concatenation is alphabetic; only the caller's name fields change |
| UserProfile.SpaceOrDashRejected | COMP1531/project/src/user.py:63-68 | a space or dash passes the character loop but fails the alphabetic test |
| UserProfile.SetEmail | COMP1531/project/src/user.py:81-106 | success iff the address check passes and no record holds the email; only the caller's email changes |
| UserProfile.SetEmailKeepsDistinct | COMP1531/project/src/user.py:98-104 | distinct emails stay distinct |
| UserProfile.SetHandle | COMP1531/project/src/user.py:112-138 | success iff the handle has 3 to 20 characters and no record, the caller's included, holds it; only the caller's handle changes |
| UserProfile.SetHandleKeepsDistinct | COMP1531/project/src/user.py:131-136 | distinct handles stay distinct |
| Other.Clear | COMP1531/project/src/other.py:11-23 | the four lists are emptied; the id counters and the shared default category are kept |
| Other.UsersAll | COMP1531/project/src/other.py:29-43 | `AccessError` iff the token is invalid; otherwise one profile per user record, in order, each the one `user_profile` returns for its u_id |
| Other.UsersAllUnique | COMP1531/project/src/other.py:38-41 | with distinct u_ids, entry `i` is the profile of user record `i` |
| Other.PermissionChange | COMP1531/project/src/other.py:49-74 | unknown target, then permission outside {1, 2} (`InputError`), then a non-owner actor (`AccessError`); only the target's permission changes |
| Other.PermissionChangeTakesEffect | COMP1531/project/src/other.py:72-73 | afterwards the target is a global owner iff the new permission is 1 |
| Other.SearchFinds | COMP1531/project/src/other.py:80-106 | corrected search: each result is a message of the caller's channels containing the query, and every such message is found |
| Other.Search | COMP1531/project/src/other.py:80-106 | `AccessError` iff the token is invalid; every result contains the query |
| Other.SearchAsWritten | COMP1531/project/src/other.py:80-106 | as written: `AccessError` iff the token is invalid; every result's text occurs in the query |
| Findings.SearchAsWrittenMisses | COMP1531/project/src/other.py:104 | as written, searching `hi` misses the message `hi there`, which the corrected search returns |
| Auth.ValidNameChars | COMP1531/project/src/auth.py:54-69 | a name is valid iff it has 1 to 50 characters, each a letter, underscore, dash or whitespace |
| Auth.GenerateHandle | COMP1531/project/src/auth.py:87-93 | lower case, at most 20 characters, the last 20 of a longer name |
| Auth.HasHandleConflict | COMP1531/project/src/auth.py:72-84 | the empty handle always conflicts; any other conflicts iff some record holds it |
| Auth.ChooseHandle | COMP1531/project/src/auth.py:210-217 | the chosen handle never conflicts and has at most 20 characters |
| Auth.Register | COMP1531/project/src/auth.py:186-251 | bad address, used email, short password, invalid name are `InputError` in that order; the u_id is the user count, permission 1 iff first user, handle free, token for the new session |
| Auth.Login | COMP1531/project/src/auth.py:111-151 | the first record with the email and matching password; an already logged-in user gets the stored token back, otherwise a new one; every record of the u_id takes it |
| Auth.LoginOpensSession | COMP1531/project/src/auth.py:141-151 | after a login the returned token resolves to the user |
| Auth.Logout | COMP1531/project/src/auth.py:158-179 | success iff some record holds the token; the first such record is logged out; otherwise nothing changes |
| Auth.LogoutEndsSession | COMP1531/project/src/auth.py:168-173 | when one record holds the token, it no longer resolves after logout |
| Auth.ResetPassword | COMP1531/project/src/auth.py:257-285 | upper-cased code of length 6, password of 6 or more, some record holding the code; the first such record gets the password and loses the code |
| Auth.ResetCodeSpent | COMP1531/project/src/auth.py:277-281 | a code held by one record works once |
| Auth.GenerateCodeShape | COMP1531/project/src/auth.py:288-300 | six characters, exactly the three letters and three digits drawn, in some order, all upper case or digits |
| Auth.Interleave | COMP1531/project/src/auth.py:293-296 | the letter-then-digit loop yields twice as many characters, exactly the letters and digits drawn |
| Auth.RequestReset | COMP1531/project/src/auth.py:306-353 | an unknown email changes nothing and reports no code; for a known one the call succeeds iff some supplied code is not in use, and then the first such code is stored on every record with the email and on no other |
| Auth.FreshCode | COMP1531/project/src/auth.py:321-324 | the first candidate no record holds; none exactly when every candidate is in use |
| Auth.RequestThenReset | COMP1531/project/src/auth.py:349-351 | the stored code resets the password of the first record with the email |
| Trivia.ParseCommand | COMP1531/project/src/trivia.py:31-83 | a wrong first word is rejected; `create` and `start` take the rest of the line, `time` its third word; rejection reasons never start with `/` |
| Trivia.Run | COMP1531/project/src/trivia.py:36-85 | a malformed command is rejected with its reason; every command touches only trivia state and its reply is never a command |
| Trivia.CreateCommand | COMP1531/project/src/trivia.py:39-42 | `/trivia create <name>` creates the category named by the whole rest of the line |
| Trivia.StartCommand | COMP1531/project/src/trivia.py:59-62 | `/trivia start <name>` starts the category named by the whole rest of the line |
| Trivia.TimeCommand | COMP1531/project/src/trivia.py:75-77 | `/trivia time n` sets the limit to `n` |
| Trivia.Instructions | COMP1531/project/src/trivia.py:316-348 | the banner, a blank line, the categories heading with one listed category name per line, a blank line, the command list |
| Trivia.InstructionsSingle | COMP1531/project/src/trivia.py:330-336 | with one trivia record for the channel, the listed names are the shared default category's and then the channel's own, in order |
| Trivia.Create | COMP1531/project/src/trivia.py:449-481 | a name over 50 characters or already offered in the channel is rejected; success adds an empty category to every record of that channel only |
| Trivia.AddQuestions | COMP1531/project/src/trivia.py:355-412 | the body has 3 to 5 lines and the category exists; the question and its options are appended to the named category |
| Trivia.Time | COMP1531/project/src/trivia.py:418-443 | success iff the limit is 5, 10, 15 or 20; every record of the channel takes it |
| Trivia.Start | COMP1531/project/src/trivia.py:90-145 | an active game, a missing category or one without questions is rejected; success activates the game on the category |
| Trivia.CreateThenStart | COMP1531/project/src/trivia.py:111-116 | a category just created has no questions, so starting it on an idle channel is refused with `Category <name> has no questions`; creating it a second time is refused |
| Trivia.AddQuestionsThenStart | COMP1531/project/src/trivia.py:394-412 | once a question is added to a category of an idle channel, starting that category succeeds |
| Trivia.StartThenEnd | COMP1531/project/src/trivia.py:216-228 | a started game can be ended (end does not refuse it), and after a successful end the same category can be started again |
| Trivia.TimeSetsEveryRecord | COMP1531/project/src/trivia.py:440-442 | after a successful time change every trivia record of the channel has the new limit and every other record is unchanged |
| Trivia.End | COMP1531/project/src/trivia.py:202-263 | a bad token, missing record, inactive game or missing category is refused in that order; otherwise a missing log raises, a scoring failure raises its error, and success deactivates the first record and replies with the leaderboard of the channel's last log |
| Trivia.CheckCommand | COMP1531/project/src/trivia.py:15-85 | a first word other than `/trivia` is refused with the format message; whatever runs changes only trivia state |
| Trivia.AddQuestionsCommand | COMP1531/project/src/trivia.py:46-57 | the argument's first line names the category and the remaining lines, rejoined, are the question; a one-line argument is refused |
| Trivia.EndCommand | COMP1531/project/src/trivia.py:66-73 | no trivia record for the channel raises; any record of the channel without a current category is refused; otherwise the game is ended on the current category of the channel's last record |
| Trivia.TimeCommandWord | COMP1531/project/src/trivia.py:75-77 | a word `int()` rejects raises; otherwise its value sets the limit |
| TriviaScoring.Answers | COMP1531/project/src/trivia.py:296-302 | exactly the option messages whose option text is a correct option; an option message without the marker raises |
| TriviaScoring.Scores | COMP1531/project/src/trivia.py:241-263 | a user scores one point per reaction on a correct option, and cheaters score 0; the entries are in first-reaction order (answer by answer, each answer's reactors in stored order), followed by the cheaters not yet scored in the order they were found |
| TriviaScoring.Cheaters | COMP1531/project/src/trivia.py:269-293 | a user cheats iff they appear twice among the reactors of one question's options |
| TriviaScoring.CheaterIffTwoOptions | COMP1531/project/src/trivia.py:269-293 | with duplicate-free reactor lists, a cheater is one who reacted to two different options of one question |
| TriviaScoring.SortDesc | COMP1531/project/src/trivia.py:258-260 | the result is a permutation of the table, sorted descending, and stable: equal scores keep the table's order |
| TriviaScoring.InsertDesc | COMP1531/project/src/trivia.py:258-260 | inserting into a descending list keeps it descending and keeps every entry; the new entry goes in front of the entries with its score, so building the list from the back keeps equal scores in table order |
| TriviaScoring.RanksUnique | COMP1531/project/src/trivia.py:258-260 | a table has only one descending stable order, so the leaderboard's order is determined |
| TriviaScoring.ByHandleKeys | COMP1531/project/src/trivia.py:256 | the re-keyed table holds exactly the handles of the scored users |
| TriviaScoring.ByHandleLookup | COMP1531/project/src/trivia.py:256 | a handle carries the score of the last scored user with it; other keys keep their values |
| TriviaScoring.Leaderboard | COMP1531/project/src/trivia.py:236-263 | fails exactly when a question has no option or an option message lacks its marker; otherwise the header and one line per handle in the unique stable descending order of the per-handle scores |
| Echo.Echo | COMP1531/project/src/echo.py:3-10 | `InputError` iff the value is `echo`, otherwise the value itself |
| Echo.EchoIdempotent | COMP1531/project/src/echo.py:8-10 | echoing an echo gives the same answer |
| Invariants.CreateValid | COMP1531/project/src/channels.py:79-111 | the corrected create keeps membership stored consistently on both sides |
| Invariants.InviteValid | COMP1531/project/src/channel.py:38-42 | invite keeps the two membership lists in sync |
| Invariants.JoinValid | COMP1531/project/src/channel.py:212-221 | join keeps the two membership lists in sync |
| Invariants.LeaveValid | COMP1531/project/src/channel.py:170-185 | leave, deleting the channel or not, keeps them in sync |
| Invariants.AddThenRemoveOwner | COMP1531/project/src/channel.py:229-294 | removing an owner just added restores the store |
| Invariants.DetailsListMembers | COMP1531/project/src/channel.py:50-97 | in a valid store, a user's record appears among the details' members iff the user's own channel list holds the channel |
| Invariants.RecordsIndexed | COMP1531/project/src/channel.py:68-94 | with users indexed by u_id, user `i`'s record is listed iff `i` is among the ids |
| Invariants.RegisterValid | COMP1531/project/src/auth.py:222-246 | registration keeps the invariant |
| Invariants.MembershipAgrees | COMP1531/project/src/helper.py:41-49 | in a valid store the user-side membership guard agrees with the channel's member list |
| Findings.CreateAsWrittenReusesId | COMP1531/project/src/channels.py:79 | create, create, leave the first (deleting it), create: the new channel has the surviving channel's id |
| Findings.CreateKeepsIdsDistinct | COMP1531/project/src/channels.py:79 | the corrected create never makes two channels share an id |
| Findings.FlushAsWrittenRepeatsId | COMP1531/project/src/standup.py:50-53 | create a channel, send `hello` (id 1), start a standup, buffer `hi`, fire the flush: the summary message also gets id 1 |
| Findings.FlushIntendedFresh | COMP1531/project/src/standup.py:50-53 | the same trace with the corrected flush gives the summary id 2 |
| Findings.FlushIdsFresh | COMP1531/project/src/standup.py:50-53 | the corrected flush numbers each new message above every id already stored |

## Left out

- HTTP transport, request parsing and the error handler: they are glue around these functions.
- JWT encoding and the signature check: a token is modelled as its payload.
- Password hashing: modelled as an injective wrapper around the plain password.
- The email check (a DNS MX lookup plus a regular expression): an oracle boolean parameter. The
  `email.lower()` call in it has no effect in the source, so no normalisation is modelled.
- Sending the reset mail over SMTP, the mail receiver, and `user_profile_uploadphoto` (image
  download and cropping): all I/O. The reset request returns the code it would mail.
- Threads and timers: sendlater and standups queue `Data.Timer` records that `Timers.Fire` runs one at
  a time. The trivia `queue_questions` thread and its busy wait are not modelled; `Trivia.Start`
  covers only the state change, and the option messages the thread would post enter `End` as the
  stored log.
- Floating-point timestamps: time is an integer.
- Randomness: the outcome of each draw is a parameter. That covers the handle suffixes, the reset
  code letters, digits and shuffle, and successive reset codes.
- Auth.ChooseHandle: when the supplied draws run out before a free handle turns up, registration fails
  with `RuntimeError`; the source keeps drawing forever.
- Auth.RequestReset: likewise fails with `RuntimeError` when every supplied code is already in use.
- Auth.ValidNameChars, UserProfile.SetName and Strings.IsSpace cover ASCII only. Python's `\w`, `\s`,
  `isalpha()`, `lower()` and `upper()` also accept other Unicode letters and spaces.
- Trivia.TimeCommandWord: `int()` is modelled on an optional sign followed by decimal digits;
  surrounding whitespace and underscores, which Python also accepts, are not.
- Partial mutation before an exception: when duplicate ids make a loop fail after it has changed
  some records, the model returns the error without those earlier changes. This covers the pin,
  react and trivia loops.
- An exception other than `InputError` escaping a trivia command in `message_send`: the source has
  already advanced the id counter; the model reports the error with the store unchanged.
- `change_user_reacted` writes the reader's flag into the stored messages of `channel_messages` and
  `search`; the model returns the flagged copies and leaves the store unchanged.
- ChannelOps.Leave: when the owner check (which reads the last channel with the id) disagrees with the
  channel at the first position, the source has already removed the caller from `all_members` and the
  channel from the caller's list before `owner_members.remove` raises `ValueError`. The model returns
  `RuntimeError` with the store unchanged.
- Trivia.End: when scoring raises (no log for the channel, a question without options, or an option message
  edited so that it lacks its `(option):` marker), the source has already set `trivia_active` to false and
  `current_category` to `None` on the first record. The model's raised reply carries no store, so the game
  stays active, and a later `standup_start` or `trivia_start` is refused where the source accepts it.
- TriviaScoring.Cheaters: the source collects cheaters in a Python `set` and zeroes their scores in the
  set's iteration order, which depends on hashing. The model appends new cheater entries in discovery
  order. Ties on the leaderboard keep table order, so two zero-score lines added only by the cheater
  loop may appear in a different order from the source's.
- Timers.Fire: any queued timer may fire, in any order. Deadlines are not compared with a clock, so the
  model also allows orders a real clock would rule out.
- MessageOps.Edit: the edit time is the `now` parameter. The source's
  `datetime.now().replace(tzinfo=timezone.utc)` labels local time as UTC, which skews the stored
  timestamp by the server's offset; the model absorbs that into `now`.
- `channel_leave` aliases `owner_members` to `all_members` when one member remains; the model copies
  the list. From then on the source's channel has one list under both names, so every later edit
  through either name changes both, and ChannelOps.Join, ChannelOps.Invite, ChannelOps.AddOwner and
  ChannelOps.RemoveOwner diverge from the model on such a channel:
  - a user who joins or is invited also becomes an owner; a global owner is appended twice, so the
    member list holds them twice;
  - `channel_addowner` also adds the target to the member list, without adding the channel to the
    target's own list of channels;
  - `channel_removeowner` also removes the target from the member list, while the target's own list
    still names the channel.
- Other.Clear, Data.Store: the `default_UNSW` category is one object shared by every trivia record.
  The model keeps it once in the store, so an edit to it is seen by every channel, as in the source.

## Findings

| source | as written | input that shows it | evidently intended | confidence | as-written member | corrected member |
|---|---|---|---|---|---|---|
| COMP1531/project/src/channels.py:79 | the new channel's id is the current length of the channel list, which shrinks when `channel_leave` deletes a channel | create two channels, leave the first as its only member, create again: the new id equals the surviving channel's | channel ids are never reused | high, not executed | Findings.CreateAsWrittenReusesId | Findings.CreateKeepsIdsDistinct |
| COMP1531/project/src/standup.py:50-53 | the flush increments the standup module's own copy of the id counter, which `message_send` never advances | create a channel, send `hello` (id 1), start a standup, send `hi` to it, fire its timer: the summary message also gets id 1 | one counter for all message ids | high, not executed | Findings.FlushAsWrittenRepeatsId | Findings.FlushIdsFresh |
| COMP1531/project/src/other.py:104 | a message matches when its text occurs in the query | the message `hi there` and the query `hi`: no result | a message matches when the query occurs in its text | medium (the tests only use exact-text queries), not executed | Findings.SearchAsWrittenMisses | Other.SearchFinds |

=== FILE: auth.dfy ===
/** Registration, login, logout and password reset (auth.py), with the name and handle
    rules they use. Address verification and random draws are inputs. */
module Auth {
  import opened Wrappers
  import opened Strings
  import opened Data
  import opened Helper

  const MaxNameLength: int := 50
  const MaxHandleLength: int := 20
  const MinPasswordLength: int := 6
  const ResetCodeLength: int := 6

  // ------------------------------------------------------------------------------------
  // check_valid_name

  /** The name with every dash and whitespace character deleted (`re.sub(r'[-\s]+', '', ...)`). */
  function Stripped(name: string): (r: string)
    ensures |r| <= |name|
    ensures forall c :: c in r <==> c in name && c != '-' && !IsSpace(c)
  {
    if |name| == 0 then ""
    else
      var rest := Stripped(name[1..]);
      assert forall c :: c in name <==> c == name[0] || c in name[1..];
      if name[0] == '-' || IsSpace(name[0]) then rest else [name[0]] + rest
  }

  /** `check_valid_name`: 1 to 50 characters, and once dashes and whitespace are deleted no
      digit or non-word character is left. */
  function ValidName(name: string): (b: bool)
    ensures b ==> 0 < |name| <= MaxNameLength
  {
    if !(0 < |name| <= MaxNameLength) then false
    else
      var rest := Stripped(name);
      !(exists k :: 0 <= k < |rest| && (!IsWordChar(rest[k]) || IsDigit(rest[k])))
  }

  /** The characters a valid name may hold: letters, `_`, `-` and whitespace. */
  predicate NameChar(c: char) {
    IsLetter(c) || c == '_' || c == '-' || IsSpace(c)
  }

  /** The strip-then-search rule is a per-character rule. */
  lemma ValidNameChars(name: string)
    ensures ValidName(name) <==> 0 < |name| <= MaxNameLength && forall k :: 0 <= k < |name| ==> NameChar(name[k])
  {
    var rest := Stripped(name);
    if 0 < |name| <= MaxNameLength {
      if ValidName(name) {
        forall k | 0 <= k < |name|
          ensures NameChar(name[k])
        {
          var c := name[k];
          assert c in name;
          if c != '-' && !IsSpace(c) {
            assert c in rest;
            var i :| 0 <= i < |rest| && rest[i] == c;
          }
        }
      } else {
        var k :| 0 <= k < |rest| && (!IsWordChar(rest[k]) || IsDigit(rest[k]));
        assert rest[k] in rest;
        var i :| 0 <= i < |name| && name[i] == rest[k];
        assert !NameChar(name[i]);
      }
    }
  }

  // ------------------------------------------------------------------------------------
  // generate_handle, has_handle_conflict

  /** `generate_handle`: lower-cased, and cut to its last 20 characters when longer. */
  function GenerateHandle(name: string): (h: string)
    ensures |h| == if |name| > MaxHandleLength then MaxHandleLength else |name|
    ensures forall k :: 0 <= k < |h| ==> !IsUpper(h[k])
    ensures |name| > MaxHandleLength ==> h == Lower(name)[|name| - MaxHandleLength..]
    ensures |name| <= MaxHandleLength ==> h == Lower(name)
  {
    var lower := Lower(name);
    if |lower| > MaxHandleLength then SliceFrom(lower, -MaxHandleLength) else lower
  }

  /** The handle keeps the end of the name: its characters are those of the last (up to)
      20 characters of the name, lower-cased. */
  lemma GenerateHandleSuffix(name: string, k: int)
    requires 0 <= k < |GenerateHandle(name)|
    ensures GenerateHandle(name)[k] == ToLowerChar(name[|name| - |GenerateHandle(name)| + k])
  {
  }

  /** `has_handle_conflict`: the empty handle always conflicts; otherwise a conflict is a
      user already holding it. */
  function HasHandleConflict(users: seq<User>, handle: string): (b: bool)
    ensures b <==> handle == "" || exists i :: 0 <= i < |users| && users[i].handle == handle
  {
    if handle == "" then true
    else exists i :: 0 <= i < |users| && users[i].handle == handle
  }

  /** The handle search of `auth_register`: the handle of the joined names, and while it
      conflicts, the names with one more random number (`draws`, each `randint(0, 999)`)
      appended. `None` when the draws run out first. */
  function ChooseHandle(users: seq<User>, full: string, draws: seq<int>): (r: Option<string>)
    decreases |draws|
    ensures r.Some? ==> !HasHandleConflict(users, r.value) && |r.value| <= MaxHandleLength
  {
    var h := GenerateHandle(full);
    if !HasHandleConflict(users, h) then Some(h)
    else if |draws| == 0 then None
    else ChooseHandle(users, full + IntToString(draws[0]), draws[1..])
  }

  // ------------------------------------------------------------------------------------
  // auth_register

  /** Some user record holds this email. */
  predicate EmailTaken(users: seq<User>, email: string) {
    exists i :: 0 <= i < |users| && users[i].email == email
  }

  /** The record of a new user: logged in, no channels, no reset code. */
  function NewUser(uid: int, email: string, password: string, first: string, last: string,
                   handle: string, permission: int): (u: User)
    ensures u.uId == uid && u.token == Jwt(uid, email) && u.channels == [] && u.resetCode == ""
  {
    User(uid, Jwt(uid, email), Hashed(password), first, last, email, handle, "", [], permission, "")
  }

  /** `auth_register`: `emailOk` is the verdict of the address check; a used email, a
      password under 6 characters or an invalid name raise `InputError`. The u_id is the
      number of users so far and the first user becomes a global owner. */
  function Register(s: Store, email: string, emailOk: bool, password: string, first: string, last: string,
                    draws: seq<int>): (r: Result<(Store, int, Token)>)
    ensures !emailOk ==> r == Fail(InputError)
    ensures emailOk && EmailTaken(s.users, email) ==> r == Fail(InputError)
    ensures emailOk && !EmailTaken(s.users, email) && |password| < MinPasswordLength ==> r == Fail(InputError)
    ensures (emailOk && !EmailTaken(s.users, email) && |password| >= MinPasswordLength
             && !(ValidName(first) && ValidName(last))) ==> r == Fail(InputError)
    ensures r.Ok? ==> emailOk && !EmailTaken(s.users, email) && |password| >= MinPasswordLength
                      && ValidName(first) && ValidName(last)
    ensures r.Ok? ==> var (s', uid, token) := r.value;
      && uid == |s.users| && token == Jwt(uid, email)
      && |s'.users| == |s.users| + 1 && s'.users[..|s.users|] == s.users
      && s'.users[uid].uId == uid && s'.users[uid].email == email && s'.users[uid].token == token
      && s'.users[uid].password == Hashed(password)
      && s'.users[uid].nameFirst == first && s'.users[uid].nameLast == last
      && (s'.users[uid].globalPermission == OwnerPermission <==> |s.users| == 0)
      && (s'.users[uid].globalPermission == OwnerPermission || s'.users[uid].globalPermission == MemberPermission)
      && !HasHandleConflict(s.users, s'.users[uid].handle)
      && s'.channels == s.channels && s'.logs == s.logs && s'.trivias == s.trivias
  {
    if !emailOk then Fail(InputError)
    else if EmailTaken(s.users, email) then Fail(InputError)
    else if |password| < MinPasswordLength then Fail(InputError)
    else if !(ValidName(first) && ValidName(last)) then Fail(InputError)
    else
      match ChooseHandle(s.users, first + last, draws)
      case None => Fail(RuntimeError)
      case Some(handle) =>
        var uid := |s.users|;
        var permission := if uid == 0 then OwnerPermission else MemberPermission;
        var u := NewUser(uid, email, password, first, last, handle, permission);
        Ok((s.(users := s.users + [u]), uid, u.token))
  }

  // ------------------------------------------------------------------------------------
  // auth_login, auth_logout

  /** The position of the first user record with this email. */
  function FirstWithEmail(users: seq<User>, email: string): (r: Option<nat>)
    ensures r.None? <==> !EmailTaken(users, email)
    ensures r.Some? ==> r.value < |users| && users[r.value].email == email
    ensures r.Some? ==> forall k :: 0 <= k < r.value ==> users[k].email != email
  {
    if |users| == 0 then None
    else if users[0].email == email then Some(0)
    else
      match FirstWithEmail(users[1..], email)
      case None => None
      case Some(i) => Some(i + 1)
  }

  /** `auth_login`: the address check, then the first record with the email must exist and
      hold the password (`InputError` otherwise). A user already logged in keeps the
      stored token; otherwise a fresh one is issued. Every record with the u_id gets it. */
  function Login(s: Store, email: string, emailOk: bool, password: string): (r: Result<(Store, int, Token)>)
    ensures r.Fail? ==> r.error == InputError
    ensures r.Ok? <==> emailOk && FirstWithEmail(s.users, email).Some?
                       && s.users[FirstWithEmail(s.users, email).value].password == Hashed(password)
    ensures r.Ok? ==> var u := s.users[FirstWithEmail(s.users, email).value];
      && r.value.1 == u.uId
      && (u.token != LoggedOut ==> r.value.2 == u.token)
      && (u.token == LoggedOut ==> r.value.2 == Jwt(u.uId, email))
      && r.value.0 == s.(users := EditUsers(s.users, u.uId, TokenTo(r.value.2)))
  {
    if !emailOk then Fail(InputError)
    else
      match FirstWithEmail(s.users, email)
      case None => Fail(InputError)
      case Some(i) =>
        var u := s.users[i];
        if u.password != Hashed(password) then Fail(InputError)
        else
          var token := if u.token == LoggedOut then Jwt(u.uId, email) else u.token;
          Ok((s.(users := EditUsers(s.users, u.uId, TokenTo(token))), u.uId, token))
  }

  /** Every stored token is either the logged-out marker or a token for the record's own
      u_id. */
  predicate TokensOwned(users: seq<User>) {
    forall i :: 0 <= i < |users| ==> users[i].token == LoggedOut || Decode(users[i].token) == Some(users[i].uId)
  }

  /** After a login, the returned token resolves to the user. */
  lemma LoginOpensSession(s: Store, email: string, emailOk: bool, password: string)
    requires Login(s, email, emailOk, password).Ok? && TokensOwned(s.users)
    ensures var (s', uid, token) := Login(s, email, emailOk, password).value;
      GetUserId(s'.users, token) == Ok(uid) && TokensOwned(s'.users)
  {
    var (s', uid, token) := Login(s, email, emailOk, password).value;
    var i := FirstWithEmail(s.users, email).value;
    assert s'.users[i].token == token && s'.users[i].uId == uid;
    assert HoldsSession(s'.users, uid, token);
    TokenToOwned(s.users, uid, token);
  }

  /** Handing every record of a u_id a token for that u_id keeps the tokens owned. */
  lemma TokenToOwned(users: seq<User>, uid: int, token: Token)
    requires TokensOwned(users) && (token == LoggedOut || Decode(token) == Some(uid))
    ensures TokensOwned(EditUsers(users, uid, TokenTo(token)))
  {
    var r := EditUsers(users, uid, TokenTo(token));
    forall i | 0 <= i < |r|
      ensures r[i].token == LoggedOut || Decode(r[i].token) == Some(r[i].uId)
    {
      if users[i].uId == uid {
        assert r[i] == users[i].(token := token);
      }
    }
  }

  /** `auth_logout`: the first record holding the token is logged out and the call
      reports success; with no such record nothing changes and it reports failure. */
  function Logout(s: Store, t: Token): (r: (Store, bool))
    ensures r.1 <==> exists i :: 0 <= i < |s.users| && s.users[i].token == t
    ensures !r.1 ==> r.0 == s
    ensures r.1 ==> exists i :: 0 <= i < |s.users| && s.users[i].token == t
                                && (forall k :: 0 <= k < i ==> s.users[k].token != t)
                                && r.0 == s.(users := s.users[i := s.users[i].(token := LoggedOut)])
  {
    match FirstWithToken(s.users, t)
    case None => (s, false)
    case Some(i) => (s.(users := s.users[i := s.users[i].(token := LoggedOut)]), true)
  }

  function FirstWithToken(users: seq<User>, t: Token): (r: Option<nat>)
    ensures r.None? <==> forall i :: 0 <= i < |users| ==> users[i].token != t
    ensures r.Some? ==> r.value < |users| && users[r.value].token == t
    ensures r.Some? ==> forall k :: 0 <= k < r.value ==> users[k].token != t
  {
    if |users| == 0 then None
    else if users[0].token == t then Some(0)
    else
      match FirstWithToken(users[1..], t)
      case None => None
      case Some(i) => Some(i + 1)
  }

  /** When one record at most holds a token, logging it out ends the session. */
  lemma LogoutEndsSession(s: Store, t: Token)
    requires Logout(s, t).1
    requires forall i, j :: 0 <= i < j < |s.users| && s.users[i].token == t ==> s.users[j].token != t
    requires t != LoggedOut
    ensures GetUserId(Logout(s, t).0.users, t).Fail?
  {
    var k := FirstWithToken(s.users, t).value;
    var us := Logout(s, t).0.users;
    forall i | 0 <= i < |us|
      ensures us[i].token != t
    {
      if i != k {
        assert us[i] == s.users[i];
      }
    }
  }

  // ------------------------------------------------------------------------------------
  // auth_passwordreset_reset, generate_code

  /** `auth_passwordreset_reset`: the code is upper-cased; a length other than 6, a new
      password under 6 characters, or no record holding the code raise `InputError`. The
      first record with the code gets the new password and loses the code. */
  function ResetPassword(s: Store, code: string, newPassword: string): (r: Result<Store>)
    ensures r.Fail? ==> r.error == InputError
    ensures r.Ok? <==> (|code| == ResetCodeLength && |newPassword| >= MinPasswordLength
                        && exists i :: 0 <= i < |s.users| && s.users[i].resetCode == Upper(code))
    ensures r.Ok? ==> exists i :: 0 <= i < |s.users| && s.users[i].resetCode == Upper(code)
                                  && (forall k :: 0 <= k < i ==> s.users[k].resetCode != Upper(code))
                                  && r.value == s.(users := s.users[i := s.users[i].(password := Hashed(newPassword), resetCode := "")])
  {
    var c := Upper(code);
    if |c| != ResetCodeLength then Fail(InputError)
    else if |newPassword| < MinPasswordLength then Fail(InputError)
    else
      match FirstWithCode(s.users, c)
      case None => Fail(InputError)
      case Some(i) => Ok(s.(users := s.users[i := s.users[i].(password := Hashed(newPassword), resetCode := "")]))
  }

  function FirstWithCode(users: seq<User>, code: string): (r: Option<nat>)
    ensures r.None? <==> forall i :: 0 <= i < |users| ==> users[i].resetCode != code
    ensures r.Some? ==> r.value < |users| && users[r.value].resetCode == code
    ensures r.Some? ==> forall k :: 0 <= k < r.value ==> users[k].resetCode != code
  {
    if |users| == 0 then None
    else if users[0].resetCode == code then Some(0)
    else
      match FirstWithCode(users[1..], code)
      case None => None
      case Some(i) => Some(i + 1)
  }

  /** A code works once: after a reset, the same code is refused unless another record
      also held it. */
  lemma ResetCodeSpent(s: Store, code: string, p1: string, p2: string)
    requires ResetPassword(s, code, p1).Ok?
    requires forall i, j :: 0 <= i < j < |s.users| && s.users[i].resetCode == Upper(code) ==> s.users[j].resetCode != Upper(code)
    ensures ResetPassword(ResetPassword(s, code, p1).value, code, p2).Fail?
  {
    var s' := ResetPassword(s, code, p1).value;
    var i :| 0 <= i < |s.users| && s.users[i].resetCode == Upper(code)
             && (forall k :: 0 <= k < i ==> s.users[k].resetCode != Upper(code))
             && s' == s.(users := s.users[i := s.users[i].(password := Hashed(p1), resetCode := "")]);
    assert Upper(code) != "";
    forall j | 0 <= j < |s'.users|
      ensures s'.users[j].resetCode != Upper(code)
    {
      if j != i {
        if j < i {
        } else {
          assert s.users[j].resetCode != Upper(code);
        }
      }
    }
  }

  /** `random.shuffle`: for each position from the last down to the second, swap it with
      a position drawn at random at or below it (`draws`, reduced to that range). */
  function Shuffle<T>(s: seq<T>, i: nat, draws: seq<nat>): (r: seq<T>)
    requires i < |s|
    decreases i
    ensures |r| == |s| && multiset(r) == multiset(s)
  {
    if i == 0 || |draws| == 0 then s
    else
      var j := draws[0] % (i + 1);
      var swapped := s[i := s[j]][j := s[i]];
      Shuffle(swapped, i - 1, draws[1..])
  }

  /** `generate_code`: three draws from the upper-case letters and three from the digits,
      appended a letter then a digit at a time, then shuffled. */
  function GenerateCode(letters: seq<char>, digits: seq<char>, draws: seq<nat>): (code: string)
    requires |letters| == 3 && |digits| == 3
    ensures |code| == ResetCodeLength
    ensures multiset(code) == multiset(letters) + multiset(digits)
  {
    Shuffle(Interleave(letters, digits), 5, draws)
  }

  /** The letter-then-digit loop: each round appends the next of each. */
  function Interleave<T>(a: seq<T>, b: seq<T>): (r: seq<T>)
    requires |a| == |b|
    ensures |r| == 2 * |a|
    ensures multiset(r) == multiset(a) + multiset(b)
  {
    if |a| == 0 then []
    else
      var rest := Interleave(a[1..], b[1..]);
      assert a == [a[0]] + a[1..];
      assert b == [b[0]] + b[1..];
      assert [a[0], b[0]] + rest == [a[0]] + ([b[0]] + rest);
      [a[0], b[0]] + rest
  }

  /** A code drawn from upper-case letters and digits holds exactly three of each. */
  lemma GenerateCodeShape(letters: seq<char>, digits: seq<char>, draws: seq<nat>)
    requires |letters| == 3 && |digits| == 3
    requires forall k :: 0 <= k < 3 ==> IsUpper(letters[k]) && IsDigit(digits[k])
    ensures var code := GenerateCode(letters, digits, draws);
      && (forall k :: 0 <= k < |code| ==> IsUpper(code[k]) || IsDigit(code[k]))
      && multiset(code) == multiset(letters) + multiset(digits)
      && Upper(code) == code
  {
    var code := GenerateCode(letters, digits, draws);
    forall k | 0 <= k < |code|
      ensures IsUpper(code[k]) || IsDigit(code[k])
    {
      assert code[k] in multiset(code);
      assert code[k] in letters || code[k] in digits;
    }
    assert Upper(code) == code;
  }

  // ------------------------------------------------------------------------------------
  // auth_passwordreset_request

  /** Some user record holds this reset code. */
  predicate CodeInUse(users: seq<User>, code: string) {
    exists i :: 0 <= i < |users| && users[i].resetCode == code
  }

  /** The first of the generated codes (`candidates`, successive `generate_code` results)
      that no record holds yet. */
  function FreshCode(users: seq<User>, candidates: seq<string>): (r: Option<string>)
    ensures r.Some? ==> r.value in candidates && !CodeInUse(users, r.value)
    ensures r.None? ==> forall k :: 0 <= k < |candidates| ==> CodeInUse(users, candidates[k])
    ensures r.Some? ==> exists k :: 0 <= k < |candidates| && candidates[k] == r.value && forall l :: 0 <= l < k ==> CodeInUse(users, candidates[l])
  {
    if |candidates| == 0 then None
    else if !CodeInUse(users, candidates[0]) then Some(candidates[0])
    else
      var r := FreshCode(users, candidates[1..]);
      assert forall k :: 1 <= k < |candidates| ==> candidates[k] == candidates[1..][k - 1];
      assert r.Some? ==> exists k :: 0 <= k < |candidates| && candidates[k] == r.value && forall l :: 0 <= l < k ==> CodeInUse(users, candidates[l]) by {
        if r.Some? {
          var k :| 0 <= k < |candidates[1..]| && candidates[1..][k] == r.value && forall l :: 0 <= l < k ==> CodeInUse(users, candidates[1..][l]);
          assert candidates[k + 1] == r.value;
        }
      }
      r
  }

  /** `auth_passwordreset_request`: an unknown email is ignored; otherwise a code no record
      holds is drawn and stored on every record with the email. The code, which the source
      mails out, is returned. */
  function RequestReset(s: Store, email: string, candidates: seq<string>): (r: Result<(Store, Option<string>)>)
    ensures !EmailTaken(s.users, email) ==> r == Ok((s, None))
    ensures r.Ok? && r.value.1.Some? ==> var (s', code) := (r.value.0, r.value.1.value);
      && EmailTaken(s.users, email) && !CodeInUse(s.users, code) && code in candidates
      && |s'.users| == |s.users|
      && (forall i :: 0 <= i < |s.users| && s.users[i].email == email ==> s'.users[i] == s.users[i].(resetCode := code))
      && (forall i :: 0 <= i < |s.users| && s.users[i].email != email ==> s'.users[i] == s.users[i])
      && s' == s.(users := s'.users)
    ensures r.Fail? ==> r.error == RuntimeError && EmailTaken(s.users, email)
    ensures EmailTaken(s.users, email) && r.Ok? ==> r.value.1.Some?
    ensures EmailTaken(s.users, email) ==>
      (r.Ok? <==> exists k :: 0 <= k < |candidates| && !CodeInUse(s.users, candidates[k]))
    ensures r.Ok? && r.value.1.Some? ==>
      exists k :: 0 <= k < |candidates| && candidates[k] == r.value.1.value && forall l :: 0 <= l < k ==> CodeInUse(s.users, candidates[l])
  {
    if !EmailTaken(s.users, email) then Ok((s, None))
    else
      match FreshCode(s.users, candidates)
      case None => Fail(RuntimeError)
      case Some(code) =>
        var users := seq(|s.users|, i requires 0 <= i < |s.users| =>
          if s.users[i].email == email then s.users[i].(resetCode := code) else s.users[i]);
        Ok((s.(users := users), Some(code)))
  }

  /** The mailed code works: a six-character upper-case code resets the password of the
      first record with the email, and of no other. */
  lemma RequestThenReset(s: Store, email: string, candidates: seq<string>, newPassword: string)
    requires RequestReset(s, email, candidates).Ok? && RequestReset(s, email, candidates).value.1.Some?
    requires var code := RequestReset(s, email, candidates).value.1.value;
      |code| == ResetCodeLength && Upper(code) == code
    requires |newPassword| >= MinPasswordLength
    ensures var (s', code) := (RequestReset(s, email, candidates).value.0, RequestReset(s, email, candidates).value.1.value);
      var i := FirstWithEmail(s.users, email).value;
      ResetPassword(s', code, newPassword)
        == Ok(s'.(users := s'.users[i := s'.users[i].(password := Hashed(newPassword), resetCode := "")]))
  {
    var (s', code) := (RequestReset(s, email, candidates).value.0, RequestReset(s, email, candidates).value.1.value);
    var i := FirstWithEmail(s.users, email).value;
    assert s'.users[i].resetCode == code;
    forall k | 0 <= k < i
      ensures s'.users[k].resetCode != code
    {
      assert s.users[k].email != email;
      assert s'.users[k] == s.users[k];
    }
    var j := FirstWithCode(s'.users, code).value;
    assert j == i;
  }
}

=== FILE: channel.dfy ===
/** Operations on one channel (channel.py): invite, details, paginated message reads,
    leave (with its clean-up rules), join, and owner promotion / demotion. */
module ChannelOps {
  import opened Wrappers
  import opened Strings
  import opened Data
  import opened Helper

  // ------------------------------------------------------------------------------------
  // channel_invite

  /** `channel_invite`. The channel is looked up before the token, then the inviter's
      membership, then the invitee. Inviting a member changes nothing; otherwise the invitee
      joins `all_members`, the channel joins the invitee's list, and an invitee who is a
      global owner also joins `owner_members`. */
  function Invite(s: Store, t: Token, cid: int, target: int): (r: Result<Store>)
    ensures CheckChannelValid(s.channels, cid).Fail? ==> r == Fail(InputError)
    ensures CheckChannelValid(s.channels, cid).Ok? && GetUserId(s.users, t).Fail? ==> r == Fail(AccessError)
    ensures (CheckChannelValid(s.channels, cid).Ok? && GetUserId(s.users, t).Ok?
             && MissingMembership(s.users, GetUserId(s.users, t).value, cid)) ==> r == Fail(AccessError)
    ensures (CheckChannelValid(s.channels, cid).Ok? && GetUserId(s.users, t).Ok?
             && !MissingMembership(s.users, GetUserId(s.users, t).value, cid)
             && GetUserIndex(s.users, target).Fail?) ==> r == Fail(InputError)
    ensures r.Ok? ==> CheckChannelValid(s.channels, cid).Ok? && GetUserIndex(s.users, target).Ok?
    ensures r.Ok? ==>
      var j := CheckChannelValid(s.channels, cid).value;
      var i := GetUserIndex(s.users, target).value;
      var c := s.channels[j];
      if target in c.allMembers then r.value == s
      else
        && r.value.channels == s.channels[j := c.(
             allMembers := c.allMembers + [target],
             ownerMembers := if UserFlockrOwner(s.users, target) then c.ownerMembers + [target] else c.ownerMembers)]
        && r.value.users == s.users[i := s.users[i].(channels := s.users[i].channels + [cid])]
        && r.value.logs == s.logs && r.value.trivias == s.trivias && r.value.counter == s.counter
  {
    var j :- CheckChannelValid(s.channels, cid);
    var auth :- GetUserId(s.users, t);
    var _ :- CheckUserInChannel(s.users, auth, cid);
    var i :- GetUserIndex(s.users, target);
    var c := s.channels[j];
    if target in c.allMembers then Ok(s)
    else
      var owners := if UserFlockrOwner(s.users, target) then c.ownerMembers + [target] else c.ownerMembers;
      var u := s.users[i];
      Ok(s.(channels := s.channels[j := c.(allMembers := c.allMembers + [target], ownerMembers := owners)],
            users := s.users[i := u.(channels := u.channels + [cid])]))
  }

  // ------------------------------------------------------------------------------------
  // channel_details

  /** What the details listing shows of a user. */
  datatype MemberRecord = MemberRecord(uId: int, nameFirst: string, nameLast: string, imgUrl: string)

  function RecordOf(u: User): MemberRecord {
    MemberRecord(u.uId, u.nameFirst, u.nameLast, u.imgUrl)
  }

  /** The positions, from `off` on, of the user records holding this u_id, in ascending
      order. */
  function Holders(users: seq<User>, id: int, off: nat): (ps: seq<int>)
    ensures forall k :: 0 <= k < |ps| ==> off <= ps[k] < |users| && users[ps[k]].uId == id
    ensures forall i :: off <= i < |users| && users[i].uId == id ==> i in ps
    ensures forall k :: 0 < k < |ps| ==> ps[k - 1] < ps[k]
    decreases |users| - off
  {
    if off >= |users| then []
    else (if users[off].uId == id then [off] else []) + Holders(users, id, off + 1)
  }

  /** The records of every user holding this u_id, in store order: one per holder. */
  function RecordsFor(users: seq<User>, id: int): (r: seq<MemberRecord>)
    ensures var ps := Holders(users, id, 0);
      |r| == |ps| && forall k :: 0 <= k < |r| ==> r[k] == RecordOf(users[ps[k]])
  {
    RecordsFrom(users, id, 0)
  }

  function RecordsFrom(users: seq<User>, id: int, off: nat): (r: seq<MemberRecord>)
    ensures var ps := Holders(users, id, off);
      |r| == |ps| && forall k :: 0 <= k < |r| ==> r[k] == RecordOf(users[ps[k]])
    decreases |users| - off
  {
    if off >= |users| then []
    else (if users[off].uId == id then [RecordOf(users[off])] else []) + RecordsFrom(users, id, off + 1)
  }

  /** No two user records share a u_id. */
  predicate UniqueIds(users: seq<User>) {
    forall i, j :: 0 <= i < j < |users| ==> users[i].uId != users[j].uId
  }

  /** With unique u_ids, a held id has exactly the one record of its holder. */
  lemma RecordsForUnique(users: seq<User>, id: int, i: int)
    requires UniqueIds(users) && 0 <= i < |users| && users[i].uId == id
    ensures RecordsFor(users, id) == [RecordOf(users[i])]
  {
    assert forall j :: 0 <= j < |users| && j != i ==> users[j].uId != id by {
      forall j | 0 <= j < |users| && j != i ensures users[j].uId != id {
        if j < i { assert users[j].uId != users[i].uId; } else { assert users[i].uId != users[j].uId; }
      }
    }
    HoldersSingle(users, id, 0, i);
  }

  lemma {:induction false} HoldersSingle(users: seq<User>, id: int, off: nat, i: int)
    requires off <= i < |users| && users[i].uId == id
    requires forall j :: off <= j < |users| && j != i ==> users[j].uId != id
    ensures Holders(users, id, off) == [i]
    decreases i - off
  {
    if off == i {
      HoldersNone(users, id, off + 1);
      HoldersCons(users, id, off);
    } else {
      HoldersSingle(users, id, off + 1, i);
      HoldersCons(users, id, off);
    }
  }

  /** One step of the scan. */
  lemma HoldersCons(users: seq<User>, id: int, off: nat)
    requires off < |users|
    ensures Holders(users, id, off) == (if users[off].uId == id then [off] else []) + Holders(users, id, off + 1)
  {
  }

  lemma {:induction false} HoldersNone(users: seq<User>, id: int, off: nat)
    requires forall j :: off <= j < |users| ==> users[j].uId != id
    ensures Holders(users, id, off) == []
    decreases |users| - off
  {
    if off < |users| {
      HoldersNone(users, id, off + 1);
    }
  }

  /** The records of the listed u_ids, in the order of the list: each id contributes the
      records of its holders. With user records at the positions of their u_ids, that is
      one record per listed id. */
  function Records(ids: seq<int>, users: seq<User>): (r: seq<MemberRecord>)
    ensures (forall i :: 0 <= i < |users| ==> users[i].uId == i) && (forall k :: 0 <= k < |ids| ==> 0 <= ids[k] < |users|) ==>
      |r| == |ids| && forall k :: 0 <= k < |ids| ==> r[k] == RecordOf(users[ids[k]])
  {
    if |ids| == 0 then []
    else
      var here := RecordsFor(users, ids[0]);
      var rest := Records(ids[1..], users);
      RecordsStep(ids, users, rest);
      here + rest
  }

  /** The step of `Records`: with users at their u_ids, the head id's record followed by the
      records of the other ids, one each, lists one record per id. */
  lemma RecordsStep(ids: seq<int>, users: seq<User>, rest: seq<MemberRecord>)
    requires |ids| > 0
    requires (forall i :: 0 <= i < |users| ==> users[i].uId == i) && (forall k :: 0 <= k < |ids[1..]| ==> 0 <= ids[1..][k] < |users|) ==>
      |rest| == |ids[1..]| && forall k :: 0 <= k < |ids[1..]| ==> rest[k] == RecordOf(users[ids[1..][k]])
    ensures var r := RecordsFor(users, ids[0]) + rest;
      (forall i :: 0 <= i < |users| ==> users[i].uId == i) && (forall k :: 0 <= k < |ids| ==> 0 <= ids[k] < |users|) ==>
        |r| == |ids| && forall k :: 0 <= k < |ids| ==> r[k] == RecordOf(users[ids[k]])
  {
    if (forall i :: 0 <= i < |users| ==> users[i].uId == i) && (forall k :: 0 <= k < |ids| ==> 0 <= ids[k] < |users|) {
      assert forall k :: 1 <= k < |ids| ==> ids[1..][k - 1] == ids[k];
      IndexedHead(users, ids[0]);
    }
  }

  /** With user records at the positions of their u_ids, an id in range has one record. */
  lemma IndexedHead(users: seq<User>, id: int)
    ensures (forall i :: 0 <= i < |users| ==> users[i].uId == i) && 0 <= id < |users| ==>
      RecordsFor(users, id) == [RecordOf(users[id])]
  {
    if (forall i :: 0 <= i < |users| ==> users[i].uId == i) && 0 <= id < |users| {
      RecordsForUnique(users, id, id);
    }
  }

  /** Listing two runs of ids one after the other lists their records one after the other. */
  lemma {:induction false} RecordsConcat(a: seq<int>, b: seq<int>, users: seq<User>)
    ensures Records(a + b, users) == Records(a, users) + Records(b, users)
    decreases |a|
  {
    if |a| > 0 {
      assert (a + b)[1..] == a[1..] + b;
      RecordsConcat(a[1..], b, users);
    } else {
      assert a + b == b;
    }
  }

  /** Every listed record is that of a user holding one of the ids. */
  lemma {:induction false} RecordsSound(ids: seq<int>, users: seq<User>, m: MemberRecord)
    requires m in Records(ids, users)
    ensures exists i :: 0 <= i < |users| && users[i].uId in ids && m == RecordOf(users[i])
    decreases |ids|
  {
    var here := RecordsFor(users, ids[0]);
    if m in here {
      var k :| 0 <= k < |here| && here[k] == m;
      var i := Holders(users, ids[0], 0)[k];
      assert users[i].uId in ids;
    } else {
      RecordsSound(ids[1..], users, m);
      var i :| 0 <= i < |users| && users[i].uId in ids[1..] && m == RecordOf(users[i]);
      assert users[i].uId in ids;
    }
  }

  /** A single id lists exactly the records of its holders. */
  lemma RecordsSingle(id: int, users: seq<User>)
    ensures Records([id], users) == RecordsFor(users, id)
  {
    assert [id][1..] == [];
  }

  datatype Details = Details(name: string, ownerMembers: seq<MemberRecord>, allMembers: seq<MemberRecord>)

  /** `channel_details`: name, then owners and members as records in stored order; each
      record carries the u_id, both names and the profile image of a user holding the id. */
  function ChannelDetails(s: Store, t: Token, cid: int): (r: Result<Details>)
    ensures CheckChannelValid(s.channels, cid).Fail? ==> r == Fail(InputError)
    ensures CheckChannelValid(s.channels, cid).Ok? && GetUserId(s.users, t).Fail? ==> r == Fail(AccessError)
    ensures r.Ok? <==> CheckChannelValid(s.channels, cid).Ok? && GetUserId(s.users, t).Ok?
                       && !MissingMembership(s.users, GetUserId(s.users, t).value, cid)
    ensures r.Ok? ==>
      var c := s.channels[CheckChannelValid(s.channels, cid).value];
      && r.value.name == c.name
      && r.value.ownerMembers == Records(c.ownerMembers, s.users)
      && r.value.allMembers == Records(c.allMembers, s.users)
      && ((forall i :: 0 <= i < |s.users| ==> s.users[i].uId == i)
          && (forall k :: 0 <= k < |c.ownerMembers| ==> 0 <= c.ownerMembers[k] < |s.users|)
          ==> |r.value.ownerMembers| == |c.ownerMembers|
              && forall k :: 0 <= k < |c.ownerMembers| ==> r.value.ownerMembers[k] == RecordOf(s.users[c.ownerMembers[k]]))
      && ((forall i :: 0 <= i < |s.users| ==> s.users[i].uId == i)
          && (forall k :: 0 <= k < |c.allMembers| ==> 0 <= c.allMembers[k] < |s.users|)
          ==> |r.value.allMembers| == |c.allMembers|
              && forall k :: 0 <= k < |c.allMembers| ==> r.value.allMembers[k] == RecordOf(s.users[c.allMembers[k]]))
  {
    var j :- CheckChannelValid(s.channels, cid);
    var auth :- GetUserId(s.users, t);
    var _ :- CheckUserInChannel(s.users, auth, cid);
    var c := s.channels[j];
    Ok(Details(c.name, Records(c.ownerMembers, s.users), Records(c.allMembers, s.users)))
  }

  // ------------------------------------------------------------------------------------
  // channel_messages

  const PageSize: int := 50

  datatype Page = Page(messages: seq<Message>, start: int, end: int)

  /** The log `channel_messages` pages through: the last log entry with the id, or an empty
      list when there is none. */
  function PagedLog(logs: seq<ChannelLog>, cid: int): seq<Message> {
    match LastLog(logs, cid)
    case None => []
    case Some(ms) => ms
  }

  /** Some log entry with this id has fewer than `start` messages. */
  predicate StartBeyond(logs: seq<ChannelLog>, cid: int, start: int) {
    exists i :: 0 <= i < |logs| && logs[i].channelId == cid && start > |logs[i].messages|
  }

  function StartBeyondScan(logs: seq<ChannelLog>, cid: int, start: int): (b: bool)
    ensures b <==> StartBeyond(logs, cid, start)
  {
    if |logs| == 0 then false
    else if logs[0].channelId == cid && start > |logs[0].messages| then true
    else
      assert forall i :: 0 <= i < |logs| - 1 ==> logs[1..][i] == logs[i + 1];
      StartBeyondScan(logs[1..], cid, start)
  }

  /** The slice arithmetic of `channel_messages`: reverse the log, then take
      `[start:start + 50]` when the log is longer than 50 and `[start:]` otherwise. */
  function Paginate(log: seq<Message>, start: int): (p: (seq<Message>, int))
  {
    var newestFirst := Reverse(log);
    var end := if |newestFirst| <= PageSize then -1 else start + PageSize;
    var page := if end > 0 then Slice(newestFirst, start, end) else SliceFrom(newestFirst, start);
    (page, end)
  }

  function Min(a: int, b: int): int { if a <= b then a else b }

  /** For a start inside the log: the page is the newest-first log from `start`, at most 50
      messages, so its k-th message is the log's (start + k)-th newest; `end` is -1 iff the
      whole log fits in one page, otherwise `start + 50`, even when fewer than 50 messages
      remain. */
  lemma PaginateSpec(log: seq<Message>, start: int)
    requires 0 <= start <= |log|
    ensures Paginate(log, start).0 == Reverse(log)[start..Min(start + PageSize, |log|)]
    ensures |Paginate(log, start).0| == Min(PageSize, |log| - start)
    ensures forall k :: 0 <= k < |Paginate(log, start).0| ==>
      Paginate(log, start).0[k] == log[|log| - 1 - start - k]
    ensures Paginate(log, start).1 == if |log| <= PageSize then -1 else start + PageSize
  {
    var p := Paginate(log, start);
    var rev := Reverse(log);
    if |log| <= PageSize {
      assert p.0 == rev[start..];
    } else {
      assert p.0 == rev[start..Min(start + PageSize, |log|)];
    }
    forall k | 0 <= k < |p.0|
      ensures p.0[k] == log[|log| - 1 - start - k]
    {
      assert p.0[k] == rev[start + k];
    }
  }

  /** For a negative start, which Python counts from the end of the newest-first log: with
      `a` the position it names (0 when it reaches before the log), the page is everything
      from `a` on, so with `start <= -50` it can exceed 50 messages, because `end` is then not
      positive and the open slice is taken. The one exception is a log longer than 50 with
      `-50 < start < 0`: `end` is a positive bound that lies before `a`, and the page is empty. */
  lemma PaginateNegative(log: seq<Message>, start: int)
    requires start < 0
    ensures var a := if |log| + start < 0 then 0 else |log| + start;
      Paginate(log, start).0 == if |log| > PageSize && start + PageSize > 0 then [] else Reverse(log)[a..]
    ensures Paginate(log, start).1 == if |log| <= PageSize then -1 else start + PageSize
  {
    var rev, n := Reverse(log), |log|;
    var p := Paginate(log, start).0;
    assert |rev| == n;
    if n > PageSize && start + PageSize > 0 {
      assert p == Slice(rev, start, start + PageSize);
      assert SliceBound(start, n) == n + start && SliceBound(start + PageSize, n) == start + PageSize;
    } else {
      assert p == SliceFrom(rev, start);
    }
  }

  /** Two consecutive pages read back-to-back give the newest-first log without gap or overlap. */
  lemma ConsecutivePages(log: seq<Message>, start: int)
    requires 0 <= start && start + PageSize <= |log|
    ensures Paginate(log, start).0 + Paginate(log, start + PageSize).0
            == Reverse(log)[start..Min(start + 2 * PageSize, |log|)]
  {
    PaginateSpec(log, start);
    PaginateSpec(log, start + PageSize);
    AdjacentSlices(Reverse(log), start, start + PageSize, Min(start + 2 * PageSize, |log|));
  }

  lemma AdjacentSlices<T>(s: seq<T>, a: nat, b: nat, c: nat)
    requires a <= b <= c <= |s|
    ensures s[a..b] + s[b..c] == s[a..c]
  {
  }

  /** `channel_messages`. `start` past the message count is an `InputError`; otherwise the
      page of the newest-first log, annotated for the reader. */
  function ChannelMessages(s: Store, t: Token, cid: int, start: int): (r: Result<Page>)
    ensures CheckChannelValid(s.channels, cid).Fail? ==> r == Fail(InputError)
    ensures CheckChannelValid(s.channels, cid).Ok? && GetUserId(s.users, t).Fail? ==> r == Fail(AccessError)
    ensures (CheckChannelValid(s.channels, cid).Ok? && GetUserId(s.users, t).Ok?
             && MissingMembership(s.users, GetUserId(s.users, t).value, cid)) ==> r == Fail(AccessError)
    ensures CheckChannelValid(s.channels, cid).Ok? && GetUserId(s.users, t).Ok?
            && !MissingMembership(s.users, GetUserId(s.users, t).value, cid) ==>
            (r.Fail? <==> StartBeyond(s.logs, cid, start))
    ensures r.Fail? ==> r.error == InputError || r.error == AccessError
    ensures r.Ok? ==>
      var log := PagedLog(s.logs, cid);
      var uid := Decode(t).value;
      && r.value.start == start
      && r.value.end == (if |log| <= PageSize then -1 else start + PageSize)
      && |r.value.messages| == |Paginate(log, start).0|
      && (forall k :: 0 <= k < |r.value.messages| ==>
            Unflagged(r.value.messages[k]) == Unflagged(Paginate(log, start).0[k]))
      && (0 <= start <= |log| ==>
           && |r.value.messages| == Min(PageSize, |log| - start)
           && (forall k :: 0 <= k < |r.value.messages| ==>
                 Unflagged(r.value.messages[k]) == Unflagged(log[|log| - 1 - start - k]))
           && r.value.end == (if |log| <= PageSize then -1 else start + PageSize))
      && (forall k :: 0 <= k < |r.value.messages| ==>
            (r.value.messages[k].react.isThisUserReacted <==> uid in r.value.messages[k].react.uIds))
  {
    var _ :- CheckChannelValid(s.channels, cid);
    var auth :- GetUserId(s.users, t);
    var _ :- CheckUserInChannel(s.users, auth, cid);
    if StartBeyondScan(s.logs, cid, start) then Fail(InputError)
    else Ok(ReadPage(PagedLog(s.logs, cid), start, auth))
  }

  /** The page of `log` from `start`, each message flagged for the reader `uid`. */
  function ReadPage(log: seq<Message>, start: int, uid: int): (r: Page)
    ensures r.start == start
    ensures r.end == (if |log| <= PageSize then -1 else start + PageSize)
    ensures |r.messages| == |Paginate(log, start).0|
    ensures forall k :: 0 <= k < |r.messages| ==> Unflagged(r.messages[k]) == Unflagged(Paginate(log, start).0[k])
    ensures 0 <= start <= |log| ==>
      && |r.messages| == Min(PageSize, |log| - start)
      && (forall k :: 0 <= k < |r.messages| ==> Unflagged(r.messages[k]) == Unflagged(log[|log| - 1 - start - k]))
      && r.end == (if |log| <= PageSize then -1 else start + PageSize)
    ensures forall k :: 0 <= k < |r.messages| ==>
      (r.messages[k].react.isThisUserReacted <==> uid in r.messages[k].react.uIds)
  {
    var p := Paginate(log, start);
    if 0 <= start <= |log| then
      PaginateSpec(log, start);
      Page(ChangeUserReacted(p.0, uid), start, p.1)
    else
      Page(ChangeUserReacted(p.0, uid), start, p.1)
  }

  // ------------------------------------------------------------------------------------
  // channel_leave

  /** The post-leave rules applied to a channel `c` the leaver belonged to: drop the leaver
      from the members (and from the owners when the owner check said so), then delete the
      channel at 0 members (`None`), make the owners equal to the members at 1 member, and
      otherwise promote the oldest member when no owner remains. */
  function AfterLeave(c: Channel, uid: int, wasOwner: bool): (r: Option<Channel>)
    ensures r.None? <==> |RemoveFirst(c.allMembers, uid)| == 0
    ensures r.Some? ==> r.value.allMembers == RemoveFirst(c.allMembers, uid)
    ensures r.Some? ==> r.value.channelId == c.channelId && r.value.name == c.name
                        && r.value.isPublic == c.isPublic && r.value.standup == c.standup
    ensures r.Some? ==> |r.value.ownerMembers| > 0
    ensures r.Some? && |r.value.allMembers| == 1 ==> r.value.ownerMembers == r.value.allMembers
    ensures r.Some? && |r.value.allMembers| > 1 ==>
      var owners := if wasOwner then RemoveFirst(c.ownerMembers, uid) else c.ownerMembers;
      r.value.ownerMembers == (if |owners| == 0 then [r.value.allMembers[0]] else owners)
  {
    var members := RemoveFirst(c.allMembers, uid);
    var owners := if wasOwner then RemoveFirst(c.ownerMembers, uid) else c.ownerMembers;
    if |members| == 0 then None
    else if |members| == 1 then Some(c.(allMembers := members, ownerMembers := members))
    else if |owners| == 0 then Some(c.(allMembers := members, ownerMembers := [members[0]]))
    else Some(c.(allMembers := members, ownerMembers := owners))
  }

  function RemoveAt<T>(s: seq<T>, j: nat): (r: seq<T>)
    requires j < |s|
    ensures |r| == |s| - 1
    ensures forall k :: 0 <= k < j ==> r[k] == s[k]
    ensures forall k :: j <= k < |r| ==> r[k] == s[k + 1]
  {
    s[..j] + s[j + 1..]
  }

  /** `channel_leave`. The channel is looked up by its first position; the caller must list
      it. The caller leaves `all_members` and drops the channel from their own list, then
      the post-leave rules apply. `list.remove` raises `ValueError` when the caller is not in
      that channel's `all_members` (possible only when channel ids collide), and so does the
      owner removal when the owner check, which reads the last channel with the id, disagrees
      with the channel at the first position. */
  function Leave(s: Store, t: Token, cid: int): (r: Result<Store>)
    ensures GetUserId(s.users, t).Fail? ==> r == Fail(AccessError)
    ensures GetUserId(s.users, t).Ok? && CheckChannelValid(s.channels, cid).Fail? ==> r == Fail(InputError)
    ensures (GetUserId(s.users, t).Ok? && CheckChannelValid(s.channels, cid).Ok?
             && MissingMembership(s.users, GetUserId(s.users, t).value, cid)) ==> r == Fail(AccessError)
    ensures r.Ok? ==> GetUserId(s.users, t).Ok? && CheckChannelValid(s.channels, cid).Ok?
                      && GetUserIndex(s.users, GetUserId(s.users, t).value).Ok?
    ensures r.Ok? ==>
      var uid := GetUserId(s.users, t).value;
      var j := CheckChannelValid(s.channels, cid).value;
      var i := GetUserIndex(s.users, uid).value;
      var after := AfterLeave(s.channels[j], uid, CheckUserOwner(s.channels, uid, cid));
      && uid in s.channels[j].allMembers
      && r.value.users == s.users[i := s.users[i].(channels := RemoveFirst(s.users[i].channels, cid))]
      && r.value.channels == (if after.None? then RemoveAt(s.channels, j) else s.channels[j := after.value])
      && r.value.logs == s.logs && r.value.trivias == s.trivias && r.value.counter == s.counter
      && r.value.pending == s.pending
  {
    var uid :- GetUserId(s.users, t);
    var j :- CheckChannelValid(s.channels, cid);
    var _ :- CheckUserInChannel(s.users, uid, cid);
    match GetUserIndex(s.users, uid)
    case Fail(e) => Fail(e)
    case Ok(i) =>
    var c := s.channels[j];
    var wasOwner := CheckUserOwner(s.channels, uid, cid);
    if uid !in c.allMembers then Fail(RuntimeError)
    else if wasOwner && uid !in c.ownerMembers then Fail(RuntimeError)
    else
      var u := s.users[i];
      var s1 := s.(users := s.users[i := u.(channels := RemoveFirst(u.channels, cid))]);
      match AfterLeave(c, uid, wasOwner)
      case None => Ok(s1.(channels := RemoveAt(s.channels, j)))
      case Some(c') => Ok(s1.(channels := s.channels[j := c']))
  }

  // ------------------------------------------------------------------------------------
  // channel_join

  /** `channel_join`. A member joining again changes nothing. A private channel admits only
      global owners, who also become channel owners on joining. */
  function Join(s: Store, t: Token, cid: int): (r: Result<Store>)
    ensures GetUserId(s.users, t).Fail? ==> r == Fail(AccessError)
    ensures GetUserId(s.users, t).Ok? && CheckChannelValid(s.channels, cid).Fail? ==> r == Fail(InputError)
    ensures GetUserId(s.users, t).Ok? && CheckChannelValid(s.channels, cid).Ok?
            && GetUserIndex(s.users, GetUserId(s.users, t).value).Ok? ==>
      var uid := GetUserId(s.users, t).value;
      var c := s.channels[CheckChannelValid(s.channels, cid).value];
      && (uid in c.allMembers ==> r == Ok(s))
      && (uid !in c.allMembers && !c.isPublic && !UserFlockrOwner(s.users, uid) ==> r == Fail(AccessError))
    ensures r.Ok? ==> GetUserId(s.users, t).Ok? && CheckChannelValid(s.channels, cid).Ok?
                      && GetUserIndex(s.users, GetUserId(s.users, t).value).Ok?
    ensures r.Ok? ==>
      var uid := GetUserId(s.users, t).value;
      var j := CheckChannelValid(s.channels, cid).value;
      var i := GetUserIndex(s.users, uid).value;
      var c := s.channels[j];
      uid !in c.allMembers ==>
        && (c.isPublic || UserFlockrOwner(s.users, uid))
        && r.value.channels == s.channels[j := c.(
             allMembers := c.allMembers + [uid],
             ownerMembers := if UserFlockrOwner(s.users, uid) then c.ownerMembers + [uid] else c.ownerMembers)]
        && r.value.users == s.users[i := s.users[i].(channels := s.users[i].channels + [cid])]
        && r.value.logs == s.logs && r.value.trivias == s.trivias && r.value.counter == s.counter
  {
    var uid :- GetUserId(s.users, t);
    var j :- CheckChannelValid(s.channels, cid);
    match GetUserIndex(s.users, uid)
    case Fail(e) => Fail(e)
    case Ok(i) =>
    var c := s.channels[j];
    if uid in c.allMembers then Ok(s)
    else if !c.isPublic && !UserFlockrOwner(s.users, uid) then Fail(AccessError)
    else
      var owners := if UserFlockrOwner(s.users, uid) then c.ownerMembers + [uid] else c.ownerMembers;
      var u := s.users[i];
      Ok(s.(channels := s.channels[j := c.(allMembers := c.allMembers + [uid], ownerMembers := owners)],
            users := s.users[i := u.(channels := u.channels + [cid])]))
  }

  // ------------------------------------------------------------------------------------
  // channel_addowner / channel_removeowner

  /** Channel owner or global owner: the bar for owner-only actions. */
  predicate Elevated(s: Store, uid: int, cid: int) {
    CheckUserOwner(s.channels, uid, cid) || UserFlockrOwner(s.users, uid)
  }

  /** `channel_addowner`. Adding an existing owner is an `InputError` reported before the
      actor's rights are checked. The target need not be a member. */
  function AddOwner(s: Store, t: Token, cid: int, target: int): (r: Result<Store>)
    ensures GetUserId(s.users, t).Fail? ==> r == Fail(AccessError)
    ensures GetUserId(s.users, t).Ok? && CheckChannelValid(s.channels, cid).Fail? ==> r == Fail(InputError)
    ensures (GetUserId(s.users, t).Ok? && CheckChannelValid(s.channels, cid).Ok?
             && GetUserIndex(s.users, target).Fail?) ==> r == Fail(InputError)
    ensures GetUserId(s.users, t).Ok? && CheckChannelValid(s.channels, cid).Ok? && GetUserIndex(s.users, target).Ok? ==>
      && (CheckUserOwner(s.channels, target, cid) ==> r == Fail(InputError))
      && (!CheckUserOwner(s.channels, target, cid) && !Elevated(s, GetUserId(s.users, t).value, cid) ==> r == Fail(AccessError))
      && (!CheckUserOwner(s.channels, target, cid) && Elevated(s, GetUserId(s.users, t).value, cid) ==> r.Ok?)
    ensures r.Ok? ==> CheckChannelValid(s.channels, cid).Ok?
    ensures r.Ok? ==>
      var j := CheckChannelValid(s.channels, cid).value;
      r.value == s.(channels := s.channels[j := s.channels[j].(ownerMembers := s.channels[j].ownerMembers + [target])])
  {
    var uid :- GetUserId(s.users, t);
    var j :- CheckChannelValid(s.channels, cid);
    var _ :- GetUserIndex(s.users, target);
    if CheckUserOwner(s.channels, target, cid) then Fail(InputError)
    else if !Elevated(s, uid, cid) then Fail(AccessError)
    else
      var c := s.channels[j];
      Ok(s.(channels := s.channels[j := c.(ownerMembers := c.ownerMembers + [target])]))
  }

  /** `channel_removeowner`. Removing a non-owner is an `InputError` reported before the
      actor's rights are checked; exactly one occurrence of the target is removed. The owner
      check reads the last channel with the id while the removal edits the first, so when
      the two differ and the first lacks the target, `list.remove` raises. */
  function RemoveOwner(s: Store, t: Token, cid: int, target: int): (r: Result<Store>)
    ensures GetUserId(s.users, t).Fail? ==> r == Fail(AccessError)
    ensures GetUserId(s.users, t).Ok? && CheckChannelValid(s.channels, cid).Fail? ==> r == Fail(InputError)
    ensures (GetUserId(s.users, t).Ok? && CheckChannelValid(s.channels, cid).Ok?
             && GetUserIndex(s.users, target).Fail?) ==> r == Fail(InputError)
    ensures GetUserId(s.users, t).Ok? && CheckChannelValid(s.channels, cid).Ok? && GetUserIndex(s.users, target).Ok? ==>
      && (!CheckUserOwner(s.channels, target, cid) ==> r == Fail(InputError))
      && (CheckUserOwner(s.channels, target, cid) && !Elevated(s, GetUserId(s.users, t).value, cid) ==> r == Fail(AccessError))
      && (CheckUserOwner(s.channels, target, cid) && Elevated(s, GetUserId(s.users, t).value, cid) ==>
            && (r.Ok? <==> target in s.channels[CheckChannelValid(s.channels, cid).value].ownerMembers)
            && (r.Fail? ==> r.error == RuntimeError))
    ensures r.Ok? ==> CheckChannelValid(s.channels, cid).Ok?
    ensures r.Ok? ==>
      var j := CheckChannelValid(s.channels, cid).value;
      && target in s.channels[j].ownerMembers
      && r.value == s.(channels := s.channels[j := s.channels[j].(ownerMembers := RemoveFirst(s.channels[j].ownerMembers, target))])
      && |r.value.channels[j].ownerMembers| == |s.channels[j].ownerMembers| - 1
  {
    var uid :- GetUserId(s.users, t);
    var j :- CheckChannelValid(s.channels, cid);
    var _ :- GetUserIndex(s.users, target);
    if !CheckUserOwner(s.channels, target, cid) then Fail(InputError)
    else if !Elevated(s, uid, cid) then Fail(AccessError)
    else
      var c := s.channels[j];
      if target !in c.ownerMembers then Fail(RuntimeError)
      else Ok(s.(channels := s.channels[j := c.(ownerMembers := RemoveFirst(c.ownerMembers, target))]))
  }
}

=== FILE: channels.dfy ===
/** Listing and creating channels (channels.py). */
module Channels {
  import opened Wrappers
  import opened Data
  import opened Helper

  /** The `{channel_id, name}` record the listings return. */
  datatype ChannelSummary = ChannelSummary(channelId: int, name: string)

  function Summary(c: Channel): ChannelSummary {
    ChannelSummary(c.channelId, c.name)
  }

  /** The summaries of the channels whose `all_members` holds `uid`, in store order. */
  function MemberChannels(cs: seq<Channel>, uid: int): (r: seq<ChannelSummary>)
    ensures |r| <= |cs|
    ensures forall x :: x in r <==> exists j :: 0 <= j < |cs| && uid in cs[j].allMembers && x == Summary(cs[j])
  {
    if |cs| == 0 then []
    else
      var rest := MemberChannels(cs[1..], uid);
      assert forall j :: 0 <= j < |cs| - 1 ==> cs[1..][j] == cs[j + 1];
      assert forall j :: 1 <= j < |cs| ==> cs[j] == cs[1..][j - 1];
      if uid in cs[0].allMembers then [Summary(cs[0])] + rest else rest
  }

  /** The listing is an order-preserving filter: it distributes over concatenation. */
  lemma {:induction false} MemberChannelsAppend(a: seq<Channel>, b: seq<Channel>, uid: int)
    ensures MemberChannels(a + b, uid) == MemberChannels(a, uid) + MemberChannels(b, uid)
    decreases |a|
  {
    if |a| > 0 {
      assert (a + b)[1..] == a[1..] + b;
      MemberChannelsAppend(a[1..], b, uid);
    } else {
      assert a + b == b;
    }
  }

  /** `channels_list`: the channels the caller belongs to (by the channel's `all_members`). */
  function ChannelsList(s: Store, t: Token): (r: Result<seq<ChannelSummary>>)
    ensures r.Fail? <==> GetUserId(s.users, t).Fail?
    ensures r.Fail? ==> r.error == AccessError
    ensures r.Ok? ==> forall x :: x in r.value <==>
      exists j :: 0 <= j < |s.channels| && Decode(t).value in s.channels[j].allMembers && x == Summary(s.channels[j])
  {
    var uid :- GetUserId(s.users, t);
    Ok(MemberChannels(s.channels, uid))
  }

  /** `channels_listall`: every channel in store order, whatever the caller's membership. */
  function ChannelsListall(s: Store, t: Token): (r: Result<seq<ChannelSummary>>)
    ensures r.Fail? <==> GetUserId(s.users, t).Fail?
    ensures r.Fail? ==> r.error == AccessError
    ensures r.Ok? ==> |r.value| == |s.channels|
    ensures r.Ok? ==> forall j :: 0 <= j < |s.channels| ==>
      r.value[j].channelId == s.channels[j].channelId && r.value[j].name == s.channels[j].name
  {
    var _ :- GetUserId(s.users, t);
    Ok(seq(|s.channels|, j requires 0 <= j < |s.channels| => Summary(s.channels[j])))
  }

  /** The caller's channels are exactly the entries of the full listing whose channel
      counts the caller among its members. */
  lemma ListWithinListall(s: Store, t: Token)
    requires ChannelsList(s, t).Ok?
    ensures var all := ChannelsListall(s, t).value;
      forall x :: x in ChannelsList(s, t).value <==>
        exists j :: 0 <= j < |all| && x == all[j] && Decode(t).value in s.channels[j].allMembers
  {
    var all := ChannelsListall(s, t).value;
    assert forall j :: 0 <= j < |all| ==> all[j] == Summary(s.channels[j]);
  }

  /** Appends `cid` to the `channels` list of every user with this u_id. */
  function JoinUserTo(users: seq<User>, uid: int, cid: int): (r: seq<User>)
    ensures |r| == |users|
    ensures forall i :: 0 <= i < |users| && users[i].uId == uid ==>
      r[i] == users[i].(channels := users[i].channels + [cid])
    ensures forall i :: 0 <= i < |users| && users[i].uId != uid ==> r[i] == users[i]
  {
    seq(|users|, i requires 0 <= i < |users| =>
      if users[i].uId == uid then users[i].(channels := users[i].channels + [cid]) else users[i])
  }

  const MaxChannelName: int := 20
  const DefaultTimeLimit: int := 10

  /** The body of `channels_create` once the id is chosen: the channel record (creator as
      sole owner and member, standup deadline = creation time), an empty log and standup
      buffer, an inactive trivia record, and the id added to the creator's channel list. */
  function CreateChannel(s: Store, uid: int, name: string, isPublic: bool, now: int, id: int): (s': Store)
    ensures s'.channels == s.channels + [Channel(id, name, isPublic, [uid], [uid], now)]
    ensures s'.logs == s.logs + [ChannelLog(id, [], "")]
    ensures s'.trivias == s.trivias + [TriviaState(id, false, [], None, DefaultTimeLimit, [])]
    ensures s'.users == JoinUserTo(s.users, uid, id)
    ensures s'.counter == s.counter && s'.standupCounter == s.standupCounter
    ensures s'.pending == s.pending && s'.defaultCategory == s.defaultCategory
  {
    s.(channels := s.channels + [Channel(id, name, isPublic, [uid], [uid], now)],
       logs := s.logs + [ChannelLog(id, [], "")],
       trivias := s.trivias + [TriviaState(id, false, [], None, DefaultTimeLimit, [])],
       users := JoinUserTo(s.users, uid, id))
  }

  /** `channels_create` as written: the id is the current length of the channel list, which
      shrinks when a channel is deleted, so an id can be handed out twice. */
  function ChannelsCreateAsWritten(s: Store, t: Token, name: string, isPublic: bool, now: int): (r: Result<(Store, int)>)
    ensures GetUserId(s.users, t).Fail? ==> r == Fail(AccessError)
    ensures GetUserId(s.users, t).Ok? && |name| > MaxChannelName ==> r == Fail(InputError)
    ensures r.Ok? <==> GetUserId(s.users, t).Ok? && |name| <= MaxChannelName
    ensures r.Ok? ==> r.value.1 == |s.channels|
    ensures r.Ok? ==> r.value.0 == CreateChannel(s, Decode(t).value, name, isPublic, now, r.value.1)
  {
    var uid :- GetUserId(s.users, t);
    if |name| > MaxChannelName then Fail(InputError)
    else
      var id := |s.channels|;
      Ok((CreateChannel(s, uid, name, isPublic, now, id), id))
  }

  /** `channels_create` with the id taken from the length of the log list, which only
      `clear` ever shrinks (and `clear` empties the channel list too). While every channel id
      stays below that length the new id is fresh; `Invariants.CreateValid` shows that this
      create keeps it so. */
  function ChannelsCreate(s: Store, t: Token, name: string, isPublic: bool, now: int): (r: Result<(Store, int)>)
    ensures GetUserId(s.users, t).Fail? ==> r == Fail(AccessError)
    ensures GetUserId(s.users, t).Ok? && |name| > MaxChannelName ==> r == Fail(InputError)
    ensures r.Ok? <==> GetUserId(s.users, t).Ok? && |name| <= MaxChannelName
    ensures r.Ok? ==> r.value.1 == |s.logs|
    ensures r.Ok? && (forall j :: 0 <= j < |s.channels| ==> s.channels[j].channelId < |s.logs|) ==>
      forall j :: 0 <= j < |s.channels| ==> s.channels[j].channelId != r.value.1
    ensures r.Ok? ==> r.value.0 == CreateChannel(s, Decode(t).value, name, isPublic, now, r.value.1)
  {
    var uid :- GetUserId(s.users, t);
    if |name| > MaxChannelName then Fail(InputError)
    else
      var id := |s.logs|;
      Ok((CreateChannel(s, uid, name, isPublic, now, id), id))
  }
}

=== FILE: data.dfy ===
/** The in-memory dataset of the chat server: the lists of users, channels, per-channel
    message logs and per-channel trivia records, plus the message id counters.

    Every operation of the server is a transition on one `Store` value. */
module Data {
  import opened Wrappers

  /** A session token. The server issues HS256 JSON web tokens whose payload is the pair
      (u_id, email); the encoding is deterministic, so a well-formed token is identified
      with its payload. Any other string (including the empty string stored for a
      logged-out user) is `Raw`. */
  datatype Token = Jwt(uId: int, email: string) | Raw(text: string)

  /** The stored token of a user who is not logged in. */
  const LoggedOut: Token := Raw("")

  /** The u_id a token decodes to, if it decodes at all. */
  function Decode(t: Token): Option<int> {
    match t
    case Jwt(u, _) => Some(u)
    case Raw(_) => None
  }

  /** A password hash. Hashing is injective and checking compares hashes. */
  datatype PasswordHash = Hashed(plain: string)

  /** Global permission 1 is a global ("flockr") owner, 2 an ordinary member. */
  const OwnerPermission: int := 1
  const MemberPermission: int := 2

  datatype User = User(
    uId: int,
    token: Token,
    password: PasswordHash,
    nameFirst: string,
    nameLast: string,
    email: string,
    handle: string,
    imgUrl: string,
    channels: seq<int>,
    globalPermission: int,
    resetCode: string)

  /** `standup` is the deadline of the channel's latest standup (a timestamp). */
  datatype Channel = Channel(
    channelId: int,
    name: string,
    isPublic: bool,
    ownerMembers: seq<int>,
    allMembers: seq<int>,
    standup: int)

  /** The single reaction slot every message carries (react id 1). */
  datatype React = React(reactId: int, uIds: seq<int>, isThisUserReacted: bool)

  const ThumbsUp: int := 1

  const NoReacts: React := React(ThumbsUp, [], false)

  datatype Message = Message(
    messageId: int,
    uId: int,
    text: string,
    timeCreated: int,
    react: React,
    isPinned: bool)

  /** A freshly stored message: unpinned, nobody has reacted. */
  function NewMessage(id: int, author: int, text: string, at: int): (m: Message)
    ensures m.messageId == id && m.uId == author && m.text == text && m.timeCreated == at
    ensures !m.isPinned && m.react.reactId == ThumbsUp && m.react.uIds == []
  {
    Message(id, author, text, at, NoReacts, false)
  }

  /** The entry of the `messages` list for one channel: its log and its standup buffer. */
  datatype ChannelLog = ChannelLog(channelId: int, messages: seq<Message>, standupBuffer: string)

  datatype Question = Question(question: string, options: seq<string>)

  datatype Category = Category(name: string, questions: seq<Question>)

  /** The trivia record of one channel. `categories` holds the categories created in this
      channel; the built-in category that precedes them is one object shared by every
      channel and lives in `Store.defaultCategory`. */
  datatype TriviaState = TriviaState(
    channelId: int,
    active: bool,
    categories: seq<Category>,
    currentCategory: Option<string>,
    timeLimit: int,
    msgIds: seq<int>)

  /** A timer the server has started and that has not fired yet. */
  datatype Timer =
    | LaterSend(author: int, channelId: int, text: string, messageId: int, timeSent: int)
    | StandupFlush(starter: int, channelId: int, timeFinish: int)

  /** The whole dataset. `counter` is the message id counter used by sending;
      `standupCounter` is the separate copy that the standup flush increments. */
  datatype Store = Store(
    users: seq<User>,
    channels: seq<Channel>,
    logs: seq<ChannelLog>,
    trivias: seq<TriviaState>,
    counter: int,
    standupCounter: int,
    pending: seq<Timer>,
    defaultCategory: Category)

  /** The categories a channel's trivia offers, in order: the shared default first. */
  function CategoriesOf(s: Store, t: TriviaState): (cs: seq<Category>)
    ensures |cs| == |t.categories| + 1 && cs[0] == s.defaultCategory
  {
    [s.defaultCategory] + t.categories
  }

  const DefaultCategoryName: string := "default_UNSW"

  const DefaultUnsw: Category := Category(DefaultCategoryName, [
    Question("What is the fox\U{2019}s name that ran amok on campus?",
      ["Frankie", "Frank", "Megan", "James"]),
    Question("When will UNSW switch to 100% renewable energy?",
      ["2020", "2030", "2025", "2035"]),
    Question("Who is the best COMP1531 tutor?",
      ["Victor Fang", "Victor Claw", "Victor Tooth", "Bob"]),
    Question("What does CSE stand for?",
      ["Computer Science and Engineering", "Computer Software Engineering",
       "Coding\U{2019}s So Easy", "Code Sciences and Engineering"]),
    Question("How many calories does walking up the Basser Steps burn?",
      ["30", "35", "24", "20"])
  ])

  /** The dataset when the server starts. */
  const Initial: Store := Store([], [], [], [], 0, 0, [], DefaultUnsw)
}

=== FILE: echo.dfy ===
/** The starter `echo` route (echo.py). */
module Echo {
  import opened Wrappers

  const Reserved: string := "echo"

  /** `echo`: the value itself, except that the word "echo" raises `InputError`. */
  function Echo(value: string): (r: Result<string>)
    ensures r.Fail? <==> value == Reserved
    ensures r.Fail? ==> r.error == InputError
    ensures r.Ok? ==> r.value == value
  {
    if value == Reserved then Fail(InputError) else Ok(value)
  }

  /** Echoing an echo gives the same answer: the reply is never the reserved word. */
  lemma EchoIdempotent(value: string)
    requires Echo(value).Ok?
    ensures Echo(Echo(value).value) == Echo(value)
  {
  }
}

=== FILE: findings.dfy ===
/** Three defects of the server, each shown on a concrete store, and the property its
    corrected counterpart keeps. */
module Findings {
  import opened Wrappers
  import opened Strings
  import opened Data
  import opened Helper
  import Channels
  import ChannelOps
  import Standup
  import MessageOps
  import Timers
  import Trivia
  import Other
  import Invariants

  const Email: string := "a@b.co"
  const Session: Token := Jwt(0, Email)

  /** One registered, logged-in global owner with no channels. */
  const Alone: Store := Initial.(users := [User(0, Session, Hashed("secret"), "Ann", "Lee", Email, "annlee", "", [], OwnerPermission, "")])

  // ------------------------------------------------------------------------------------
  // channels_create: ids reused after a deletion

  const One: Channel := Channel(0, "one", true, [0], [0], 0)
  const Two: Channel := Channel(1, "two", true, [0], [0], 0)

  /** The user of `Alone` once it belongs to the channels in `ids`. */
  function MemberOf(ids: seq<int>): User {
    Alone.users[0].(channels := ids)
  }

  /** Creating "one" and "two" as written gives channels 0 and 1. */
  lemma TwoCreatedAsWritten()
    ensures var s1 := Channels.ChannelsCreateAsWritten(Alone, Session, "one", true, 0).value.0;
      var s2 := Channels.ChannelsCreateAsWritten(s1, Session, "two", true, 0).value.0;
      s2.channels == [One, Two] && s2.users == [MemberOf([0, 1])] && |s2.logs| == 2
  {
    var s1 := Channels.ChannelsCreateAsWritten(Alone, Session, "one", true, 0).value.0;
    assert s1.users[0].channels == [0] && |s1.users| == 1;
    assert s1.channels == [One] && s1.users == [MemberOf([0])];
    assert GetUserId(s1.users, Session) == Ok(0);
    var s2 := Channels.ChannelsCreateAsWritten(s1, Session, "two", true, 0).value.0;
    assert s2.users[0].channels == [0, 1] && |s2.users| == 1;
  }

  /** The corrected create does the same on this store. */
  lemma TwoCreated()
    ensures var s1 := Channels.ChannelsCreate(Alone, Session, "one", true, 0).value.0;
      var s2 := Channels.ChannelsCreate(s1, Session, "two", true, 0).value.0;
      s2.channels == [One, Two] && s2.users == [MemberOf([0, 1])] && |s2.logs| == 2
  {
    var s1 := Channels.ChannelsCreate(Alone, Session, "one", true, 0).value.0;
    assert s1.users[0].channels == [0] && |s1.users| == 1;
    assert s1.channels == [One] && s1.users == [MemberOf([0])] && |s1.logs| == 1;
    assert GetUserId(s1.users, Session) == Ok(0);
    var s2 := Channels.ChannelsCreate(s1, Session, "two", true, 0).value.0;
    assert s2.users[0].channels == [0, 1] && |s2.users| == 1;
  }

  /** The only member leaves channel 0, which is deleted; channel 1 stays. */
  lemma LeaveDeletesFirst(s: Store)
    requires s.channels == [One, Two] && s.users == [MemberOf([0, 1])]
    ensures ChannelOps.Leave(s, Session, 0).Ok?
    ensures var s3 := ChannelOps.Leave(s, Session, 0).value;
      s3.channels == [Two] && s3.users == [MemberOf([1])] && s3.logs == s.logs
  {
    assert GetUserId(s.users, Session) == Ok(0);
    assert CheckChannelValid(s.channels, 0) == Ok(0);
    assert GetUserIndex(s.users, 0) == Ok(0);
    assert CheckUserOwner(s.channels, 0, 0);
    assert ChannelOps.AfterLeave(One, 0, true).None?;
  }

  /** After the deletion, creating "three" as written hands out id 1 again. */
  lemma ThirdCreatedAsWritten(s: Store)
    requires s.channels == [Two] && s.users == [MemberOf([1])]
    ensures Channels.ChannelsCreateAsWritten(s, Session, "three", true, 0).Ok?
    ensures var (s4, id) := Channels.ChannelsCreateAsWritten(s, Session, "three", true, 0).value;
      |s4.channels| == 2 && id == 1 && s4.channels[1].channelId == 1
  {
    assert GetUserId(s.users, Session) == Ok(0);
  }

  /** After the deletion, the corrected create hands out the fresh id 2. */
  lemma ThirdCreated(s: Store)
    requires s.channels == [Two] && s.users == [MemberOf([1])] && |s.logs| == 2
    ensures Channels.ChannelsCreate(s, Session, "three", true, 0).Ok?
    ensures var (s4, id) := Channels.ChannelsCreate(s, Session, "three", true, 0).value;
      |s4.channels| == 2 && id == 2 && s4.channels[1].channelId == 2
  {
    assert GetUserId(s.users, Session) == Ok(0);
  }

  /** Two channels are created, the first is left by its only member and deleted, and the
      next create hands out the id of the surviving channel again. */
  lemma CreateAsWrittenReusesId()
    ensures var c1 := Channels.ChannelsCreateAsWritten(Alone, Session, "one", true, 0);
      c1.Ok? && var c2 := Channels.ChannelsCreateAsWritten(c1.value.0, Session, "two", true, 0);
      c2.Ok? && var c3 := ChannelOps.Leave(c2.value.0, Session, 0);
      c3.Ok? && var c4 := Channels.ChannelsCreateAsWritten(c3.value, Session, "three", true, 0);
      c4.Ok? && var (s4, id) := c4.value;
      && |s4.channels| == 2 && id == 1
      && s4.channels[0].channelId == s4.channels[1].channelId
  {
    TwoCreatedAsWritten();
    var s1 := Channels.ChannelsCreateAsWritten(Alone, Session, "one", true, 0).value.0;
    var s2 := Channels.ChannelsCreateAsWritten(s1, Session, "two", true, 0).value.0;
    LeaveDeletesFirst(s2);
    var s3 := ChannelOps.Leave(s2, Session, 0).value;
    ThirdCreatedAsWritten(s3);
  }

  /** With the corrected create, a store that keeps the membership invariant never holds
      two channels with the same id, whatever sequence of creates, leaves, joins and
      invites led to it. */
  lemma CreateKeepsIdsDistinct(s: Store, t: Token, name: string, isPublic: bool, now: int)
    requires Invariants.Valid(s) && Channels.ChannelsCreate(s, t, name, isPublic, now).Ok?
    ensures var s' := Channels.ChannelsCreate(s, t, name, isPublic, now).value.0;
      forall j, k :: 0 <= j < k < |s'.channels| ==> s'.channels[j].channelId != s'.channels[k].channelId
  {
    Invariants.CreateValid(s, t, name, isPublic, now);
  }

  /** The same scenario with the corrected create: the third channel gets a new id. */
  lemma CreateReplay()
    ensures var c1 := Channels.ChannelsCreate(Alone, Session, "one", true, 0);
      c1.Ok? && var c2 := Channels.ChannelsCreate(c1.value.0, Session, "two", true, 0);
      c2.Ok? && var c3 := ChannelOps.Leave(c2.value.0, Session, 0);
      c3.Ok? && var c4 := Channels.ChannelsCreate(c3.value, Session, "three", true, 0);
      c4.Ok? && var (s4, id) := c4.value;
      && |s4.channels| == 2 && id == 2
      && s4.channels[0].channelId != s4.channels[1].channelId
  {
    TwoCreated();
    var s1 := Channels.ChannelsCreate(Alone, Session, "one", true, 0).value.0;
    var s2 := Channels.ChannelsCreate(s1, Session, "two", true, 0).value.0;
    LeaveDeletesFirst(s2);
    var s3 := ChannelOps.Leave(s2, Session, 0).value;
    ThirdCreated(s3);
  }

  // ------------------------------------------------------------------------------------
  // standup flush: a second id counter

  /** The trace: channel "one" is created, "hello" is sent to it (message 1), a
      ten-second standup is started, "hi" is sent to the standup, and its timer fires. */
  const Created: Store := Alone.(
    users := [MemberOf([0])],
    channels := [One],
    logs := [ChannelLog(0, [], "")],
    trivias := [TriviaState(0, false, [], None, 10, [])])

  const Hello: Message := NewMessage(1, 0, "hello", 0)

  const Sent: Store := Created.(logs := [ChannelLog(0, [Hello], "")], counter := 1)

  const Started: Store := Sent.(channels := [One.(standup := 10)], pending := [StandupFlush(0, 0, 10)])

  const Buffered: Store := Started.(logs := [ChannelLog(0, [Hello], "annlee: hi")])

  lemma CreatedOne()
    ensures Channels.ChannelsCreate(Alone, Session, "one", true, 0) == Ok((Created, 0))
  {
    var s1 := Channels.ChannelsCreate(Alone, Session, "one", true, 0).value.0;
    assert [] + [0] == [0];
    assert s1.users[0].channels == [0] && |s1.users| == 1;
    assert s1.users == Created.users;
    assert s1.channels == Created.channels;
    assert s1.logs == Created.logs;
    assert s1.trivias == Created.trivias;
  }

  lemma SentHello()
    ensures MessageOps.Send(Created, Session, 0, "hello", 0) == Ok((Sent, Some(1)))
  {
    assert GetUserId(Created.users, Session) == Ok(0);
    assert !StartsWith("hello", Trivia.CommandWord);
    assert LastLog(Created.logs, 0).Some?;
    assert MessageOps.Posted(Created.(counter := 1), Session, 0, "hello") == Ok((Created.(counter := 1), "hello"));
    var logs := MessageOps.AppendToLogs(Created.logs, 0, Hello);
    assert [] + [Hello] == [Hello];
    assert logs[0] == Sent.logs[0];
    assert logs == Sent.logs;
  }

  lemma StartedStandup()
    ensures Standup.Start(Sent, Session, 0, 10, 0) == Ok((Started, 10))
  {
    assert GetUserId(Sent.users, Session) == Ok(0);
    assert CheckChannelValid(Sent.channels, 0) == Ok(0);
    assert Standup.Active(Sent, Session, 0, 0) == Ok(None);
    assert !Standup.TriviaRunning(Sent.trivias, 0);
    assert Sent.pending + [StandupFlush(0, 0, 10)] == Started.pending;
    assert Sent.channels[0 := Sent.channels[0].(standup := 10)] == Started.channels;
  }

  lemma BufferedHi()
    ensures Standup.Send(Started, Session, 0, "hi", 1) == Ok(Buffered)
  {
    assert GetUserId(Started.users, Session) == Ok(0);
    assert CheckChannelValid(Started.channels, 0) == Ok(0);
    assert Standup.Active(Started, Session, 0, 1) == Ok(Some(10));
    assert !StartsWith("hi", Trivia.CommandWord);
    Standup.PrefixedUnique(Started.users, 0, "hi", 0);
    assert Started.users[0].handle + ": " + "hi" == "annlee: hi";
    var logs := Standup.BufferLine(Started.logs, 0, "annlee: hi");
    assert Standup.AppendLine("", "annlee: hi") == "annlee: hi";
    assert logs[0] == Buffered.logs[0];
    assert logs == Buffered.logs;
  }

  /** After this trace the timer, firing as the server does, stores the standup summary
      under message id 1, the id "hello" already has. */
  lemma FlushAsWrittenRepeatsId()
    ensures Channels.ChannelsCreate(Alone, Session, "one", true, 0) == Ok((Created, 0))
    ensures MessageOps.Send(Created, Session, 0, "hello", 0) == Ok((Sent, Some(1)))
    ensures Standup.Start(Sent, Session, 0, 10, 0) == Ok((Started, 10))
    ensures Standup.Send(Started, Session, 0, "hi", 1) == Ok(Buffered)
    ensures Timers.Fire(Buffered, 0).logs == [ChannelLog(0, [Hello, NewMessage(1, 0, "annlee: hi", 10)], "")]
  {
    CreatedOne();
    SentHello();
    StartedStandup();
    BufferedHi();
    FiredAsWritten();
  }

  lemma FiredAsWritten()
    ensures Timers.Fire(Buffered, 0).logs == [ChannelLog(0, [Hello, NewMessage(1, 0, "annlee: hi", 10)], "")]
  {
    var f := Standup.FlushLogs(Buffered.logs, 0, 0, 10, 0);
    assert f.logs[0].messages[1].messageId == 1;
    assert f.logs[0].messages == [Hello, NewMessage(1, 0, "annlee: hi", 10)];
    assert f.logs == [ChannelLog(0, [Hello, NewMessage(1, 0, "annlee: hi", 10)], "")];
  }

  /** With the corrected flush the same trace numbers the summary 2. */
  lemma FlushIntendedFresh()
    ensures Timers.FireIntended(Buffered, 0).logs == [ChannelLog(0, [Hello, NewMessage(2, 0, "annlee: hi", 10)], "")]
  {
    var f := Standup.FlushLogs(Buffered.logs, 0, 0, 10, 1);
    assert f.logs[0].messages[1].messageId == 2;
    assert f.logs[0].messages == [Hello, NewMessage(2, 0, "annlee: hi", 10)];
    assert f.logs == [ChannelLog(0, [Hello, NewMessage(2, 0, "annlee: hi", 10)], "")];
  }

  /** Every message id in the logs is at most the counter. */
  predicate IdsUpTo(logs: seq<ChannelLog>, counter: int) {
    forall j, i :: 0 <= j < |logs| && 0 <= i < |logs[j].messages| ==> logs[j].messages[i].messageId <= counter
  }

  /** The corrected flush gives each new message an id above every id already stored, and
      keeps every stored id within the counter. */
  lemma FlushIdsFresh(s: Store, starter: int, cid: int, at: int)
    requires IdsUpTo(s.logs, s.counter)
    ensures var s' := Standup.Flush(s, starter, cid, at);
      && IdsUpTo(s'.logs, s'.counter)
      && forall j :: 0 <= j < |s.logs| && |s'.logs[j].messages| > |s.logs[j].messages| ==>
           var m := s'.logs[j].messages[|s.logs[j].messages|];
           forall j', i :: 0 <= j' < |s.logs| && 0 <= i < |s.logs[j'].messages| ==>
             s.logs[j'].messages[i].messageId < m.messageId
  {
    FlushIdsUpTo(s.logs, cid, starter, at, s.counter);
  }

  lemma FlushIdsUpTo(logs: seq<ChannelLog>, cid: int, starter: int, at: int, counter: int)
    requires IdsUpTo(logs, counter)
    ensures var f := Standup.FlushLogs(logs, cid, starter, at, counter);
      IdsUpTo(f.logs, f.counter)
  {
    var f := Standup.FlushLogs(logs, cid, starter, at, counter);
    forall j, i | 0 <= j < |f.logs| && 0 <= i < |f.logs[j].messages|
      ensures f.logs[j].messages[i].messageId <= f.counter
    {
      FlushIdUpTo(logs, cid, starter, at, counter, f, j, i);
    }
  }

  lemma FlushIdUpTo(logs: seq<ChannelLog>, cid: int, starter: int, at: int, counter: int, f: Standup.Flushed, j: int, i: int)
    requires IdsUpTo(logs, counter) && Standup.FlushedFrom(logs, cid, starter, at, counter, f)
    requires 0 <= j < |f.logs| && 0 <= i < |f.logs[j].messages|
    ensures f.logs[j].messages[i].messageId <= f.counter
  {
    if logs[j].channelId == cid && logs[j].standupBuffer != "" {
      var n := |logs[j].messages|;
      if i < n {
        assert f.logs[j].messages[i] == f.logs[j].messages[..n][i];
        assert logs[j].messages[i].messageId <= counter;
      }
    } else {
      assert f.logs[j] == logs[j];
      assert logs[j].messages[i].messageId <= counter;
    }
  }

  // ------------------------------------------------------------------------------------
  // search: the substring test reversed

  const Chatting: Store := Initial.(
    users := [User(0, Session, Hashed("secret"), "Ann", "Lee", Email, "annlee", "", [0], OwnerPermission, "")],
    channels := [Channel(0, "one", true, [0], [0], 0)],
    logs := [ChannelLog(0, [NewMessage(1, 0, "hi there", 0)], "")],
    counter := 1)

  /** Searching "hi" misses the message "hi there" as written; the corrected search finds it. */
  lemma SearchAsWrittenMisses()
    ensures Other.SearchAsWritten(Chatting, Session, "hi") == Ok([])
    ensures Other.Search(Chatting, Session, "hi").Ok? && |Other.Search(Chatting, Session, "hi").value| == 1
  {
    assert GetUserId(Chatting.users, Session) == Ok(0);
    var ms := Other.Gather(Chatting.logs, [0]);
    assert ms == [NewMessage(1, 0, "hi there", 0)];
    assert !Contains("hi", "hi there");
    assert OccursAt("hi there", "hi", 0);
    assert Other.Matching(ms, "hi", true) == [];
    assert Other.Matching(ms, "hi", false) == ms;
  }
}

=== FILE: helper.dfy ===
/** The guards every operation runs before touching the store: token resolution,
    user / channel / message lookup, membership and ownership checks. Each lookup is a
    left-to-right scan, as in the server; each carries the quantified property it decides. */
module Helper {
  import opened Wrappers
  import opened Data

  /** Some user holds the decoded u_id together with exactly this token. */
  predicate HoldsSession(users: seq<User>, uid: int, t: Token) {
    exists i :: 0 <= i < |users| && users[i].uId == uid && users[i].token == t
  }

  function FindSession(users: seq<User>, uid: int, t: Token): (found: bool)
    ensures found <==> HoldsSession(users, uid, t)
  {
    if |users| == 0 then false
    else if users[0].uId == uid && users[0].token == t then true
    else
      var rest := FindSession(users[1..], uid, t);
      assert rest <==> HoldsSession(users, uid, t) by {
        if HoldsSession(users, uid, t) {
          var i :| 0 <= i < |users| && users[i].uId == uid && users[i].token == t;
          assert i != 0;
          assert users[1..][i - 1] == users[i];
        }
        if rest {
          var i :| 0 <= i < |users[1..]| && users[1..][i].uId == uid && users[1..][i].token == t;
          assert users[i + 1] == users[1..][i];
        }
      }
      rest
  }

  /** Resolves a token to the u_id of the logged-in user it was issued to. A token that
      does not decode, or that is not the one currently stored for its user, fails with
      `AccessError`. */
  function GetUserId(users: seq<User>, t: Token): (r: Result<int>)
    ensures r.Ok? <==> Decode(t).Some? && HoldsSession(users, Decode(t).value, t)
    ensures r.Ok? ==> Decode(t) == Some(r.value)
    ensures r.Fail? ==> r.error == AccessError
  {
    match Decode(t)
    case None => Fail(AccessError)
    case Some(uid) => if FindSession(users, uid, t) then Ok(uid) else Fail(AccessError)
  }

  function UserIndexFrom(users: seq<User>, uid: int, from: nat): (r: Option<nat>)
    decreases |users| - from
    ensures r.Some? ==> from <= r.value < |users| && users[r.value].uId == uid
    ensures r.Some? ==> forall j :: from <= j < r.value ==> users[j].uId != uid
    ensures r.None? ==> forall j :: from <= j < |users| ==> users[j].uId != uid
  {
    if from >= |users| then None
    else if users[from].uId == uid then Some(from)
    else UserIndexFrom(users, uid, from + 1)
  }

  /** The position of the first user with this u_id; `InputError` when there is none. */
  function GetUserIndex(users: seq<User>, uid: int): (r: Result<nat>)
    ensures r.Ok? ==> r.value < |users| && users[r.value].uId == uid
    ensures r.Ok? ==> forall j :: 0 <= j < r.value ==> users[j].uId != uid
    ensures r.Fail? <==> forall j :: 0 <= j < |users| ==> users[j].uId != uid
    ensures r.Fail? ==> r.error == InputError
  {
    match UserIndexFrom(users, uid, 0)
    case None => Fail(InputError)
    case Some(i) => Ok(i)
  }

  /** Some user record with this u_id does not list the channel. */
  predicate MissingMembership(users: seq<User>, uid: int, cid: int) {
    exists i :: 0 <= i < |users| && users[i].uId == uid && cid !in users[i].channels
  }

  /** Membership is read from the user's own `channels` list, not from the channel. A u_id
      that belongs to no user passes. */
  function CheckUserInChannel(users: seq<User>, uid: int, cid: int): (r: Result<()>)
    ensures r.Fail? <==> MissingMembership(users, uid, cid)
    ensures r.Fail? ==> r.error == AccessError
  {
    if |users| == 0 then Pass
    else if users[0].uId == uid && cid !in users[0].channels then Fail(AccessError)
    else
      var rest := CheckUserInChannel(users[1..], uid, cid);
      assert rest.Fail? <==> MissingMembership(users, uid, cid) by {
        if MissingMembership(users, uid, cid) {
          var i :| 0 <= i < |users| && users[i].uId == uid && cid !in users[i].channels;
          assert i != 0;
          assert users[1..][i - 1] == users[i];
        }
        if rest.Fail? {
          var i :| 0 <= i < |users[1..]| && users[1..][i].uId == uid && cid !in users[1..][i].channels;
          assert users[i + 1] == users[1..][i];
        }
      }
      rest
  }

  /** `j` is the last position of a channel with this id. */
  predicate IsLastChannel(cs: seq<Channel>, cid: int, j: int) {
    0 <= j < |cs| && cs[j].channelId == cid && forall k :: j < k < |cs| ==> cs[k].channelId != cid
  }

  /** The server scans every channel and keeps the verdict of the last one with a matching
      id; no matching channel means "not an owner". */
  function CheckUserOwner(cs: seq<Channel>, uid: int, cid: int): (r: bool)
    ensures r <==> exists j :: IsLastChannel(cs, cid, j) && uid in cs[j].ownerMembers
  {
    if |cs| == 0 then false
    else
      var last := |cs| - 1;
      if cs[last].channelId == cid then
        assert IsLastChannel(cs, cid, last);
        uid in cs[last].ownerMembers
      else
        var prefix := cs[..last];
        var rest := CheckUserOwner(prefix, uid, cid);
        assert forall j :: IsLastChannel(prefix, cid, j) <==> IsLastChannel(cs, cid, j);
        assert forall j :: 0 <= j < last ==> prefix[j] == cs[j];
        rest
  }

  function ChannelIndexFrom(cs: seq<Channel>, cid: int, from: nat): (r: Option<nat>)
    decreases |cs| - from
    ensures r.Some? ==> from <= r.value < |cs| && cs[r.value].channelId == cid
    ensures r.Some? ==> forall j :: from <= j < r.value ==> cs[j].channelId != cid
    ensures r.None? ==> forall j :: from <= j < |cs| ==> cs[j].channelId != cid
  {
    if from >= |cs| then None
    else if cs[from].channelId == cid then Some(from)
    else ChannelIndexFrom(cs, cid, from + 1)
  }

  /** The position of the first channel with this id; `InputError` when there is none. */
  function CheckChannelValid(cs: seq<Channel>, cid: int): (r: Result<nat>)
    ensures r.Ok? ==> r.value < |cs| && cs[r.value].channelId == cid
    ensures r.Ok? ==> forall j :: 0 <= j < r.value ==> cs[j].channelId != cid
    ensures r.Fail? <==> forall j :: 0 <= j < |cs| ==> cs[j].channelId != cid
    ensures r.Fail? ==> r.error == InputError
  {
    match ChannelIndexFrom(cs, cid, 0)
    case None => Fail(InputError)
    case Some(j) => Ok(j)
  }

  /** `i` is the last position of a user with this u_id. */
  predicate IsLastUser(users: seq<User>, uid: int, i: int) {
    0 <= i < |users| && users[i].uId == uid && forall k :: i < k < |users| ==> users[k].uId != uid
  }

  /** A global owner has permission 1; like `CheckUserOwner`, the last matching user decides. */
  function UserFlockrOwner(users: seq<User>, uid: int): (r: bool)
    ensures r <==> exists i :: IsLastUser(users, uid, i) && users[i].globalPermission == OwnerPermission
  {
    if |users| == 0 then false
    else
      var last := |users| - 1;
      if users[last].uId == uid then
        assert IsLastUser(users, uid, last);
        users[last].globalPermission == OwnerPermission
      else
        var prefix := users[..last];
        var rest := UserFlockrOwner(prefix, uid);
        assert forall i :: IsLastUser(prefix, uid, i) <==> IsLastUser(users, uid, i);
        assert forall i :: 0 <= i < last ==> prefix[i] == users[i];
        rest
  }

  /** Some message of the log has this id. */
  predicate HasMessage(ms: seq<Message>, mid: int) {
    exists k :: 0 <= k < |ms| && ms[k].messageId == mid
  }

  function FindMessage(ms: seq<Message>, mid: int): (found: bool)
    ensures found <==> HasMessage(ms, mid)
  {
    if |ms| == 0 then false
    else if ms[0].messageId == mid then true
    else
      var rest := FindMessage(ms[1..], mid);
      assert rest <==> HasMessage(ms, mid) by {
        if HasMessage(ms, mid) {
          var k :| 0 <= k < |ms| && ms[k].messageId == mid;
          assert ms[1..][k - 1] == ms[k];
        }
        if rest {
          var k :| 0 <= k < |ms[1..]| && ms[1..][k].messageId == mid;
          assert ms[k + 1] == ms[1..][k];
        }
      }
      rest
  }

  /** Some log holds a message with this id. */
  predicate MessageExists(logs: seq<ChannelLog>, mid: int) {
    exists i :: 0 <= i < |logs| && HasMessage(logs[i].messages, mid)
  }

  /** The channel id of the first log holding the message; `InputError` when no log does. */
  function ValidMessageId(logs: seq<ChannelLog>, mid: int): (r: Result<int>)
    ensures r.Fail? <==> !MessageExists(logs, mid)
    ensures r.Fail? ==> r.error == InputError
    ensures r.Ok? ==> exists i :: 0 <= i < |logs| && logs[i].channelId == r.value
                                 && HasMessage(logs[i].messages, mid)
                                 && forall j :: 0 <= j < i ==> !HasMessage(logs[j].messages, mid)
  {
    if |logs| == 0 then Fail(InputError)
    else if FindMessage(logs[0].messages, mid) then
      assert HasMessage(logs[0].messages, mid);
      Ok(logs[0].channelId)
    else
      var rest := ValidMessageId(logs[1..], mid);
      assert rest.Fail? <==> !MessageExists(logs, mid) by {
        if MessageExists(logs, mid) {
          var i :| 0 <= i < |logs| && HasMessage(logs[i].messages, mid);
          assert logs[1..][i - 1] == logs[i];
        }
        if MessageExists(logs[1..], mid) {
          var i :| 0 <= i < |logs[1..]| && HasMessage(logs[1..][i].messages, mid);
          assert logs[i + 1] == logs[1..][i];
        }
      }
      if rest.Ok? then
        assert exists i :: 0 <= i < |logs| && logs[i].channelId == rest.value
                           && HasMessage(logs[i].messages, mid)
                           && forall j :: 0 <= j < i ==> !HasMessage(logs[j].messages, mid) by {
          var i :| 0 <= i < |logs[1..]| && logs[1..][i].channelId == rest.value
                   && HasMessage(logs[1..][i].messages, mid)
                   && forall j :: 0 <= j < i ==> !HasMessage(logs[1..][j].messages, mid);
          assert logs[i + 1] == logs[1..][i];
          forall j | 0 <= j < i + 1
            ensures !HasMessage(logs[j].messages, mid)
          {
            if j > 0 {
              assert logs[j] == logs[1..][j - 1];
            }
          }
        }
        rest
      else
        rest
  }

  /** The messages of the last log entry with this channel id (loops over the logs that
      keep overwriting their result); `None` when no entry has the id. */
  function LastLog(logs: seq<ChannelLog>, cid: int): (r: Option<seq<Message>>)
    ensures r.None? <==> forall j :: 0 <= j < |logs| ==> logs[j].channelId != cid
    ensures r.Some? ==> exists j :: 0 <= j < |logs| && logs[j].channelId == cid && r.value == logs[j].messages
                          && forall k :: j < k < |logs| ==> logs[k].channelId != cid
  {
    if |logs| == 0 then None
    else if logs[|logs| - 1].channelId == cid then Some(logs[|logs| - 1].messages)
    else
      var prefix := logs[..|logs| - 1];
      var r := LastLog(prefix, cid);
      assert forall j :: 0 <= j < |prefix| ==> prefix[j] == logs[j];
      assert r.Some? ==> exists j :: 0 <= j < |logs| && logs[j].channelId == cid && r.value == logs[j].messages
                                     && forall k :: j < k < |logs| ==> logs[k].channelId != cid by {
        if r.Some? {
          var j :| 0 <= j < |prefix| && prefix[j].channelId == cid && r.value == prefix[j].messages
                   && forall k :: j < k < |prefix| ==> prefix[k].channelId != cid;
          assert logs[j] == prefix[j];
        }
      }
      r
  }

  /** Some message with this id and this author exists in some log. */
  predicate AuthoredBy(logs: seq<ChannelLog>, mid: int, uid: int) {
    exists i, k :: 0 <= i < |logs| && 0 <= k < |logs[i].messages|
      && logs[i].messages[k].messageId == mid && logs[i].messages[k].uId == uid
  }

  function AuthoredIn(ms: seq<Message>, mid: int, uid: int): (r: bool)
    ensures r <==> exists k :: 0 <= k < |ms| && ms[k].messageId == mid && ms[k].uId == uid
  {
    if |ms| == 0 then false
    else if ms[0].messageId == mid && ms[0].uId == uid then true
    else
      var rest := AuthoredIn(ms[1..], mid, uid);
      assert forall k :: 0 <= k < |ms| - 1 ==> ms[1..][k] == ms[k + 1];
      rest
  }

  /** True iff the message exists with that author, in any log. */
  function MessageCheckUser(logs: seq<ChannelLog>, mid: int, uid: int): (r: bool)
    ensures r <==> AuthoredBy(logs, mid, uid)
  {
    if |logs| == 0 then false
    else if AuthoredIn(logs[0].messages, mid, uid) then true
    else
      var rest := MessageCheckUser(logs[1..], mid, uid);
      assert rest <==> AuthoredBy(logs, mid, uid) by {
        if AuthoredBy(logs, mid, uid) {
          var i, k :| 0 <= i < |logs| && 0 <= k < |logs[i].messages|
            && logs[i].messages[k].messageId == mid && logs[i].messages[k].uId == uid;
          if i > 0 {
            assert logs[1..][i - 1] == logs[i];
          }
        }
        if rest {
          var i, k :| 0 <= i < |logs[1..]| && 0 <= k < |logs[1..][i].messages|
            && logs[1..][i].messages[k].messageId == mid && logs[1..][i].messages[k].uId == uid;
          assert logs[i + 1] == logs[1..][i];
        }
      }
      rest
  }

  /** A message with its per-reader flag cleared: what the reader sees, minus the flag. */
  function Unflagged(m: Message): Message {
    m.(react := m.react.(isThisUserReacted := false))
  }

  /** Sets each message's `is_this_user_reacted` to whether the reader is among the reactors. */
  function ChangeUserReacted(ms: seq<Message>, uid: int): (r: seq<Message>)
    ensures |r| == |ms|
    ensures forall k :: 0 <= k < |r| ==> Unflagged(r[k]) == Unflagged(ms[k])
    ensures forall k :: 0 <= k < |r| ==> (r[k].react.isThisUserReacted <==> uid in r[k].react.uIds)
  {
    if |ms| == 0 then []
    else
      var m := ms[0];
      [m.(react := m.react.(isThisUserReacted := uid in m.react.uIds))] + ChangeUserReacted(ms[1..], uid)
  }

  /** Annotating twice for the same reader changes nothing the second time. */
  lemma ChangeUserReactedIdempotent(ms: seq<Message>, uid: int)
    ensures ChangeUserReacted(ChangeUserReacted(ms, uid), uid) == ChangeUserReacted(ms, uid)
  {
    var once := ChangeUserReacted(ms, uid);
    var twice := ChangeUserReacted(once, uid);
    forall k | 0 <= k < |once|
      ensures twice[k] == once[k]
    {
      assert Unflagged(twice[k]) == Unflagged(once[k]);
    }
  }

  /** A change to one field group of a user record. */
  datatype UserEdit =
    | Names(first: string, last: string)
    | EmailTo(email: string)
    | HandleTo(handle: string)
    | TokenTo(token: Token)

  function ApplyUserEdit(u: User, e: UserEdit): (u': User)
    ensures u'.uId == u.uId && u'.channels == u.channels && u'.globalPermission == u.globalPermission
    ensures u'.password == u.password && u'.resetCode == u.resetCode && u'.imgUrl == u.imgUrl
  {
    match e
    case Names(first, last) => u.(nameFirst := first, nameLast := last)
    case EmailTo(email) => u.(email := email)
    case HandleTo(handle) => u.(handle := handle)
    case TokenTo(token) => u.(token := token)
  }

  /** Applies the edit to every user record with this u_id (the server's loops do not stop
      at the first); the other records are untouched. */
  function EditUsers(users: seq<User>, uid: int, e: UserEdit): (r: seq<User>)
    ensures |r| == |users|
    ensures forall i :: 0 <= i < |users| && users[i].uId == uid ==> r[i] == ApplyUserEdit(users[i], e)
    ensures forall i :: 0 <= i < |users| && users[i].uId != uid ==> r[i] == users[i]
  {
    seq(|users|, i requires 0 <= i < |users| => if users[i].uId == uid then ApplyUserEdit(users[i], e) else users[i])
  }
}

=== FILE: invariants.dfy ===
/** Membership is stored twice: in each channel's `all_members` and in each user's
    `channels` list. This module states when the two agree and proves that the operations
    that change membership keep them agreeing. */
module Invariants {
  import opened Wrappers
  import opened Strings
  import opened Data
  import opened Helper
  import Channels
  import ChannelOps
  import Auth
  import Other

  /** User records sit at the position of their u_id, as registration assigns them. */
  predicate UsersIndexed(users: seq<User>) {
    forall i :: 0 <= i < |users| ==> users[i].uId == i
  }

  predicate ChannelIdsDistinct(cs: seq<Channel>) {
    forall j, k :: 0 <= j < k < |cs| ==> cs[j].channelId != cs[k].channelId
  }

  /** Channel ids, wherever they are stored, are positions of the message-log list. */
  predicate IdsBelow(s: Store) {
    && (forall j :: 0 <= j < |s.channels| ==> 0 <= s.channels[j].channelId < |s.logs|)
    && (forall i, k :: 0 <= i < |s.users| && 0 <= k < |s.users[i].channels| ==> 0 <= s.users[i].channels[k] < |s.logs|)
  }

  /** Members are registered users. */
  predicate MembersKnown(s: Store) {
    forall j, k :: 0 <= j < |s.channels| && 0 <= k < |s.channels[j].allMembers| ==>
      0 <= s.channels[j].allMembers[k] < |s.users|
  }

  predicate NoRepeats(s: Store) {
    && (forall i :: 0 <= i < |s.users| ==> NoDuplicates(s.users[i].channels))
    && (forall j :: 0 <= j < |s.channels| ==> NoDuplicates(s.channels[j].allMembers))
  }

  /** A user lists a channel exactly when the channel lists the user. */
  predicate Synced(users: seq<User>, cs: seq<Channel>) {
    forall i, j :: 0 <= i < |users| && 0 <= j < |cs| ==>
      (i in cs[j].allMembers <==> cs[j].channelId in users[i].channels)
  }

  predicate Valid(s: Store) {
    && UsersIndexed(s.users) && ChannelIdsDistinct(s.channels) && IdsBelow(s)
    && MembersKnown(s) && NoRepeats(s) && Synced(s.users, s.channels)
  }

  lemma InitialValid()
    ensures Valid(Initial)
  {
  }

  lemma ClearValid(s: Store)
    ensures Valid(Other.Clear(s))
  {
  }

  /** In a valid store the membership guard, which reads the user's list, agrees with
      the channel's member list. */
  lemma MembershipAgrees(s: Store, uid: int, cid: int)
    requires Valid(s) && 0 <= uid < |s.users| && CheckChannelValid(s.channels, cid).Ok?
    ensures var c := s.channels[CheckChannelValid(s.channels, cid).value];
      MissingMembership(s.users, uid, cid) <==> uid !in c.allMembers
  {
    var j := CheckChannelValid(s.channels, cid).value;
    if MissingMembership(s.users, uid, cid) {
      var i :| 0 <= i < |s.users| && s.users[i].uId == uid && cid !in s.users[i].channels;
      assert i == uid;
    } else {
      assert s.users[uid].uId == uid;
    }
  }

  /** A session's u_id is the position of its record. */
  lemma SessionIndexed(s: Store, t: Token)
    requires UsersIndexed(s.users) && GetUserId(s.users, t).Ok?
    ensures 0 <= GetUserId(s.users, t).value < |s.users|
    ensures GetUserIndex(s.users, GetUserId(s.users, t).value) == Ok(GetUserId(s.users, t).value)
  {
    var uid := GetUserId(s.users, t).value;
    var i :| 0 <= i < |s.users| && s.users[i].uId == uid && s.users[i].token == t;
    assert i == uid;
  }

  lemma IndexedLookup(users: seq<User>, uid: int)
    requires UsersIndexed(users) && GetUserIndex(users, uid).Ok?
    ensures GetUserIndex(users, uid).value == uid
  {
  }

  // ------------------------------------------------------------------------------------
  // channels_create

  /** The corrected create gives the new channel an id no channel or user list holds, so
      validity is kept. */
  lemma CreateValid(s: Store, t: Token, name: string, isPublic: bool, now: int)
    requires Valid(s) && Channels.ChannelsCreate(s, t, name, isPublic, now).Ok?
    ensures Valid(Channels.ChannelsCreate(s, t, name, isPublic, now).value.0)
  {
    SessionIndexed(s, t);
    var uid := GetUserId(s.users, t).value;
    AppendChannelValid(s, uid, name, isPublic, now);
  }

  /** Appending a channel with the next log position as id, with `uid` as sole member. */
  lemma AppendChannelValid(s: Store, uid: nat, name: string, isPublic: bool, now: int)
    requires Valid(s) && uid < |s.users|
    ensures Valid(Channels.CreateChannel(s, uid, name, isPublic, now, |s.logs|))
  {
    var id := |s.logs|;
    var s' := Channels.CreateChannel(s, uid, name, isPublic, now, id);
    assert forall i, k :: 0 <= i < |s.users| && 0 <= k < |s.users[i].channels| ==> s.users[i].channels[k] != id;
    assert forall i :: 0 <= i < |s.users| ==> id !in s.users[i].channels;
    assert forall j :: 0 <= j < |s.channels| ==> s.channels[j].channelId != id;
    assert NoRepeats(s') by {
      forall i | 0 <= i < |s'.users|
        ensures NoDuplicates(s'.users[i].channels)
      {
        if i == uid {
          assert s'.users[i].channels == s.users[i].channels + [id];
        }
      }
    }
    assert Synced(s'.users, s'.channels) by {
      forall i, j | 0 <= i < |s'.users| && 0 <= j < |s'.channels|
        ensures i in s'.channels[j].allMembers <==> s'.channels[j].channelId in s'.users[i].channels
      {
        if j < |s.channels| {
          assert s'.channels[j] == s.channels[j];
        }
      }
    }
    assert IdsBelow(s') by {
      forall i, k | 0 <= i < |s'.users| && 0 <= k < |s'.users[i].channels|
        ensures 0 <= s'.users[i].channels[k] < |s'.logs|
      {
        if i == uid && k == |s.users[i].channels| {
        } else {
          assert s'.users[i].channels[k] == s.users[i].channels[k];
        }
      }
    }
  }

  // ------------------------------------------------------------------------------------
  // channel_invite and channel_join: both add one member to one channel

  /** Adding `uid` to the channel at `j` and `j`'s id to the list of user `uid` keeps
      validity, provided the user was not a member. */
  lemma AddMemberValid(s: Store, j: nat, uid: nat, owners: seq<int>)
    requires Valid(s) && j < |s.channels| && uid < |s.users| && uid !in s.channels[j].allMembers
    ensures var c := s.channels[j];
      var u := s.users[uid];
      Valid(s.(channels := s.channels[j := c.(allMembers := c.allMembers + [uid], ownerMembers := owners)],
               users := s.users[uid := u.(channels := u.channels + [c.channelId])]))
  {
    var c := s.channels[j];
    var u := s.users[uid];
    var s' := s.(channels := s.channels[j := c.(allMembers := c.allMembers + [uid], ownerMembers := owners)],
                 users := s.users[uid := u.(channels := u.channels + [c.channelId])]);
    assert c.channelId !in u.channels;
    forall i, k | 0 <= i < |s'.users| && 0 <= k < |s'.channels|
      ensures i in s'.channels[k].allMembers <==> s'.channels[k].channelId in s'.users[i].channels
    {
      if k != j {
        assert s'.channels[k] == s.channels[k];
        assert s.channels[k].channelId != c.channelId;
      }
    }
    assert NoDuplicates(s'.users[uid].channels);
    assert NoDuplicates(s'.channels[j].allMembers);
    assert IdsBelow(s');
    assert MembersKnown(s');
  }

  lemma InviteValid(s: Store, t: Token, cid: int, target: int)
    requires Valid(s) && ChannelOps.Invite(s, t, cid, target).Ok?
    ensures Valid(ChannelOps.Invite(s, t, cid, target).value)
  {
    var j := CheckChannelValid(s.channels, cid).value;
    IndexedLookup(s.users, target);
    var c := s.channels[j];
    if target !in c.allMembers {
      var owners := if UserFlockrOwner(s.users, target) then c.ownerMembers + [target] else c.ownerMembers;
      AddMemberValid(s, j, target, owners);
    }
  }

  lemma JoinValid(s: Store, t: Token, cid: int)
    requires Valid(s) && ChannelOps.Join(s, t, cid).Ok?
    ensures Valid(ChannelOps.Join(s, t, cid).value)
  {
    SessionIndexed(s, t);
    var uid := GetUserId(s.users, t).value;
    var j := CheckChannelValid(s.channels, cid).value;
    var c := s.channels[j];
    if uid !in c.allMembers {
      var owners := if UserFlockrOwner(s.users, uid) then c.ownerMembers + [uid] else c.ownerMembers;
      AddMemberValid(s, j, uid, owners);
    }
  }

  // ------------------------------------------------------------------------------------
  // channel_leave

  /** Taking `uid` out of the channel at `j` (which lists it) and `j`'s id out of the
      user's list keeps validity, whether the channel stays or is deleted. */
  lemma LeaveValid(s: Store, t: Token, cid: int)
    requires Valid(s) && ChannelOps.Leave(s, t, cid).Ok?
    ensures Valid(ChannelOps.Leave(s, t, cid).value)
  {
    SessionIndexed(s, t);
    var uid := GetUserId(s.users, t).value;
    var j := CheckChannelValid(s.channels, cid).value;
    var c := s.channels[j];
    var after := ChannelOps.AfterLeave(c, uid, CheckUserOwner(s.channels, uid, cid));
    var s' := ChannelOps.Leave(s, t, cid).value;
    var u := s.users[uid];
    RemoveFirstNoDuplicates(u.channels, cid);
    RemoveFirstNoDuplicates(c.allMembers, uid);
    var users' := s.users[uid := u.(channels := RemoveFirst(u.channels, cid))];
    assert s'.users == users';
    if after.None? {
      LeaveDeletesValid(s, j, uid, users');
    } else {
      LeaveKeepsValid(s, j, uid, users', after.value);
    }
  }

  lemma LeaveDeletesValid(s: Store, j: nat, uid: nat, users': seq<User>)
    requires Valid(s) && j < |s.channels| && uid < |s.users| && uid in s.channels[j].allMembers
    requires RemoveFirst(s.channels[j].allMembers, uid) == []
    requires var u := s.users[uid];
      users' == s.users[uid := u.(channels := RemoveFirst(u.channels, s.channels[j].channelId))]
    ensures Valid(s.(users := users', channels := ChannelOps.RemoveAt(s.channels, j)))
  {
    var c := s.channels[j];
    var cs' := ChannelOps.RemoveAt(s.channels, j);
    var s' := s.(users := users', channels := cs');
    RemoveFirstNoDuplicates(s.users[uid].channels, c.channelId);
    assert c.allMembers == [uid] by {
      assert |c.allMembers| == 1;
      assert c.allMembers[0] == uid;
    }
    forall i, k | 0 <= i < |users'| && 0 <= k < |cs'|
      ensures i in cs'[k].allMembers <==> cs'[k].channelId in users'[i].channels
    {
      var k0 := if k < j then k else k + 1;
      assert cs'[k] == s.channels[k0];
      assert s.channels[k0].channelId != c.channelId;
      if i != uid {
        assert users'[i] == s.users[i];
      }
    }
    forall i | 0 <= i < |users'|
      ensures c.channelId !in users'[i].channels
    {
      if i != uid {
        assert users'[i] == s.users[i];
        assert i !in c.allMembers;
      }
    }
    forall i, k | 0 <= i < |users'| && 0 <= k < |users'[i].channels|
      ensures 0 <= users'[i].channels[k] < |s'.logs|
    {
      assert users'[i].channels[k] in users'[i].channels;
      if i != uid { assert users'[i] == s.users[i]; }
      else { assert users'[i].channels[k] in s.users[i].channels; }
    }
    assert ChannelIdsDistinct(cs') by {
      forall a, b | 0 <= a < b < |cs'| ensures cs'[a].channelId != cs'[b].channelId {
        var a0 := if a < j then a else a + 1;
        var b0 := if b < j then b else b + 1;
        assert cs'[a] == s.channels[a0] && cs'[b] == s.channels[b0];
      }
    }
    assert NoRepeats(s') by {
      forall i | 0 <= i < |users'| ensures NoDuplicates(users'[i].channels) {
        if i != uid { assert users'[i] == s.users[i]; }
      }
      forall k | 0 <= k < |cs'| ensures NoDuplicates(cs'[k].allMembers) {
        var k0 := if k < j then k else k + 1;
        assert cs'[k] == s.channels[k0];
      }
    }
    assert MembersKnown(s') by {
      forall k, m | 0 <= k < |cs'| && 0 <= m < |cs'[k].allMembers|
        ensures 0 <= cs'[k].allMembers[m] < |s'.users|
      {
        var k0 := if k < j then k else k + 1;
        assert cs'[k] == s.channels[k0];
      }
    }
  }

  /** The shape of a leave that keeps the channel: `uid` leaves the channel at `j`, which
      becomes `c'`, and the channel id leaves the user's list. */
  predicate KeptAfterLeave(s: Store, j: nat, uid: nat, users': seq<User>, c': Channel) {
    && j < |s.channels| && uid < |s.users|
    && c'.channelId == s.channels[j].channelId
    && c'.allMembers == RemoveFirst(s.channels[j].allMembers, uid)
    && users' == s.users[uid := s.users[uid].(channels := RemoveFirst(s.users[uid].channels, s.channels[j].channelId))]
  }

  lemma LeaveKeepsValid(s: Store, j: nat, uid: nat, users': seq<User>, c': Channel)
    requires Valid(s) && KeptAfterLeave(s, j, uid, users', c')
    ensures Valid(s.(users := users', channels := s.channels[j := c']))
  {
    var s' := s.(users := users', channels := s.channels[j := c']);
    LeaveKeepsSynced(s, j, uid, users', c');
    LeaveKeepsBounds(s, j, uid, users', c');
    LeaveKeepsNoRepeats(s, j, uid, users', c');
    forall i | 0 <= i < |users'| ensures users'[i].uId == i {
      if i != uid { assert users'[i] == s.users[i]; }
    }
    forall a, b | 0 <= a < b < |s'.channels| ensures s'.channels[a].channelId != s'.channels[b].channelId {
      assert s'.channels[a].channelId == s.channels[a].channelId;
      assert s'.channels[b].channelId == s.channels[b].channelId;
    }
  }

  lemma LeaveKeepsBounds(s: Store, j: nat, uid: nat, users': seq<User>, c': Channel)
    requires IdsBelow(s) && MembersKnown(s) && KeptAfterLeave(s, j, uid, users', c')
    ensures IdsBelow(s.(users := users', channels := s.channels[j := c']))
    ensures MembersKnown(s.(users := users', channels := s.channels[j := c']))
  {
    LeaveKeepsIdsBelow(s, j, uid, users', c');
    LeaveKeepsMembersKnown(s, j, uid, users', c');
  }

  lemma LeaveKeepsIdsBelow(s: Store, j: nat, uid: nat, users': seq<User>, c': Channel)
    requires IdsBelow(s) && KeptAfterLeave(s, j, uid, users', c')
    ensures IdsBelow(s.(users := users', channels := s.channels[j := c']))
  {
    var cs' := s.channels[j := c'];
    forall k | 0 <= k < |cs'| ensures 0 <= cs'[k].channelId < |s.logs| {
      assert cs'[k].channelId == s.channels[k].channelId;
    }
    forall i, k | 0 <= i < |users'| && 0 <= k < |users'[i].channels|
      ensures 0 <= users'[i].channels[k] < |s.logs|
    {
      if i != uid {
        assert users'[i] == s.users[i];
      } else {
        assert users'[i].channels[k] in RemoveFirst(s.users[i].channels, s.channels[j].channelId);
        assert users'[i].channels[k] in s.users[i].channels;
      }
    }
  }

  lemma LeaveKeepsMembersKnown(s: Store, j: nat, uid: nat, users': seq<User>, c': Channel)
    requires MembersKnown(s) && KeptAfterLeave(s, j, uid, users', c')
    ensures MembersKnown(s.(users := users', channels := s.channels[j := c']))
  {
    var cs' := s.channels[j := c'];
    forall k, m | 0 <= k < |cs'| && 0 <= m < |cs'[k].allMembers|
      ensures 0 <= cs'[k].allMembers[m] < |users'|
    {
      if k != j {
        assert cs'[k] == s.channels[k];
      } else {
        assert cs'[k].allMembers[m] in RemoveFirst(s.channels[j].allMembers, uid);
        assert cs'[k].allMembers[m] in s.channels[j].allMembers;
      }
    }
  }

  lemma LeaveKeepsNoRepeats(s: Store, j: nat, uid: nat, users': seq<User>, c': Channel)
    requires NoRepeats(s) && KeptAfterLeave(s, j, uid, users', c')
    ensures NoRepeats(s.(users := users', channels := s.channels[j := c']))
  {
    var cs' := s.channels[j := c'];
    RemoveFirstNoDuplicates(s.users[uid].channels, s.channels[j].channelId);
    RemoveFirstNoDuplicates(s.channels[j].allMembers, uid);
    forall i | 0 <= i < |users'| ensures NoDuplicates(users'[i].channels) {
      if i != uid { assert users'[i] == s.users[i]; }
    }
    forall k | 0 <= k < |cs'| ensures NoDuplicates(cs'[k].allMembers) {
      if k != j { assert cs'[k] == s.channels[k]; }
    }
  }

  lemma LeaveKeepsSynced(s: Store, j: nat, uid: nat, users': seq<User>, c': Channel)
    requires Synced(s.users, s.channels) && ChannelIdsDistinct(s.channels) && NoRepeats(s)
    requires KeptAfterLeave(s, j, uid, users', c')
    ensures Synced(users', s.channels[j := c'])
  {
    var cs := s.channels;
    var cs' := cs[j := c'];
    forall i, k | 0 <= i < |users'| && 0 <= k < |cs'|
      ensures i in cs'[k].allMembers <==> cs'[k].channelId in users'[i].channels
    {
      assert k != j ==> cs[k].channelId != cs[j].channelId by {
        if k < j { assert cs[k].channelId != cs[j].channelId; }
        if j < k { assert cs[j].channelId != cs[k].channelId; }
      }
      LeaveSyncedCell(s.users, cs, j, uid, users', c', i, k);
    }
  }

  /** One user and one channel after the leave: only the leaver and the channel left lose
      the link, and they lose it on both sides. */
  lemma LeaveSyncedCell(users: seq<User>, cs: seq<Channel>, j: nat, uid: nat, users': seq<User>, c': Channel, i: nat, k: nat)
    requires j < |cs| && uid < |users| && i < |users| && k < |cs|
    requires i in cs[k].allMembers <==> cs[k].channelId in users[i].channels
    requires k != j ==> cs[k].channelId != cs[j].channelId
    requires NoDuplicates(users[uid].channels) && NoDuplicates(cs[j].allMembers)
    requires c'.channelId == cs[j].channelId && c'.allMembers == RemoveFirst(cs[j].allMembers, uid)
    requires users' == users[uid := users[uid].(channels := RemoveFirst(users[uid].channels, cs[j].channelId))]
    ensures var cs' := cs[j := c']; i in cs'[k].allMembers <==> cs'[k].channelId in users'[i].channels
  {
    RemoveFirstNoDuplicates(users[uid].channels, cs[j].channelId);
    RemoveFirstNoDuplicates(cs[j].allMembers, uid);
  }

  // ------------------------------------------------------------------------------------
  // channel_addowner / channel_removeowner, auth_register

  lemma OwnersValid(s: Store, t: Token, cid: int, target: int)
    requires Valid(s)
    ensures ChannelOps.AddOwner(s, t, cid, target).Ok? ==> Valid(ChannelOps.AddOwner(s, t, cid, target).value)
    ensures ChannelOps.RemoveOwner(s, t, cid, target).Ok? ==> Valid(ChannelOps.RemoveOwner(s, t, cid, target).value)
  {
    if ChannelOps.AddOwner(s, t, cid, target).Ok? {
      var j := CheckChannelValid(s.channels, cid).value;
      OwnerChangeValid(s, j, s.channels[j].ownerMembers + [target]);
    }
    if ChannelOps.RemoveOwner(s, t, cid, target).Ok? {
      var j := CheckChannelValid(s.channels, cid).value;
      OwnerChangeValid(s, j, RemoveFirst(s.channels[j].ownerMembers, target));
    }
  }

  /** In a store with distinct channel ids, promoting a user and then demoting them again
      restores the store. */
  lemma AddThenRemoveOwner(s: Store, t: Token, cid: int, target: int)
    requires ChannelIdsDistinct(s.channels) && ChannelOps.AddOwner(s, t, cid, target).Ok?
    ensures ChannelOps.RemoveOwner(ChannelOps.AddOwner(s, t, cid, target).value, t, cid, target) == Ok(s)
  {
    var s' := ChannelOps.AddOwner(s, t, cid, target).value;
    var j := CheckChannelValid(s.channels, cid).value;
    var owners := s.channels[j].ownerMembers;
    OwnersEditLookup(s.channels, j, owners + [target], cid);
    assert target !in owners;
    var uid := GetUserId(s.users, t).value;
    assert ChannelOps.Elevated(s', uid, cid) by {
      if CheckUserOwner(s.channels, uid, cid) {
        assert uid in s'.channels[j].ownerMembers;
      }
    }
    RemoveFirstAppended(owners, target);
    assert s'.channels[j := s'.channels[j].(ownerMembers := owners)] == s.channels;
  }

  /** With distinct channel ids, replacing the owners of the channel at `j` keeps it the
      channel the id finds, first and last, and the owner check reads the owners at `j`
      before and after. */
  lemma OwnersEditLookup(cs: seq<Channel>, j: nat, owners: seq<int>, cid: int)
    requires ChannelIdsDistinct(cs) && CheckChannelValid(cs, cid) == Ok(j)
    ensures var cs' := cs[j := cs[j].(ownerMembers := owners)];
      && CheckChannelValid(cs', cid) == Ok(j)
      && (forall x :: CheckUserOwner(cs, x, cid) <==> x in cs[j].ownerMembers)
      && (forall x :: CheckUserOwner(cs', x, cid) <==> x in owners)
  {
    var cs' := cs[j := cs[j].(ownerMembers := owners)];
    assert forall k :: 0 <= k < |cs| ==> cs'[k].channelId == cs[k].channelId;
    assert IsLastChannel(cs, cid, j);
    assert IsLastChannel(cs', cid, j);
    assert forall l :: IsLastChannel(cs, cid, l) ==> l == j;
    assert forall l :: IsLastChannel(cs', cid, l) ==> l == j;
  }

  /** In a valid store the details list exactly the channel's members, each with the
      record of the user at that u_id. */
  lemma DetailsListMembers(s: Store, t: Token, cid: int)
    requires Valid(s) && ChannelOps.ChannelDetails(s, t, cid).Ok?
    ensures var d := ChannelOps.ChannelDetails(s, t, cid).value;
      forall i :: 0 <= i < |s.users| ==> (ChannelOps.RecordOf(s.users[i]) in d.allMembers <==> cid in s.users[i].channels)
  {
    var j := CheckChannelValid(s.channels, cid).value;
    var c := s.channels[j];
    RecordsIndexed(c.allMembers, s.users);
  }

  /** With users at their u_id, a user's record is listed exactly when their id is. */
  lemma RecordsIndexed(ids: seq<int>, users: seq<User>)
    requires UsersIndexed(users) && forall k :: 0 <= k < |ids| ==> 0 <= ids[k] < |users|
    ensures forall i :: 0 <= i < |users| ==> (ChannelOps.RecordOf(users[i]) in ChannelOps.Records(ids, users) <==> i in ids)
  {
    var rs := ChannelOps.Records(ids, users);
    forall i | 0 <= i < |users|
      ensures ChannelOps.RecordOf(users[i]) in rs <==> i in ids
    {
      if ChannelOps.RecordOf(users[i]) in rs {
        var k :| 0 <= k < |rs| && rs[k] == ChannelOps.RecordOf(users[i]);
        assert users[ids[k]].uId == users[i].uId;
      }
      if i in ids {
        var k :| 0 <= k < |ids| && ids[k] == i;
        assert rs[k] == ChannelOps.RecordOf(users[i]);
      }
    }
  }

  lemma OwnerChangeValid(s: Store, j: nat, owners: seq<int>)
    requires Valid(s) && j < |s.channels|
    ensures Valid(s.(channels := s.channels[j := s.channels[j].(ownerMembers := owners)]))
  {
    var cs' := s.channels[j := s.channels[j].(ownerMembers := owners)];
    assert forall k :: 0 <= k < |cs'| ==>
      cs'[k].allMembers == s.channels[k].allMembers && cs'[k].channelId == s.channels[k].channelId;
  }

  lemma RegisterValid(s: Store, email: string, emailOk: bool, password: string, first: string, last: string,
                      draws: seq<int>)
    requires Valid(s) && Auth.Register(s, email, emailOk, password, first, last, draws).Ok?
    ensures Valid(Auth.Register(s, email, emailOk, password, first, last, draws).value.0)
  {
    var s' := Auth.Register(s, email, emailOk, password, first, last, draws).value.0;
    var n := |s.users|;
    assert s'.users[n].channels == [];
    assert forall i :: 0 <= i < n ==> s'.users[i] == s.users[i];
    assert forall j, k :: 0 <= j < |s.channels| && 0 <= k < |s.channels[j].allMembers| ==> s.channels[j].allMembers[k] != n;
  }
}

=== FILE: message.dfy ===
/** Sending, removing, editing, pinning and reacting to messages, and the delayed send
    (message.py). Every operation finds its message by id across all channel logs. */
module MessageOps {
  import opened Wrappers
  import opened Strings
  import opened Data
  import opened Helper
  import Trivia

  const MaxMessageLength: int := 1000

  // ------------------------------------------------------------------------------------
  // Appending to the logs of a channel

  /** Appends `m` to the log of every entry with this channel id; no other entry changes. */
  function AppendToLogs(logs: seq<ChannelLog>, cid: int, m: Message): (r: seq<ChannelLog>)
    ensures |r| == |logs|
    ensures forall j :: 0 <= j < |logs| && logs[j].channelId != cid ==> r[j] == logs[j]
    ensures forall j :: 0 <= j < |logs| && logs[j].channelId == cid ==>
      r[j] == logs[j].(messages := logs[j].messages + [m])
  {
    seq(|logs|, j requires 0 <= j < |logs| =>
      if logs[j].channelId == cid then logs[j].(messages := logs[j].messages + [m]) else logs[j])
  }

  /** The text of an `InputError` turned into a string: the status line of the HTTP 400
      response it stands for, then its description. */
  function ErrorText(reason: string): (r: string)
    ensures StartsWith(r, "400 Bad Request: ") && r[|"400 Bad Request: "|..] == reason
  {
    "400 Bad Request: " + reason
  }

  /** What a send stores once the channel's log is found. A line that starts with
      `/trivia` runs the command: its reply is stored, or the text of the `InputError` it
      raises; any other exception escapes. The command changes only trivia state. */
  function Posted(s: Store, t: Token, cid: int, text: string): (r: Result<(Store, string)>)
    ensures !StartsWith(text, Trivia.CommandWord) ==> r == Ok((s, text))
    ensures r.Ok? ==> r.value.0.users == s.users && r.value.0.channels == s.channels
                      && r.value.0.logs == s.logs && r.value.0.counter == s.counter
                      && r.value.0.standupCounter == s.standupCounter && r.value.0.pending == s.pending
    ensures r.Ok? && StartsWith(text, Trivia.CommandWord) ==>
      |r.value.1| > 0 && !StartsWith(r.value.1, Trivia.CommandWord)
    ensures StartsWith(text, Trivia.CommandWord) && Trivia.CheckCommand(s, t, cid, text).Rejected? ==>
      r == Ok((s, ErrorText(Trivia.CheckCommand(s, t, cid, text).reason)))
    ensures StartsWith(text, Trivia.CommandWord) && Trivia.CheckCommand(s, t, cid, text).Raised? ==>
      r == Fail(Trivia.CheckCommand(s, t, cid, text).error)
  {
    if !StartsWith(text, Trivia.CommandWord) then Ok((s, text))
    else
      match Trivia.CheckCommand(s, t, cid, text)
      case Raised(e) => Fail(e)
      case Rejected(reason) =>
        var stored := ErrorText(reason);
        NoCommandStart(stored);
        Ok((s, stored))
      case Done(s', reply) =>
        NoCommandStart(reply);
        Ok((s', reply))
  }

  /** A text whose first character is not `/` cannot be a trivia command. */
  lemma NoCommandStart(x: string)
    requires |x| > 0 && x[0] != '/'
    ensures !StartsWith(x, Trivia.CommandWord)
  {
    assert Trivia.CommandWord[0] == '/';
  }

  // ------------------------------------------------------------------------------------
  // message_send

  /** `message_send`. The length check comes before the token; an empty message is
      accepted without a token check and stores nothing. Otherwise the counter is bumped
      and its new value is the message id, whether or not a log for the channel exists;
      the message goes to the end of every log with the channel id. */
  function Send(s: Store, t: Token, cid: int, text: string, now: int): (r: Result<(Store, Option<int>)>)
    ensures |text| > MaxMessageLength ==> r == Fail(InputError)
    ensures |text| <= MaxMessageLength && text == "" ==> r == Ok((s, None))
    ensures |text| <= MaxMessageLength && text != "" && GetUserId(s.users, t).Fail? ==> r == Fail(AccessError)
    ensures (|text| <= MaxMessageLength && text != "" && GetUserId(s.users, t).Ok?
             && MissingMembership(s.users, Decode(t).value, cid)) ==> r == Fail(AccessError)
    ensures (|text| <= MaxMessageLength && text != "" && GetUserId(s.users, t).Ok?
             && !MissingMembership(s.users, Decode(t).value, cid) && !StartsWith(text, Trivia.CommandWord))
            ==> r.Ok?
    ensures r.Ok? && text != "" ==> r.value.1 == Some(s.counter + 1) && r.value.0.counter == s.counter + 1
    ensures r.Ok? && text != "" ==> r.value.0.users == s.users && r.value.0.channels == s.channels
                                    && r.value.0.pending == s.pending && |r.value.0.logs| == |s.logs|
    ensures (r.Ok? && text != "" && !StartsWith(text, Trivia.CommandWord)) ==>
      r.value.0.logs == AppendToLogs(s.logs, cid, NewMessage(s.counter + 1, Decode(t).value, text, now))
    ensures (r.Ok? && text != "" && StartsWith(text, Trivia.CommandWord)) ==>
      (forall j :: 0 <= j < |s.logs| && s.logs[j].channelId == cid ==>
         |r.value.0.logs[j].messages| == |s.logs[j].messages| + 1
         && !StartsWith(r.value.0.logs[j].messages[|s.logs[j].messages|].text, Trivia.CommandWord))
  {
    if |text| > MaxMessageLength then Fail(InputError)
    else if text == "" then Ok((s, None))
    else
      var uid :- GetUserId(s.users, t);
      var _ :- CheckUserInChannel(s.users, uid, cid);
      var id := s.counter + 1;
      var s1 := s.(counter := id);
      if LastLog(s.logs, cid).None? then Ok((s1, Some(id)))
      else
        var posted :- Posted(s1, t, cid, text);
        var s2 := posted.0;
        Ok((s2.(logs := AppendToLogs(s2.logs, cid, NewMessage(id, uid, posted.1, now))), Some(id)))
  }

  /** A plain message lands at the end of its channel's log: the sender as author, the new
      id, unpinned and without reactions; every other log is untouched. */
  lemma SendAppends(s: Store, t: Token, cid: int, text: string, now: int, j: int)
    requires Send(s, t, cid, text, now).Ok? && text != "" && !StartsWith(text, Trivia.CommandWord)
    requires 0 <= j < |s.logs|
    ensures s.logs[j].channelId != cid ==> Send(s, t, cid, text, now).value.0.logs[j] == s.logs[j]
    ensures s.logs[j].channelId == cid ==>
      var ms := Send(s, t, cid, text, now).value.0.logs[j].messages;
      && ms[..|ms| - 1] == s.logs[j].messages
      && ms[|ms| - 1].messageId == s.counter + 1
      && Decode(t) == Some(ms[|ms| - 1].uId)
      && ms[|ms| - 1].text == text && !ms[|ms| - 1].isPinned && ms[|ms| - 1].react.uIds == []
  {
    var logs := Send(s, t, cid, text, now).value.0.logs;
    if s.logs[j].channelId == cid {
      assert logs[j].messages == s.logs[j].messages + [NewMessage(s.counter + 1, Decode(t).value, text, now)];
    }
  }

  // ------------------------------------------------------------------------------------
  // Authorisation shared by remove, edit, pin and unpin

  /** The caller may change the message: they wrote it, or they own the channel the
      message was found in (the last channel entry with that id decides), or they are a
      global owner. */
  ghost predicate MayModify(s: Store, uid: int, cid: int, mid: int) {
    || AuthoredBy(s.logs, mid, uid)
    || (exists j :: IsLastChannel(s.channels, cid, j) && uid in s.channels[j].ownerMembers)
    || (exists i :: IsLastUser(s.users, uid, i) && s.users[i].globalPermission == OwnerPermission)
  }

  /** The caller owns the channel or the whole server. */
  ghost predicate Moderator(s: Store, uid: int, cid: int) {
    || (exists j :: IsLastChannel(s.channels, cid, j) && uid in s.channels[j].ownerMembers)
    || (exists i :: IsLastUser(s.users, uid, i) && s.users[i].globalPermission == OwnerPermission)
  }

  // ------------------------------------------------------------------------------------
  // message_remove

  /** The messages of a log without the given id, in order. */
  function Keep(ms: seq<Message>, mid: int): (r: seq<Message>)
    ensures |r| <= |ms|
    ensures forall m :: m in r <==> m in ms && m.messageId != mid
  {
    if |ms| == 0 then []
    else if ms[0].messageId == mid then Keep(ms[1..], mid)
    else [ms[0]] + Keep(ms[1..], mid)
  }

  lemma {:induction false} KeepAppend(a: seq<Message>, b: seq<Message>, mid: int)
    ensures Keep(a + b, mid) == Keep(a, mid) + Keep(b, mid)
  {
    if |a| > 0 {
      assert (a + b)[0] == a[0];
      assert (a + b)[1..] == a[1..] + b;
      KeepAppend(a[1..], b, mid);
      if a[0].messageId != mid {
        var x, y := Keep(a[1..], mid), Keep(b, mid);
        assert [a[0]] + (x + y) == ([a[0]] + x) + y;
      }
    } else {
      assert a + b == b;
    }
  }

  /** Removing one message that carries the id leaves the other messages as they were. */
  lemma {:induction false} KeepRemoveFirst(ms: seq<Message>, x: Message, mid: int)
    requires x.messageId == mid
    ensures Keep(RemoveFirst(ms, x), mid) == Keep(ms, mid)
  {
    if |ms| > 0 && ms[0] != x {
      KeepRemoveFirst(ms[1..], x, mid);
      assert RemoveFirst(ms, x) == [ms[0]] + RemoveFirst(ms[1..], x);
      assert ([ms[0]] + RemoveFirst(ms[1..], x))[1..] == RemoveFirst(ms[1..], x);
    }
  }

  /** The removal loop of `message_remove` on one log. It walks the list by position while
      removing from it, so the element right after a removed one is skipped, and `remove`
      drops the first element equal to the one found. */
  function RemoveSkipping(ms: seq<Message>, mid: int, k: nat): (r: seq<Message>)
    decreases |ms| - k
    ensures |r| <= |ms|
  {
    if k >= |ms| then ms
    else if ms[k].messageId == mid then
      assert ms[k] in ms;
      RemoveSkipping(RemoveFirst(ms, ms[k]), mid, k + 1)
    else RemoveSkipping(ms, mid, k + 1)
  }

  /** The loop removes messages with the id and nothing else. */
  lemma {:induction false} RemoveSkippingKeeps(ms: seq<Message>, mid: int, k: nat)
    ensures Keep(RemoveSkipping(ms, mid, k), mid) == Keep(ms, mid)
    decreases |ms| - k
  {
    if k < |ms| {
      if ms[k].messageId == mid {
        assert ms[k] in ms;
        RemoveSkippingKeeps(RemoveFirst(ms, ms[k]), mid, k + 1);
        KeepRemoveFirst(ms, ms[k], mid);
      } else {
        RemoveSkippingKeeps(ms, mid, k + 1);
      }
    }
  }

  /** At most one message of the log carries the id. */
  predicate AtMostOne(ms: seq<Message>, mid: int) {
    forall a, b :: 0 <= a < |ms| && 0 <= b < |ms| && ms[a].messageId == mid && ms[b].messageId == mid ==> a == b
  }

  predicate Lacks(ms: seq<Message>, mid: int) {
    forall k :: 0 <= k < |ms| ==> ms[k].messageId != mid
  }

  lemma {:induction false} KeepLacking(ms: seq<Message>, mid: int)
    requires Lacks(ms, mid)
    ensures Keep(ms, mid) == ms
  {
    if |ms| > 0 {
      KeepLacking(ms[1..], mid);
    }
  }

  lemma {:induction false} RemoveSkippingLacking(ms: seq<Message>, mid: int, k: nat)
    requires Lacks(ms, mid)
    ensures RemoveSkipping(ms, mid, k) == ms
    decreases |ms| - k
  {
    if k < |ms| {
      RemoveSkippingLacking(ms, mid, k + 1);
    }
  }

  /** A log whose only message with the id sits at `k` keeps everything but position `k`. */
  lemma KeepOnly(ms: seq<Message>, mid: int, k: nat)
    requires k < |ms| && ms[k].messageId == mid && Lacks(ms[..k], mid) && Lacks(ms[k + 1..], mid)
    ensures Keep(ms, mid) == ms[..k] + ms[k + 1..]
  {
    assert ms == ms[..k] + [ms[k]] + ms[k + 1..];
    KeepAppend(ms[..k] + [ms[k]], ms[k + 1..], mid);
    KeepAppend(ms[..k], [ms[k]], mid);
    KeepLacking(ms[..k], mid);
    KeepLacking(ms[k + 1..], mid);
    assert Keep([ms[k]], mid) == [];
  }

  /** With at most one message carrying the id, nothing after the one at `k` carries it. */
  lemma LacksAfter(ms: seq<Message>, mid: int, k: nat)
    requires AtMostOne(ms, mid) && k < |ms| && ms[k].messageId == mid
    ensures Lacks(ms[k + 1..], mid)
  {
    var tail := ms[k + 1..];
    forall i | 0 <= i < |tail|
      ensures tail[i].messageId != mid
    {
      assert tail[i] == ms[k + 1 + i];
    }
  }

  /** The loop reaching the only message with the id removes it and nothing else. */
  lemma RemoveSkippingOnly(ms: seq<Message>, mid: int, k: nat)
    requires k < |ms| && ms[k].messageId == mid && Lacks(ms[..k], mid) && Lacks(ms[k + 1..], mid)
    ensures RemoveSkipping(ms, mid, k) == ms[..k] + ms[k + 1..]
  {
    var rest := ms[..k] + ms[k + 1..];
    assert ms[k] !in ms[..k];
    RemoveFirstAt(ms, k);
    RemoveSkippingHit(ms, mid, k);
    LacksJoin(ms[..k], ms[k + 1..], mid);
    RemoveSkippingLacking(rest, mid, k + 1);
  }

  /** One step of the loop on a message with the id. */
  lemma RemoveSkippingHit(ms: seq<Message>, mid: int, k: nat)
    requires k < |ms| && ms[k].messageId == mid
    ensures RemoveSkipping(ms, mid, k) == RemoveSkipping(RemoveFirst(ms, ms[k]), mid, k + 1)
  {
    assert ms[k] in ms;
  }

  /** Two logs without the id, laid end to end, are without it. */
  lemma LacksJoin(a: seq<Message>, b: seq<Message>, mid: int)
    requires Lacks(a, mid) && Lacks(b, mid)
    ensures Lacks(a + b, mid)
  {
    var ab := a + b;
    forall i | 0 <= i < |ab|
      ensures ab[i].messageId != mid
    {
      if i < |a| {
        assert ab[i] == a[i];
      } else {
        assert ab[i] == b[i - |a|];
      }
    }
  }

  /** With ids unique in the log, the loop removes exactly the messages with the id. */
  lemma {:induction false} RemoveSkippingUnique(ms: seq<Message>, mid: int, k: nat)
    requires AtMostOne(ms, mid) && k <= |ms| && Lacks(ms[..k], mid)
    ensures RemoveSkipping(ms, mid, k) == Keep(ms, mid)
    decreases |ms| - k
  {
    if k == |ms| {
      assert ms[..k] == ms;
      KeepLacking(ms, mid);
    } else if ms[k].messageId == mid {
      LacksAfter(ms, mid, k);
      KeepOnly(ms, mid, k);
      RemoveSkippingOnly(ms, mid, k);
    } else {
      assert ms[..k + 1] == ms[..k] + [ms[k]];
      RemoveSkippingUnique(ms, mid, k + 1);
    }
  }

  /** Runs the removal loop over every log. */
  function RemoveInLogs(logs: seq<ChannelLog>, mid: int): (r: seq<ChannelLog>)
    ensures |r| == |logs|
    ensures forall i :: 0 <= i < |logs| ==>
      r[i] == logs[i].(messages := RemoveSkipping(logs[i].messages, mid, 0))
  {
    seq(|logs|, i requires 0 <= i < |logs| => logs[i].(messages := RemoveSkipping(logs[i].messages, mid, 0)))
  }

  /** `message_remove`: the token, then the message id (`InputError`), then the caller must
      be the author, an owner of the channel or a global owner (`AccessError`); channel
      membership is not required. */
  function Remove(s: Store, t: Token, mid: int): (r: Result<Store>)
    ensures GetUserId(s.users, t).Fail? ==> r == Fail(AccessError)
    ensures GetUserId(s.users, t).Ok? && !MessageExists(s.logs, mid) ==> r == Fail(InputError)
    ensures r.Fail? ==> r.error != RuntimeError
    ensures r.Ok? <==> (GetUserId(s.users, t).Ok? && MessageExists(s.logs, mid)
                        && MayModify(s, Decode(t).value, ValidMessageId(s.logs, mid).value, mid))
    ensures r.Ok? ==> r.value == s.(logs := RemoveInLogs(s.logs, mid))
  {
    var uid :- GetUserId(s.users, t);
    var cid :- ValidMessageId(s.logs, mid);
    if !(MessageCheckUser(s.logs, mid, uid) || CheckUserOwner(s.channels, uid, cid) || UserFlockrOwner(s.users, uid)) then
      Fail(AccessError)
    else
      Ok(s.(logs := RemoveInLogs(s.logs, mid)))
  }

  /** A removal keeps every other message of every log, in order; where the id occurs at
      most once in a log, it is gone from that log afterwards. */
  lemma RemoveOnlyThatMessage(s: Store, t: Token, mid: int, i: int)
    requires Remove(s, t, mid).Ok? && 0 <= i < |s.logs|
    ensures Keep(Remove(s, t, mid).value.logs[i].messages, mid) == Keep(s.logs[i].messages, mid)
    ensures AtMostOne(s.logs[i].messages, mid) ==>
      Remove(s, t, mid).value.logs[i].messages == Keep(s.logs[i].messages, mid)
  {
    RemoveSkippingKeeps(s.logs[i].messages, mid, 0);
    if AtMostOne(s.logs[i].messages, mid) {
      RemoveSkippingUnique(s.logs[i].messages, mid, 0);
    }
  }

  // ------------------------------------------------------------------------------------
  // Changes to single messages: edit, pin, unpin, react, unreact

  datatype Change =
    | Rewriting(text: string, at: int)
    | Pinning
    | Unpinning
    | Reacting(uid: int)
    | Unreacting(uid: int)

  /** The message already is as the change would make it: pinned, unpinned, reacted to by
      the user, or not reacted to by them. Such a change raises `InputError`. */
  predicate Refuses(m: Message, c: Change) {
    match c
    case Rewriting(_, _) => false
    case Pinning => m.isPinned
    case Unpinning => !m.isPinned
    case Reacting(u) => u in m.react.uIds
    case Unreacting(u) => u !in m.react.uIds
  }

  function Apply(m: Message, c: Change): (m': Message)
    ensures m'.messageId == m.messageId && m'.uId == m.uId
    ensures !c.Rewriting? ==> m'.text == m.text && m'.timeCreated == m.timeCreated
    ensures !c.Pinning? && !c.Unpinning? ==> m'.isPinned == m.isPinned
    ensures c.Rewriting? ==> m'.react == m.react
    ensures c.Pinning? || c.Unpinning? ==> m'.react == m.react
    ensures c.Unreacting? && NoDuplicates(m.react.uIds) ==> c.uid !in m'.react.uIds
  {
    match c
    case Rewriting(text, at) => m.(text := text, timeCreated := at)
    case Pinning => m.(isPinned := true)
    case Unpinning => m.(isPinned := false)
    case Reacting(u) => m.(react := m.react.(reactId := ThumbsUp, uIds := m.react.uIds + [u], isThisUserReacted := true))
    case Unreacting(u) =>
      assert NoDuplicates(m.react.uIds) ==> u !in RemoveFirst(m.react.uIds, u) by {
        if NoDuplicates(m.react.uIds) { RemoveFirstNoDuplicates(m.react.uIds, u); }
      }
      m.(react := m.react.(uIds := RemoveFirst(m.react.uIds, u), isThisUserReacted := false))
  }

  /** Pinning an unpinned message and unpinning it again gives the message back. */
  lemma PinThenUnpin(m: Message)
    requires !Refuses(m, Pinning)
    ensures Apply(Apply(m, Pinning), Unpinning) == m
  {
  }

  /** Reacting and then unreacting gives the reactors back, and neither change can put a
      user among the reactors twice. */
  lemma ReactThenUnreact(m: Message, u: int)
    requires !Refuses(m, Reacting(u))
    ensures Apply(Apply(m, Reacting(u)), Unreacting(u)).react.uIds == m.react.uIds
    ensures NoDuplicates(m.react.uIds) ==> NoDuplicates(Apply(m, Reacting(u)).react.uIds)
  {
    var us := m.react.uIds;
    assert (us + [u])[..|us|] == us;
    RemoveFirstAppended(us, u);
  }

  /** Unreacting keeps the reactor list free of duplicates and drops the user from it. */
  lemma UnreactDrops(m: Message, u: int)
    requires NoDuplicates(m.react.uIds)
    ensures NoDuplicates(Apply(m, Unreacting(u)).react.uIds)
    ensures u !in Apply(m, Unreacting(u)).react.uIds
  {
    RemoveFirstNoDuplicates(m.react.uIds, u);
  }

  /** Applies the change to every message of the log with this id. */
  function ChangeMessages(ms: seq<Message>, mid: int, c: Change): (r: seq<Message>)
    ensures |r| == |ms|
    ensures forall k :: 0 <= k < |ms| && ms[k].messageId == mid ==> r[k] == Apply(ms[k], c)
    ensures forall k :: 0 <= k < |ms| && ms[k].messageId != mid ==> r[k] == ms[k]
  {
    seq(|ms|, k requires 0 <= k < |ms| => if ms[k].messageId == mid then Apply(ms[k], c) else ms[k])
  }

  /** The change applies in every log (`None`) or only in the logs of one channel. */
  predicate InScope(scope: Option<int>, cid: int) {
    scope.None? || scope.value == cid
  }

  /** Applies the change to every message with this id in the logs in scope. */
  function ChangeLogs(logs: seq<ChannelLog>, scope: Option<int>, mid: int, c: Change): (r: seq<ChannelLog>)
    ensures |r| == |logs|
    ensures forall j :: 0 <= j < |logs| && !InScope(scope, logs[j].channelId) ==> r[j] == logs[j]
    ensures forall j :: 0 <= j < |logs| && InScope(scope, logs[j].channelId) ==>
      r[j] == logs[j].(messages := ChangeMessages(logs[j].messages, mid, c))
  {
    seq(|logs|, j requires 0 <= j < |logs| =>
      if InScope(scope, logs[j].channelId) then logs[j].(messages := ChangeMessages(logs[j].messages, mid, c))
      else logs[j])
  }

  /** Some message with this id, in a log of this channel, refuses the change. */
  predicate RefusedIn(logs: seq<ChannelLog>, cid: int, mid: int, c: Change) {
    exists j, k :: 0 <= j < |logs| && logs[j].channelId == cid && 0 <= k < |logs[j].messages|
                   && logs[j].messages[k].messageId == mid && Refuses(logs[j].messages[k], c)
  }

  /** The logs have the same channels and the same messages by id and author, position by
      position; only text, time, pin and reactions may differ. */
  predicate SameIds(a: seq<ChannelLog>, b: seq<ChannelLog>) {
    && |a| == |b|
    && (forall j :: 0 <= j < |a| ==> a[j].channelId == b[j].channelId && |a[j].messages| == |b[j].messages|)
    && (forall j, k :: 0 <= j < |a| && 0 <= k < |a[j].messages| && k < |b[j].messages| ==>
          a[j].messages[k].messageId == b[j].messages[k].messageId && a[j].messages[k].uId == b[j].messages[k].uId)
  }

  lemma ChangeLogsSameIds(logs: seq<ChannelLog>, scope: Option<int>, mid: int, c: Change)
    ensures SameIds(logs, ChangeLogs(logs, scope, mid, c))
  {
  }

  /** The message lookups see the same thing in logs with the same ids. */
  lemma {:induction false} SameIdsLookups(a: seq<ChannelLog>, b: seq<ChannelLog>, mid: int, uid: int)
    requires SameIds(a, b)
    ensures ValidMessageId(a, mid) == ValidMessageId(b, mid)
    ensures MessageCheckUser(a, mid, uid) == MessageCheckUser(b, mid, uid)
  {
    if |a| > 0 {
      assert SameIds(a[1..], b[1..]) by {
        assert forall j :: 0 <= j < |a| - 1 ==> a[1..][j] == a[j + 1] && b[1..][j] == b[j + 1];
      }
      SameIdsLookups(a[1..], b[1..], mid, uid);
      assert HasMessage(a[0].messages, mid) <==> HasMessage(b[0].messages, mid) by {
        if HasMessage(a[0].messages, mid) {
          var k :| 0 <= k < |a[0].messages| && a[0].messages[k].messageId == mid;
          assert b[0].messages[k].messageId == mid;
        }
        if HasMessage(b[0].messages, mid) {
          var k :| 0 <= k < |b[0].messages| && b[0].messages[k].messageId == mid;
          assert a[0].messages[k].messageId == mid;
        }
      }
      assert AuthoredIn(a[0].messages, mid, uid) == AuthoredIn(b[0].messages, mid, uid) by {
        if AuthoredIn(a[0].messages, mid, uid) {
          var k :| 0 <= k < |a[0].messages| && a[0].messages[k].messageId == mid && a[0].messages[k].uId == uid;
          assert b[0].messages[k].messageId == mid && b[0].messages[k].uId == uid;
        }
        if AuthoredIn(b[0].messages, mid, uid) {
          var k :| 0 <= k < |b[0].messages| && b[0].messages[k].messageId == mid && b[0].messages[k].uId == uid;
          assert a[0].messages[k].messageId == mid && a[0].messages[k].uId == uid;
        }
      }
    }
  }

  // ------------------------------------------------------------------------------------
  // message_edit, message_pin / unpin, message_react / unreact

  /** The checks edit, pin, unpin, react and unreact start with: the token, the message id
      (giving the channel of the first log holding it), then membership of that channel. */
  function Target(s: Store, t: Token, mid: int): (r: Result<(int, int)>)
    ensures GetUserId(s.users, t).Fail? ==> r == Fail(AccessError)
    ensures GetUserId(s.users, t).Ok? && !MessageExists(s.logs, mid) ==> r == Fail(InputError)
    ensures (GetUserId(s.users, t).Ok? && MessageExists(s.logs, mid)
             && MissingMembership(s.users, Decode(t).value, ValidMessageId(s.logs, mid).value)) ==> r == Fail(AccessError)
    ensures r.Ok? <==> (GetUserId(s.users, t).Ok? && MessageExists(s.logs, mid)
                        && !MissingMembership(s.users, Decode(t).value, ValidMessageId(s.logs, mid).value))
    ensures r.Ok? ==> Decode(t) == Some(r.value.0) && ValidMessageId(s.logs, mid) == Ok(r.value.1)
  {
    var uid :- GetUserId(s.users, t);
    var cid :- ValidMessageId(s.logs, mid);
    var _ :- CheckUserInChannel(s.users, uid, cid);
    Ok((uid, cid))
  }

  /** `message_edit`: the checks of `Target`, then the authorisation of removal. An empty
      text removes the message (the removal runs its own checks again, which pass); any
      other text replaces the text and time of every message with the id, in every log. */
  function Edit(s: Store, t: Token, mid: int, text: string, now: int): (r: Result<Store>)
    ensures Target(s, t, mid).Fail? ==> r == Fail(Target(s, t, mid).error)
    ensures (Target(s, t, mid).Ok? && !MayModify(s, Target(s, t, mid).value.0, Target(s, t, mid).value.1, mid))
            ==> r == Fail(AccessError)
    ensures (Target(s, t, mid).Ok? && MayModify(s, Target(s, t, mid).value.0, Target(s, t, mid).value.1, mid))
            ==> r.Ok?
    ensures r.Ok? && text == "" ==> r == Remove(s, t, mid)
    ensures r.Ok? && text != "" ==> r.value == s.(logs := ChangeLogs(s.logs, None, mid, Rewriting(text, now)))
  {
    var p :- Target(s, t, mid);
    var uid, cid := p.0, p.1;
    if !(MessageCheckUser(s.logs, mid, uid) || CheckUserOwner(s.channels, uid, cid) || UserFlockrOwner(s.users, uid)) then
      Fail(AccessError)
    else if text == "" then Remove(s, t, mid)
    else Ok(s.(logs := ChangeLogs(s.logs, None, mid, Rewriting(text, now))))
  }

  /** An edit changes the text and time of the messages with the id and nothing else:
      every log keeps its channel, its length, and every message its id and author. */
  lemma EditKeepsShape(s: Store, t: Token, mid: int, text: string, now: int)
    requires Edit(s, t, mid, text, now).Ok? && text != ""
    ensures SameIds(s.logs, Edit(s, t, mid, text, now).value.logs)
    ensures forall j, k :: 0 <= j < |s.logs| && 0 <= k < |s.logs[j].messages| ==>
      var m := s.logs[j].messages[k];
      var m' := Edit(s, t, mid, text, now).value.logs[j].messages[k];
      m' == if m.messageId == mid then m.(text := text, timeCreated := now) else m
  {
  }

  /** Pin or unpin: the checks of `Target`, then the caller must own the channel or the
      server (`AccessError`); if a message with the id in a log of that channel is already
      in the requested state, `InputError`. Only messages in logs of that channel change. */
  function Moderate(s: Store, t: Token, mid: int, c: Change): (r: Result<Store>)
    ensures Target(s, t, mid).Fail? ==> r == Fail(Target(s, t, mid).error)
    ensures (Target(s, t, mid).Ok? && !Moderator(s, Target(s, t, mid).value.0, Target(s, t, mid).value.1))
            ==> r == Fail(AccessError)
    ensures (Target(s, t, mid).Ok? && Moderator(s, Target(s, t, mid).value.0, Target(s, t, mid).value.1)) ==>
      (r.Fail? <==> RefusedIn(s.logs, Target(s, t, mid).value.1, mid, c))
    ensures r.Fail? ==> r.error != RuntimeError
    ensures r.Ok? ==> r.value == s.(logs := ChangeLogs(s.logs, Some(Target(s, t, mid).value.1), mid, c))
  {
    var p :- Target(s, t, mid);
    var uid, cid := p.0, p.1;
    if !(CheckUserOwner(s.channels, uid, cid) || UserFlockrOwner(s.users, uid)) then Fail(AccessError)
    else if RefusedIn(s.logs, cid, mid, c) then Fail(InputError)
    else Ok(s.(logs := ChangeLogs(s.logs, Some(cid), mid, c)))
  }

  /** `message_pin`: afterwards every message with the id in the channel's logs is pinned. */
  function Pin(s: Store, t: Token, mid: int): (r: Result<Store>)
    ensures r == Moderate(s, t, mid, Pinning)
    ensures r.Ok? ==> forall j, k :: (0 <= j < |s.logs| && s.logs[j].channelId == Target(s, t, mid).value.1
                                      && 0 <= k < |s.logs[j].messages| && s.logs[j].messages[k].messageId == mid)
                                     ==> !s.logs[j].messages[k].isPinned && r.value.logs[j].messages[k].isPinned
  {
    Moderate(s, t, mid, Pinning)
  }

  /** `message_unpin`: afterwards every message with the id in the channel's logs is unpinned. */
  function Unpin(s: Store, t: Token, mid: int): (r: Result<Store>)
    ensures r == Moderate(s, t, mid, Unpinning)
    ensures r.Ok? ==> forall j, k :: (0 <= j < |s.logs| && s.logs[j].channelId == Target(s, t, mid).value.1
                                      && 0 <= k < |s.logs[j].messages| && s.logs[j].messages[k].messageId == mid)
                                     ==> s.logs[j].messages[k].isPinned && !r.value.logs[j].messages[k].isPinned
  {
    Moderate(s, t, mid, Unpinning)
  }

  /** Undoing a change message by message gives every log back. */
  lemma UndoChangeLogs(logs: seq<ChannelLog>, cid: int, mid: int, c: Change, d: Change)
    requires !RefusedIn(logs, cid, mid, c)
    requires forall m: Message :: !Refuses(m, c) ==> Apply(Apply(m, c), d) == m
    ensures ChangeLogs(ChangeLogs(logs, Some(cid), mid, c), Some(cid), mid, d) == logs
  {
    var once := ChangeLogs(logs, Some(cid), mid, c);
    var twice := ChangeLogs(once, Some(cid), mid, d);
    forall j | 0 <= j < |logs|
      ensures twice[j] == logs[j]
    {
      if logs[j].channelId == cid {
        var ms := logs[j].messages;
        forall k | 0 <= k < |ms|
          ensures twice[j].messages[k] == ms[k]
        {
          if ms[k].messageId == mid {
            assert !Refuses(ms[k], c);
          }
        }
      }
    }
  }

  /** After pinning, no message with the id in the channel's logs refuses to be unpinned. */
  lemma PinnedEverywhere(logs: seq<ChannelLog>, cid: int, mid: int)
    ensures !RefusedIn(ChangeLogs(logs, Some(cid), mid, Pinning), cid, mid, Unpinning)
  {
    var once := ChangeLogs(logs, Some(cid), mid, Pinning);
    forall j, k | 0 <= j < |once| && once[j].channelId == cid && 0 <= k < |once[j].messages|
                  && once[j].messages[k].messageId == mid
      ensures !Refuses(once[j].messages[k], Unpinning)
    {
      assert once[j].messages[k] == Apply(logs[j].messages[k], Pinning);
    }
  }

  /** Pinning and then unpinning the same message, as the same caller, restores the store. */
  lemma PinThenUnpinStore(s: Store, t: Token, mid: int)
    requires Pin(s, t, mid).Ok?
    ensures Unpin(Pin(s, t, mid).value, t, mid) == Ok(s)
  {
    var cid := Target(s, t, mid).value.1;
    PinKeepsTarget(s, t, mid);
    PinnedEverywhere(s.logs, cid, mid);
    UndoChangeLogs(s.logs, cid, mid, Pinning, Unpinning);
  }

  /** Pinning leaves the message where it was found and the caller as they were. */
  lemma PinKeepsTarget(s: Store, t: Token, mid: int)
    requires Pin(s, t, mid).Ok?
    ensures Target(Pin(s, t, mid).value, t, mid) == Target(s, t, mid)
  {
    var s' := Pin(s, t, mid).value;
    var cid := Target(s, t, mid).value.1;
    var uid := Target(s, t, mid).value.0;
    ChangeLogsSameIds(s.logs, Some(cid), mid, Pinning);
    SameIdsLookups(s.logs, s'.logs, mid, uid);
    assert MessageExists(s'.logs, mid) by {
      var i :| 0 <= i < |s.logs| && HasMessage(s.logs[i].messages, mid);
      var k :| 0 <= k < |s.logs[i].messages| && s.logs[i].messages[k].messageId == mid;
      assert s'.logs[i].messages[k].messageId == mid;
    }
  }

  /** `message_react` / `message_unreact`: the checks of `Target`, then a react id other
      than 1 raises `InputError`, then reacting twice or unreacting when absent raises
      `InputError`. The caller is added to, or removed from, the reactors of every message
      with the id in the channel's logs. */
  function Respond(s: Store, t: Token, mid: int, reactId: int, adding: bool): (r: Result<Store>)
    ensures Target(s, t, mid).Fail? ==> r == Fail(Target(s, t, mid).error)
    ensures Target(s, t, mid).Ok? && reactId != ThumbsUp ==> r == Fail(InputError)
    ensures r.Fail? ==> r.error != RuntimeError
    ensures r.Ok? ==>
      var (uid, cid) := Target(s, t, mid).value;
      var c := if adding then Reacting(uid) else Unreacting(uid);
      reactId == ThumbsUp && !RefusedIn(s.logs, cid, mid, c)
      && r.value == s.(logs := ChangeLogs(s.logs, Some(cid), mid, c))
    ensures (Target(s, t, mid).Ok? && reactId == ThumbsUp) ==>
      var (uid, cid) := Target(s, t, mid).value;
      var c := if adding then Reacting(uid) else Unreacting(uid);
      !RefusedIn(s.logs, cid, mid, c) ==> r.Ok?
    ensures (Target(s, t, mid).Ok? && reactId == ThumbsUp) ==>
      var (uid, cid) := Target(s, t, mid).value;
      var c := if adding then Reacting(uid) else Unreacting(uid);
      RefusedIn(s.logs, cid, mid, c) ==> r == Fail(InputError)
  {
    var p :- Target(s, t, mid);
    var uid, cid := p.0, p.1;
    var c := if adding then Reacting(uid) else Unreacting(uid);
    if reactId != ThumbsUp then Fail(InputError)
    else if RefusedIn(s.logs, cid, mid, c) then Fail(InputError)
    else Ok(s.(logs := ChangeLogs(s.logs, Some(cid), mid, c)))
  }

  /** `message_react`: the caller, not yet among the reactors of the message, is appended
      to them, in every copy of the message in the channel's logs. */
  function React(s: Store, t: Token, mid: int, reactId: int): (r: Result<Store>)
    ensures r.Ok? ==> Target(s, t, mid).Ok? && reactId == ThumbsUp
    ensures r.Ok? ==> SameIds(s.logs, r.value.logs)
    ensures r.Ok? ==>
      var (uid, cid) := Target(s, t, mid).value;
      forall j, k :: 0 <= j < |s.logs| && s.logs[j].channelId == cid && 0 <= k < |s.logs[j].messages|
                     && s.logs[j].messages[k].messageId == mid ==>
        && uid !in s.logs[j].messages[k].react.uIds
        && r.value.logs[j].messages[k].react.uIds == s.logs[j].messages[k].react.uIds + [uid]
  {
    var r := Respond(s, t, mid, reactId, true);
    if r.Ok? then RespondApplies(s, t, mid, reactId, true); r else r
  }

  /** `message_unreact`: the caller, found among the reactors of the message, is taken off
      them once, in every copy of the message in the channel's logs; with no user listed
      twice, they are no longer a reactor. */
  function Unreact(s: Store, t: Token, mid: int, reactId: int): (r: Result<Store>)
    ensures r.Ok? ==> Target(s, t, mid).Ok? && reactId == ThumbsUp
    ensures r.Ok? ==> SameIds(s.logs, r.value.logs)
    ensures r.Ok? ==>
      var (uid, cid) := Target(s, t, mid).value;
      forall j, k :: 0 <= j < |s.logs| && s.logs[j].channelId == cid && 0 <= k < |s.logs[j].messages|
                     && s.logs[j].messages[k].messageId == mid ==>
        && uid in s.logs[j].messages[k].react.uIds
        && multiset(r.value.logs[j].messages[k].react.uIds) == multiset(s.logs[j].messages[k].react.uIds) - multiset{uid}
        && (NoDuplicates(s.logs[j].messages[k].react.uIds) ==> uid !in r.value.logs[j].messages[k].react.uIds)
  {
    var r := Respond(s, t, mid, reactId, false);
    if r.Ok? then RespondApplies(s, t, mid, reactId, false); r else r
  }

  /** A successful reaction or unreaction applies its change to every copy of the message
      in the channel's logs, none of which refused it, and keeps the logs' shape. */
  lemma RespondApplies(s: Store, t: Token, mid: int, reactId: int, adding: bool)
    requires Respond(s, t, mid, reactId, adding).Ok?
    ensures var (uid, cid) := Target(s, t, mid).value;
      var c := if adding then Reacting(uid) else Unreacting(uid);
      var r := Respond(s, t, mid, reactId, adding).value;
      && SameIds(s.logs, r.logs)
      && forall j, k :: 0 <= j < |s.logs| && s.logs[j].channelId == cid && 0 <= k < |s.logs[j].messages|
                        && s.logs[j].messages[k].messageId == mid ==>
           !Refuses(s.logs[j].messages[k], c) && r.logs[j].messages[k] == Apply(s.logs[j].messages[k], c)
  {
    var (uid, cid) := Target(s, t, mid).value;
    var c := if adding then Reacting(uid) else Unreacting(uid);
    ChangeLogsSameIds(s.logs, Some(cid), mid, c);
  }

  /** No reactor list holds a user twice. */
  predicate DistinctReactors(logs: seq<ChannelLog>) {
    forall j, k :: 0 <= j < |logs| && 0 <= k < |logs[j].messages| ==> NoDuplicates(logs[j].messages[k].react.uIds)
  }

  /** Reacting and unreacting keep every reactor list free of duplicates. */
  lemma RespondKeepsDistinct(s: Store, t: Token, mid: int, reactId: int, adding: bool)
    requires Respond(s, t, mid, reactId, adding).Ok? && DistinctReactors(s.logs)
    ensures DistinctReactors(Respond(s, t, mid, reactId, adding).value.logs)
  {
    var (uid, cid) := Target(s, t, mid).value;
    var c := if adding then Reacting(uid) else Unreacting(uid);
    var logs := Respond(s, t, mid, reactId, adding).value.logs;
    forall j, k | 0 <= j < |logs| && 0 <= k < |logs[j].messages|
      ensures NoDuplicates(logs[j].messages[k].react.uIds)
    {
      var m := s.logs[j].messages[k];
      if s.logs[j].channelId == cid && m.messageId == mid {
        if adding {
          assert !Refuses(m, c);
          ReactThenUnreact(m, uid);
        } else {
          UnreactDrops(m, uid);
        }
      }
    }
  }

  // ------------------------------------------------------------------------------------
  // message_sendlater and its timer

  /** `message_sendlater`: the token, the channel (`InputError`), membership, the length,
      then a send time in the past raises `InputError` (the present is allowed). The id is
      reserved at once and a timer is queued; the text is not checked for emptiness. */
  function SendLater(s: Store, t: Token, cid: int, text: string, timeSent: int, now: int): (r: Result<(Store, int)>)
    ensures GetUserId(s.users, t).Fail? ==> r == Fail(AccessError)
    ensures GetUserId(s.users, t).Ok? && CheckChannelValid(s.channels, cid).Fail? ==> r == Fail(InputError)
    ensures (GetUserId(s.users, t).Ok? && CheckChannelValid(s.channels, cid).Ok?
             && MissingMembership(s.users, Decode(t).value, cid)) ==> r == Fail(AccessError)
    ensures r.Ok? <==> (GetUserId(s.users, t).Ok? && CheckChannelValid(s.channels, cid).Ok?
                        && !MissingMembership(s.users, Decode(t).value, cid)
                        && |text| <= MaxMessageLength && now <= timeSent)
    ensures r.Ok? ==> r.value.1 == s.counter + 1
    ensures r.Ok? ==> r.value.0 == s.(counter := s.counter + 1,
                                      pending := s.pending + [LaterSend(Decode(t).value, cid, text, s.counter + 1, timeSent)])
  {
    var uid :- GetUserId(s.users, t);
    var _ :- CheckChannelValid(s.channels, cid);
    var _ :- CheckUserInChannel(s.users, uid, cid);
    if |text| > MaxMessageLength then Fail(InputError)
    else if timeSent < now then Fail(InputError)
    else
      var id := s.counter + 1;
      Ok((s.(counter := id, pending := s.pending + [LaterSend(uid, cid, text, id, timeSent)]), id))
  }

  /** `timer_send_later`: appends the message with the reserved id, created at the send
      time, to every log of the channel, without checking anything again. */
  function FireLaterSend(s: Store, author: int, cid: int, text: string, id: int, at: int): (s': Store)
    ensures s'.logs == AppendToLogs(s.logs, cid, NewMessage(id, author, text, at))
    ensures s'.users == s.users && s'.channels == s.channels && s'.trivias == s.trivias
    ensures s'.counter == s.counter && s'.pending == s.pending && s'.standupCounter == s.standupCounter
    ensures s'.defaultCategory == s.defaultCategory
  {
    s.(logs := AppendToLogs(s.logs, cid, NewMessage(id, author, text, at)))
  }

  /** A delayed plain message, once its timer fires, leaves the logs and the counter as an
      immediate send at the chosen time would have. */
  lemma SendLaterAsSend(s: Store, t: Token, cid: int, text: string, timeSent: int, now: int)
    requires SendLater(s, t, cid, text, timeSent, now).Ok?
    requires text != "" && !StartsWith(text, Trivia.CommandWord)
    ensures var (s1, id) := SendLater(s, t, cid, text, timeSent, now).value;
      var s2 := FireLaterSend(s1, Decode(t).value, cid, text, id, timeSent);
      && Send(s, t, cid, text, timeSent).Ok?
      && s2.logs == Send(s, t, cid, text, timeSent).value.0.logs
      && s2.counter == Send(s, t, cid, text, timeSent).value.0.counter
  {
  }
}

=== FILE: other.dfy ===
/** Administration and search (other.py). */
module Other {
  import opened Wrappers
  import opened Strings
  import opened Data
  import opened Helper
  import UserProfile

  /** `clear`: empties the four lists in place. The message id counters, the queued timers
      and the shared default trivia category are module state it does not touch. */
  function Clear(s: Store): (s': Store)
    ensures s'.users == [] && s'.channels == [] && s'.logs == [] && s'.trivias == []
    ensures s'.counter == s.counter && s'.standupCounter == s.standupCounter
    ensures s'.pending == s.pending && s'.defaultCategory == s.defaultCategory
  {
    s.(users := [], channels := [], logs := [], trivias := [])
  }

  /** `users_all`: the token, then the profile of each user in order, each read the way
      `user_profile` reads it (the last record with that u_id). */
  function UsersAll(s: Store, t: Token): (r: Result<seq<UserProfile.Profile>>)
    ensures r.Fail? <==> GetUserId(s.users, t).Fail?
    ensures r.Fail? ==> r.error == AccessError
    ensures r.Ok? ==> |r.value| == |s.users|
    ensures r.Ok? ==> forall i :: 0 <= i < |s.users| ==> r.value[i].uId == s.users[i].uId
    ensures r.Ok? ==> forall i :: 0 <= i < |s.users| ==>
      UserProfile.ReadProfile(s, t, s.users[i].uId) == Ok(r.value[i])
  {
    var _ :- GetUserId(s.users, t);
    Ok(seq(|s.users|, i requires 0 <= i < |s.users| => ProfileAt(s, t, i)))
  }

  /** With one record per u_id, the listing is every record's profile, in store order. */
  lemma UsersAllUnique(s: Store, t: Token)
    requires UsersAll(s, t).Ok?
    requires forall i, j :: 0 <= i < j < |s.users| ==> s.users[i].uId != s.users[j].uId
    ensures forall i :: 0 <= i < |s.users| ==> UsersAll(s, t).value[i] == UserProfile.ProfileOf(s.users[i])
  {
    forall i | 0 <= i < |s.users|
      ensures UsersAll(s, t).value[i] == UserProfile.ProfileOf(s.users[i])
    {
      UserProfile.ReadProfileUnique(s, t, i);
    }
  }

  function ProfileAt(s: Store, t: Token, i: nat): (p: UserProfile.Profile)
    requires i < |s.users| && GetUserId(s.users, t).Ok?
    ensures UserProfile.ReadProfile(s, t, s.users[i].uId) == Ok(p)
  {
    assert GetUserIndex(s.users, s.users[i].uId).Ok?;
    UserProfile.ReadProfile(s, t, s.users[i].uId).value
  }

  /** `admin_userpermission_change`: the token, an unknown target (`InputError`), a
      permission other than 1 or 2 (`InputError`), then the caller must be a global owner
      (`AccessError`). Only the first record with the target's u_id changes. */
  function PermissionChange(s: Store, t: Token, uid: int, permission: int): (r: Result<Store>)
    ensures GetUserId(s.users, t).Fail? ==> r == Fail(AccessError)
    ensures GetUserId(s.users, t).Ok? && GetUserIndex(s.users, uid).Fail? ==> r == Fail(InputError)
    ensures (GetUserId(s.users, t).Ok? && GetUserIndex(s.users, uid).Ok?
             && permission != OwnerPermission && permission != MemberPermission) ==> r == Fail(InputError)
    ensures r.Ok? <==> (GetUserId(s.users, t).Ok? && GetUserIndex(s.users, uid).Ok?
                        && (permission == OwnerPermission || permission == MemberPermission)
                        && UserFlockrOwner(s.users, Decode(t).value))
    ensures r.Ok? ==> var i := GetUserIndex(s.users, uid).value;
      r.value == s.(users := s.users[i := s.users[i].(globalPermission := permission)])
  {
    var admin :- GetUserId(s.users, t);
    var i :- GetUserIndex(s.users, uid);
    if permission != OwnerPermission && permission != MemberPermission then Fail(InputError)
    else if !UserFlockrOwner(s.users, admin) then Fail(AccessError)
    else Ok(s.(users := s.users[i := s.users[i].(globalPermission := permission)]))
  }

  /** After a change, the target is a global owner iff the new permission is 1 (with one
      record per u_id). */
  lemma PermissionChangeTakesEffect(s: Store, t: Token, uid: int, permission: int)
    requires PermissionChange(s, t, uid, permission).Ok?
    requires forall i, j :: 0 <= i < j < |s.users| ==> s.users[i].uId != s.users[j].uId
    ensures UserFlockrOwner(PermissionChange(s, t, uid, permission).value.users, uid) <==> permission == OwnerPermission
  {
    var us := PermissionChange(s, t, uid, permission).value.users;
    var i := GetUserIndex(s.users, uid).value;
    assert IsLastUser(us, uid, i);
    forall k | IsLastUser(us, uid, k)
      ensures k == i
    {
    }
  }

  // ------------------------------------------------------------------------------------
  // search

  /** The messages of the logs whose channel is in `chans`: log by log, each in order. */
  function Gather(logs: seq<ChannelLog>, chans: seq<int>): (r: seq<Message>)
    ensures forall m :: m in r <==> exists j :: 0 <= j < |logs| && logs[j].channelId in chans && m in logs[j].messages
  {
    if |logs| == 0 then []
    else
      var rest := Gather(logs[1..], chans);
      assert forall j :: 1 <= j < |logs| ==> logs[j] == logs[1..][j - 1];
      (if logs[0].channelId in chans then logs[0].messages else []) + rest
  }

  /** Keeps the messages whose text passes the test, in order. `reversed` is the test as
      written (the text occurs in the query); otherwise the query occurs in the text. */
  function Matching(ms: seq<Message>, query: string, reversed: bool): (r: seq<Message>)
    ensures |r| <= |ms|
    ensures forall m :: m in r <==> m in ms && (if reversed then Contains(query, m.text) else Contains(m.text, query))
  {
    if |ms| == 0 then []
    else
      var rest := Matching(ms[1..], query, reversed);
      assert forall m :: m in ms <==> m == ms[0] || m in ms[1..];
      var hit := if reversed then Contains(query, ms[0].text) else Contains(ms[0].text, query);
      if hit then [ms[0]] + rest else rest
  }

  /** The channel list of the first user record with the u_id. */
  function ChannelsOf(users: seq<User>, uid: int): (r: seq<int>)
    requires exists i :: 0 <= i < |users| && users[i].uId == uid
    ensures exists i :: 0 <= i < |users| && users[i].uId == uid && r == users[i].channels
                        && forall k :: 0 <= k < i ==> users[k].uId != uid
  {
    var i := GetUserIndex(users, uid).value;
    users[i].channels
  }

  /** The search, with the substring test in either direction. */
  function SearchWith(s: Store, t: Token, query: string, reversed: bool): (r: Result<seq<Message>>)
    ensures r.Fail? <==> GetUserId(s.users, t).Fail?
    ensures r.Fail? ==> r.error == AccessError
    ensures r.Ok? && query == "" ==> r.value == []
    ensures r.Ok? && query != "" ==>
      var chans := ChannelsOf(s.users, Decode(t).value);
      r.value == ChangeUserReacted(Matching(Gather(s.logs, chans), query, reversed), Decode(t).value)
  {
    var uid :- GetUserId(s.users, t);
    if query == "" then Ok([])
    else
      var chans := ChannelsOf(s.users, uid);
      Ok(ChangeUserReacted(Matching(Gather(s.logs, chans), query, reversed), uid))
  }

  /** `search` as written: it keeps a message when its text occurs in the query. */
  function SearchAsWritten(s: Store, t: Token, query: string): (r: Result<seq<Message>>)
    ensures r.Fail? <==> GetUserId(s.users, t).Fail?
    ensures r.Ok? && query != "" ==> forall k :: 0 <= k < |r.value| ==> Contains(query, r.value[k].text)
  {
    SearchWith(s, t, query, true)
  }

  /** `search` keeping a message when the query occurs in its text. */
  function Search(s: Store, t: Token, query: string): (r: Result<seq<Message>>)
    ensures r.Fail? <==> GetUserId(s.users, t).Fail?
    ensures r.Ok? && query != "" ==> forall k :: 0 <= k < |r.value| ==> Contains(r.value[k].text, query)
  {
    SearchWith(s, t, query, false)
  }

  /** A message is stored in one of the caller's channels: in a log whose channel id is in
      the caller's channel list, equal to `m` up to the reaction flag. */
  predicate StoredFor(s: Store, chans: seq<int>, m: Message) {
    exists j, i :: 0 <= j < |s.logs| && s.logs[j].channelId in chans && 0 <= i < |s.logs[j].messages|
                   && Unflagged(s.logs[j].messages[i]) == Unflagged(m)
  }

  /** Every search result is a message of one of the caller's channels whose text contains
      the query, and every such message is among the results. */
  lemma SearchFinds(s: Store, t: Token, query: string)
    requires Search(s, t, query).Ok? && query != ""
    ensures var r := Search(s, t, query).value;
      var chans := ChannelsOf(s.users, Decode(t).value);
      && (forall k :: 0 <= k < |r| ==> Contains(r[k].text, query) && StoredFor(s, chans, r[k]))
      && (forall j, i :: (0 <= j < |s.logs| && s.logs[j].channelId in chans && 0 <= i < |s.logs[j].messages|
                          && Contains(s.logs[j].messages[i].text, query))
                         ==> exists k :: 0 <= k < |r| && Unflagged(r[k]) == Unflagged(s.logs[j].messages[i]))
  {
    var uid := Decode(t).value;
    var chans := ChannelsOf(s.users, uid);
    var matched := Matching(Gather(s.logs, chans), query, false);
    var r := Search(s, t, query).value;
    assert r == ChangeUserReacted(matched, uid);
    SearchSound(s, chans, query, matched, r);
    SearchComplete(s, chans, query, matched, r);
  }

  /** Every search result holds the query and is stored in one of the caller's channels. */
  lemma SearchSound(s: Store, chans: seq<int>, query: string, matched: seq<Message>, r: seq<Message>)
    requires matched == Matching(Gather(s.logs, chans), query, false)
    requires |r| == |matched| && forall k :: 0 <= k < |r| ==> Unflagged(r[k]) == Unflagged(matched[k])
    ensures forall k :: 0 <= k < |r| ==> Contains(r[k].text, query) && StoredFor(s, chans, r[k])
  {
    forall k | 0 <= k < |r|
      ensures Contains(r[k].text, query) && StoredFor(s, chans, r[k])
    {
      var m := matched[k];
      assert Unflagged(r[k]) == Unflagged(m);
      assert m in matched;
      var j :| 0 <= j < |s.logs| && s.logs[j].channelId in chans && m in s.logs[j].messages;
      var i :| 0 <= i < |s.logs[j].messages| && s.logs[j].messages[i] == m;
    }
  }

  /** Every stored message of the caller's channels that holds the query is among the results. */
  lemma SearchComplete(s: Store, chans: seq<int>, query: string, matched: seq<Message>, r: seq<Message>)
    requires query != "" && matched == Matching(Gather(s.logs, chans), query, false)
    requires |r| == |matched| && forall k :: 0 <= k < |r| ==> Unflagged(r[k]) == Unflagged(matched[k])
    ensures forall j, i :: (0 <= j < |s.logs| && s.logs[j].channelId in chans && 0 <= i < |s.logs[j].messages|
                            && Contains(s.logs[j].messages[i].text, query))
                           ==> exists k :: 0 <= k < |r| && Unflagged(r[k]) == Unflagged(s.logs[j].messages[i])
  {
    forall j, i | (0 <= j < |s.logs| && s.logs[j].channelId in chans && 0 <= i < |s.logs[j].messages|
                   && Contains(s.logs[j].messages[i].text, query))
      ensures exists k :: 0 <= k < |r| && Unflagged(r[k]) == Unflagged(s.logs[j].messages[i])
    {
      var m := s.logs[j].messages[i];
      assert m in s.logs[j].messages;
      assert m in matched;
      var k :| 0 <= k < |matched| && matched[k] == m;
      assert Unflagged(r[k]) == Unflagged(m);
    }
  }
}

=== FILE: scoring.dfy ===
/** The scoring half of `trivia_end` (trivia.py): picking the option messages of the round,
    deciding which reactions answered correctly, spotting cheaters, tallying points and
    rendering the ranked leaderboard. */
module TriviaScoring {
  import opened Wrappers
  import opened Strings
  import opened Data

  // ------------------------------------------------------------------------------------
  // Counters and dicts as association lists

  /** An insertion-ordered dict (Python's `dict` / `Counter`) as a list of pairs. */
  type Assoc<K> = seq<(K, int)>

  function Keys<K>(ps: Assoc<K>): (ks: seq<K>)
    ensures |ks| == |ps| && forall i :: 0 <= i < |ps| ==> ks[i] == ps[i].0
  {
    if |ps| == 0 then [] else [ps[0].0] + Keys(ps[1..])
  }

  /** `d[k]`, with a `Counter`'s default of 0 for a missing key. */
  function Lookup<K(==, !new)>(ps: Assoc<K>, k: K): (v: int)
    ensures k !in Keys(ps) ==> v == 0
  {
    if |ps| == 0 then 0
    else if ps[0].0 == k then ps[0].1
    else
      assert Keys(ps[1..]) == Keys(ps)[1..];
      assert forall i :: 1 <= i < |ps| ==> ps[1..][i - 1] == ps[i];
      Lookup(ps[1..], k)
  }

  /** `d[k] = v`: overwrite in place when the key is present, append otherwise. */
  function Put<K(==, !new)>(ps: Assoc<K>, k: K, v: int): (r: Assoc<K>)
    ensures Keys(r) == if k in Keys(ps) then Keys(ps) else Keys(ps) + [k]
    ensures NoDuplicates(Keys(ps)) ==> NoDuplicates(Keys(r))
  {
    AppendFreshKey(Keys(ps), k);
    if |ps| == 0 then
      [(k, v)]
    else
      assert ps == [ps[0]] + ps[1..];
      KeysCons(ps[0], ps[1..]);
      if ps[0].0 == k then
        KeysCons((k, v), ps[1..]);
        [(k, v)] + ps[1..]
      else
        var rest := Put(ps[1..], k, v);
        KeysCons(ps[0], rest);
        [ps[0]] + rest
  }

  lemma KeysCons<K>(p: (K, int), ps: Assoc<K>)
    ensures Keys([p] + ps) == [p.0] + Keys(ps)
  {
    assert ([p] + ps)[1..] == ps;
  }

  /** After `d[k] = v`, `d[k]` is `v` and every other key reads as before. */
  lemma {:induction false} PutLookup<K(!new)>(ps: Assoc<K>, k: K, v: int, j: K)
    ensures Lookup(Put(ps, k, v), j) == if j == k then v else Lookup(ps, j)
    decreases |ps|
  {
    if |ps| > 0 {
      LookupCons(ps[0], ps[1..], j);
      assert ps == [ps[0]] + ps[1..];
      if ps[0].0 == k {
        LookupCons((k, v), ps[1..], j);
      } else {
        PutLookup(ps[1..], k, v, j);
        LookupCons(ps[0], Put(ps[1..], k, v), j);
      }
    }
  }

  /** Looking up in a list with a known head. */
  lemma LookupCons<K(!new)>(p: (K, int), rest: Assoc<K>, j: K)
    ensures Lookup([p] + rest, j) == if p.0 == j then p.1 else Lookup(rest, j)
  {
    assert ([p] + rest)[1..] == rest;
  }

  /** Appending a value the list lacks keeps it free of duplicates. */
  lemma AppendFreshKey<T>(s: seq<T>, x: T)
    ensures x !in s && NoDuplicates(s) ==> NoDuplicates(s + [x])
  {
    var t := s + [x];
    assert forall i :: 0 <= i < |s| ==> t[i] == s[i];
  }

  // ------------------------------------------------------------------------------------
  // Selecting and judging option messages

  /** The marker every option message carries before the option text. */
  const OptionMarker: string := "(option):\n\t"

  /** `text.split('(option):\n\t')[1]`: the option text, or `None` where indexing `[1]`
      raises because the marker is missing. */
  function AnswerText(text: string): (r: Option<string>)
    ensures r.Some? <==> Contains(text, OptionMarker)
    ensures r.Some? ==> !Contains(r.value, OptionMarker)
  {
    var parts := Split(text, OptionMarker);
    if |parts| >= 2 then Some(parts[1]) else None
  }

  /** The messages of the round: those whose id the trivia record kept, in log order. */
  function OptionMessages(log: seq<Message>, ids: seq<int>): (r: seq<Message>)
    ensures |r| <= |log|
    ensures forall m :: m in r <==> m in log && m.messageId in ids
  {
    if |log| == 0 then []
    else
      var rest := OptionMessages(log[1..], ids);
      assert forall m :: m in log <==> m == log[0] || m in log[1..];
      if log[0].messageId in ids then [log[0]] + rest else rest
  }

  /** The first option of every question, which is taken as the right answer; a question
      with no options makes the indexing raise. */
  function Corrects(questions: seq<Question>): (r: Result<seq<string>>)
    ensures r.Ok? <==> forall k :: 0 <= k < |questions| ==> |questions[k].options| > 0
    ensures r.Fail? ==> r.error == RuntimeError
    ensures r.Ok? ==> |r.value| == |questions| && forall k :: 0 <= k < |questions| ==> r.value[k] == questions[k].options[0]
  {
    if |questions| == 0 then Ok([])
    else if |questions[0].options| == 0 then Fail(RuntimeError)
    else
      assert forall k :: 1 <= k < |questions| ==> questions[1..][k - 1] == questions[k];
      var rest :- Corrects(questions[1..]);
      Ok([questions[0].options[0]] + rest)
  }

  /** `_get_answers`: the option messages whose option text is some correct option. Any
      option message without the marker makes the whole scoring raise. */
  function Answers(opts: seq<Message>, corrects: seq<string>): (r: Result<seq<Message>>)
    ensures r.Ok? <==> forall k :: 0 <= k < |opts| ==> Contains(opts[k].text, OptionMarker)
    ensures r.Fail? ==> r.error == RuntimeError
    ensures r.Ok? ==> forall m :: m in r.value <==> m in opts && AnswerText(m.text).value in corrects
  {
    if |opts| == 0 then Ok([])
    else
      var a := AnswerText(opts[0].text);
      if a.None? then Fail(RuntimeError)
      else
        assert forall k :: 1 <= k < |opts| ==> opts[1..][k - 1] == opts[k];
        var rest :- Answers(opts[1..], corrects);
        assert forall m :: m in opts <==> m == opts[0] || m in opts[1..];
        Ok(if a.value in corrects then [opts[0]] + rest else rest)
  }

  // ------------------------------------------------------------------------------------
  // Points

  /** How many times `u` reacted across these messages. */
  function ReactCount(ms: seq<Message>, u: int): nat {
    if |ms| == 0 then 0 else multiset(ms[0].react.uIds)[u] + ReactCount(ms[1..], u)
  }

  /** `points[u] += 1` for every reactor in the list, in order. */
  function BumpAll(points: Assoc<int>, ids: seq<int>): (r: Assoc<int>)
    ensures forall u :: Lookup(r, u) == Lookup(points, u) + multiset(ids)[u]
    ensures forall u :: u in Keys(r) <==> u in Keys(points) || u in ids
    ensures NoDuplicates(Keys(points)) ==> NoDuplicates(Keys(r))
    decreases |ids|
  {
    if |ids| == 0 then points
    else
      assert ids == [ids[0]] + ids[1..];
      var p := Put(points, ids[0], Lookup(points, ids[0]) + 1);
      assert forall u :: Lookup(p, u) == if u == ids[0] then Lookup(points, u) + 1 else Lookup(points, u) by {
        forall u ensures Lookup(p, u) == if u == ids[0] then Lookup(points, u) + 1 else Lookup(points, u) {
          PutLookup(points, ids[0], Lookup(points, ids[0]) + 1, u);
        }
      }
      BumpAll(p, ids[1..])
  }

  /** The point counter of the correct reactions: one point per reaction. */
  function Tally(points: Assoc<int>, answers: seq<Message>): (r: Assoc<int>)
    ensures forall u :: Lookup(r, u) == Lookup(points, u) + ReactCount(answers, u)
    ensures forall u :: u in Keys(r) <==> u in Keys(points) || ReactCount(answers, u) > 0
    ensures NoDuplicates(Keys(points)) ==> NoDuplicates(Keys(r))
    decreases |answers|
  {
    if |answers| == 0 then points
    else
      var p := BumpAll(points, answers[0].react.uIds);
      assert forall u :: u in answers[0].react.uIds <==> multiset(answers[0].react.uIds)[u] > 0;
      Tally(p, answers[1..])
  }

  /** `points[c] = 0` for every cheater, in order. */
  function ZeroAll(points: Assoc<int>, cheaters: seq<int>): (r: Assoc<int>)
    ensures forall u :: Lookup(r, u) == if u in cheaters then 0 else Lookup(points, u)
    ensures forall u :: u in Keys(r) <==> u in Keys(points) || u in cheaters
    ensures NoDuplicates(Keys(points)) ==> NoDuplicates(Keys(r))
    decreases |cheaters|
  {
    if |cheaters| == 0 then points
    else
      assert forall u :: u in cheaters <==> u == cheaters[0] || u in cheaters[1..];
      var p := Put(points, cheaters[0], 0);
      assert forall u :: Lookup(p, u) == if u == cheaters[0] then 0 else Lookup(points, u) by {
        forall u ensures Lookup(p, u) == if u == cheaters[0] then 0 else Lookup(points, u) {
          PutLookup(points, cheaters[0], 0, u);
        }
      }
      ZeroAll(p, cheaters[1..])
  }

  /** The final counter: a user scores one point per reaction on a correct option, unless
      they cheated, in which case they score 0. Every reactor and every cheater has exactly
      one entry. */
  function Scores(answers: seq<Message>, cheaters: seq<int>): (r: Assoc<int>)
    ensures forall u :: Lookup(r, u) == if u in cheaters then 0 else ReactCount(answers, u)
    ensures forall u :: u in Keys(r) <==> ReactCount(answers, u) > 0 || u in cheaters
    ensures NoDuplicates(Keys(r))
    ensures Keys(r) == Extend([], Reactors(answers) + cheaters)
  {
    TallyKeys([], answers);
    ZeroAllKeys(Tally([], answers), cheaters);
    ExtendConcat([], Reactors(answers), cheaters);
    ZeroAll(Tally([], answers), cheaters)
  }

  /** The keys a dict gains when each of `xs` is set in turn: a value not yet a key joins
      at the end the first time it appears. */
  function Extend<K(==)>(keys: seq<K>, xs: seq<K>): (r: seq<K>)
    decreases |xs|
  {
    if |xs| == 0 then keys
    else Extend(if xs[0] in keys then keys else keys + [xs[0]], xs[1..])
  }

  lemma {:induction false} ExtendConcat<K>(keys: seq<K>, a: seq<K>, b: seq<K>)
    ensures Extend(keys, a + b) == Extend(Extend(keys, a), b)
    decreases |a|
  {
    if |a| == 0 {
      assert a + b == b;
    } else {
      assert (a + b)[0] == a[0] && (a + b)[1..] == a[1..] + b;
      ExtendConcat(if a[0] in keys then keys else keys + [a[0]], a[1..], b);
    }
  }

  /** Bumping the counter of each reactor adds the new reactors in the order met. */
  lemma {:induction false} BumpAllKeys(points: Assoc<int>, ids: seq<int>)
    ensures Keys(BumpAll(points, ids)) == Extend(Keys(points), ids)
    decreases |ids|
  {
    if |ids| > 0 {
      BumpAllKeys(Put(points, ids[0], Lookup(points, ids[0]) + 1), ids[1..]);
    }
  }

  /** The tally adds the reactors in first-reaction order: answer by answer, each answer's
      reactors in their stored order. */
  lemma {:induction false} TallyKeys(points: Assoc<int>, answers: seq<Message>)
    ensures Keys(Tally(points, answers)) == Extend(Keys(points), Reactors(answers))
    decreases |answers|
  {
    if |answers| > 0 {
      var p := BumpAll(points, answers[0].react.uIds);
      BumpAllKeys(points, answers[0].react.uIds);
      TallyKeys(p, answers[1..]);
      ExtendConcat(Keys(points), answers[0].react.uIds, Reactors(answers[1..]));
    }
  }

  /** Zeroing the cheaters adds those not yet scored, in the cheater list's order. */
  lemma {:induction false} ZeroAllKeys(points: Assoc<int>, cheaters: seq<int>)
    ensures Keys(ZeroAll(points, cheaters)) == Extend(Keys(points), cheaters)
    decreases |cheaters|
  {
    if |cheaters| > 0 {
      ZeroAllKeys(Put(points, cheaters[0], 0), cheaters[1..]);
    }
  }

  // ------------------------------------------------------------------------------------
  // Cheaters

  /** The reactors of a run of option messages, concatenated. */
  function Reactors(frame: seq<Message>): seq<int> {
    if |frame| == 0 then [] else frame[0].react.uIds + Reactors(frame[1..])
  }

  /** Python's loop over `opt_ids` with a `uniq` set: every id met when already seen. */
  function RepeatsFrom(ids: seq<int>, seen: set<int>): (r: seq<int>)
    ensures forall u :: u in r <==> (u in seen && u in ids) || multiset(ids)[u] >= 2
  {
    if |ids| == 0 then []
    else
      var x := ids[0];
      assert ids == [x] + ids[1..];
      assert forall u :: multiset(ids)[u] == (if u == x then 1 else 0) + multiset(ids[1..])[u];
      assert forall u :: u in ids <==> u == x || u in ids[1..];
      if x in seen then [x] + RepeatsFrom(ids[1..], seen)
      else RepeatsFrom(ids[1..], seen + {x})
  }

  /** Where the option messages of question `i` start: the option counts of the earlier
      questions added up (`accumulate`). */
  function Offset(questions: seq<Question>, i: nat): nat
    requires i <= |questions|
  {
    if i == 0 then 0 else |questions[0].options| + Offset(questions[1..], i - 1)
  }

  /** The option messages of question `i` (a clipped slice, as Python slices are). */
  function Frame(questions: seq<Question>, opts: seq<Message>, base: nat, i: nat): seq<Message>
    requires i < |questions|
  {
    Slice(opts, base + Offset(questions, i), base + Offset(questions, i + 1))
  }

  /** `u` appears twice among the reactors of these option messages. */
  predicate Repeats(frame: seq<Message>, u: int) {
    multiset(Reactors(frame))[u] >= 2
  }

  /** `u` appears twice among the reactors of question `i`'s option messages. */
  predicate RepeatedIn(questions: seq<Question>, opts: seq<Message>, base: nat, i: nat, u: int)
    requires i < |questions|
  {
    Repeats(Frame(questions, opts, base, i), u)
  }

  /** The option messages of each question in turn, each run starting where the previous
      one ends. */
  function Frames(questions: seq<Question>, opts: seq<Message>, base: nat): (fs: seq<seq<Message>>)
    ensures |fs| == |questions|
    decreases |questions|
  {
    if |questions| == 0 then []
    else
      var next := base + |questions[0].options|;
      [Slice(opts, base, next)] + Frames(questions[1..], opts, next)
  }

  /** The runs are the frames that the running offsets pick out. */
  lemma {:induction false} FramesAt(questions: seq<Question>, opts: seq<Message>, base: nat, i: nat)
    requires i < |questions|
    ensures Frames(questions, opts, base)[i] == Frame(questions, opts, base, i)
    decreases i
  {
    FrameShift(questions, opts, base, i);
    if i > 0 {
      FramesAt(questions[1..], opts, base + |questions[0].options|, i - 1);
    }
  }

  lemma FrameShift(questions: seq<Question>, opts: seq<Message>, base: nat, i: nat)
    requires i < |questions|
    ensures i == 0 ==> Frame(questions, opts, base, i) == Slice(opts, base, base + |questions[0].options|)
    ensures i > 0 ==> Frame(questions, opts, base, i) == Frame(questions[1..], opts, base + |questions[0].options|, i - 1)
  {
    assert Offset(questions, i + 1) == |questions[0].options| + Offset(questions[1..], i);
    if i > 0 {
      assert Offset(questions, i) == |questions[0].options| + Offset(questions[1..], i - 1);
    }
  }

  /** The loop of `_get_cheaters` over the frames: each frame's repeated reactors, in order. */
  function CheatersOf(frames: seq<seq<Message>>): (r: seq<int>)
    ensures forall u :: u in r <==> exists i :: 0 <= i < |frames| && Repeats(frames[i], u)
  {
    if |frames| == 0 then []
    else
      var here := RepeatsFrom(Reactors(frames[0]), {});
      var rest := CheatersOf(frames[1..]);
      assert forall i :: 1 <= i < |frames| ==> frames[1..][i - 1] == frames[i];
      here + rest
  }

  /** `_get_cheaters`: a user cheats when they appear twice among the reactors of one
      question's option messages. */
  function Cheaters(questions: seq<Question>, opts: seq<Message>): (r: seq<int>)
    ensures forall u :: u in r <==> exists i :: 0 <= i < |questions| && RepeatedIn(questions, opts, 0, i, u)
  {
    var fs := Frames(questions, opts, 0);
    var r := CheatersOf(fs);
    assert forall u :: u in r <==> exists i :: 0 <= i < |questions| && RepeatedIn(questions, opts, 0, i, u) by {
      forall u ensures u in r <==> exists i :: 0 <= i < |questions| && RepeatedIn(questions, opts, 0, i, u) {
        RepeatsSomeFrame(questions, opts, fs, u);
      }
    }
    r
  }

  lemma RepeatsSomeFrame(questions: seq<Question>, opts: seq<Message>, fs: seq<seq<Message>>, u: int)
    requires fs == Frames(questions, opts, 0)
    ensures (exists i :: 0 <= i < |fs| && Repeats(fs[i], u)) <==>
      exists i :: 0 <= i < |questions| && RepeatedIn(questions, opts, 0, i, u)
  {
    if exists i :: 0 <= i < |fs| && Repeats(fs[i], u) {
      var i :| 0 <= i < |fs| && Repeats(fs[i], u);
      FramesAt(questions, opts, 0, i);
      assert RepeatedIn(questions, opts, 0, i, u);
    }
    if exists i :: 0 <= i < |questions| && RepeatedIn(questions, opts, 0, i, u) {
      var i :| 0 <= i < |questions| && RepeatedIn(questions, opts, 0, i, u);
      FramesAt(questions, opts, 0, i);
      assert Repeats(fs[i], u);
    }
  }

  /** How many of the messages list `u` among their reactors. */
  function ReactedOn(frame: seq<Message>, u: int): nat {
    if |frame| == 0 then 0 else (if u in frame[0].react.uIds then 1 else 0) + ReactedOn(frame[1..], u)
  }

  /** Since reacting twice to one message is refused, a user's reactions in a frame count
      the options they reacted to. */
  lemma {:induction false} ReactorsCountOptions(frame: seq<Message>, u: int)
    requires forall k :: 0 <= k < |frame| ==> NoDuplicates(frame[k].react.uIds)
    ensures multiset(Reactors(frame))[u] == ReactedOn(frame, u)
    decreases |frame|
  {
    if |frame| > 0 {
      assert forall k :: 1 <= k < |frame| ==> frame[1..][k - 1] == frame[k];
      ReactorsCountOptions(frame[1..], u);
      MultiplicityOne(frame[0].react.uIds, u);
      assert u in frame[0].react.uIds <==> multiset(frame[0].react.uIds)[u] > 0;
    }
  }

  /** Reacting to two or more options is what `ReactedOn(frame, u) >= 2` says. */
  lemma {:induction false} ReactedOnTwo(frame: seq<Message>, u: int)
    ensures ReactedOn(frame, u) >= 2 <==>
      exists a, b :: 0 <= a < b < |frame| && u in frame[a].react.uIds && u in frame[b].react.uIds
    decreases |frame|
  {
    if |frame| > 0 {
      var tail := frame[1..];
      ReactedOnTwo(tail, u);
      ReactedOnOne(tail, u);
      if ReactedOn(frame, u) >= 2 {
        if u in frame[0].react.uIds {
          var b :| 0 <= b < |tail| && u in tail[b].react.uIds;
          assert u in frame[b + 1].react.uIds;
        } else {
          var a, b :| 0 <= a < b < |tail| && u in tail[a].react.uIds && u in tail[b].react.uIds;
          assert u in frame[a + 1].react.uIds && u in frame[b + 1].react.uIds;
        }
      }
      if exists a, b :: 0 <= a < b < |frame| && u in frame[a].react.uIds && u in frame[b].react.uIds {
        var a, b :| 0 <= a < b < |frame| && u in frame[a].react.uIds && u in frame[b].react.uIds;
        assert u in tail[b - 1].react.uIds;
        if a > 0 {
          assert u in tail[a - 1].react.uIds;
        }
      }
    }
  }

  lemma {:induction false} ReactedOnOne(frame: seq<Message>, u: int)
    ensures ReactedOn(frame, u) >= 1 <==> exists b :: 0 <= b < |frame| && u in frame[b].react.uIds
    decreases |frame|
  {
    if |frame| > 0 {
      var tail := frame[1..];
      ReactedOnOne(tail, u);
      if exists b :: 0 <= b < |tail| && u in tail[b].react.uIds {
        var b :| 0 <= b < |tail| && u in tail[b].react.uIds;
        assert u in frame[b + 1].react.uIds;
      }
      if exists b :: 0 <= b < |frame| && u in frame[b].react.uIds {
        var b :| 0 <= b < |frame| && u in frame[b].react.uIds;
        if b > 0 {
          assert u in tail[b - 1].react.uIds;
        }
      }
    }
  }

  /** With duplicate-free reactor lists, a user is a cheater iff they reacted to two
      different options of the same question. */
  lemma CheaterIffTwoOptions(questions: seq<Question>, opts: seq<Message>, u: int)
    requires forall k :: 0 <= k < |opts| ==> NoDuplicates(opts[k].react.uIds)
    ensures u in Cheaters(questions, opts) <==>
      exists i :: 0 <= i < |questions| &&
        exists a, b :: 0 <= a < b < |Frame(questions, opts, 0, i)|
          && u in Frame(questions, opts, 0, i)[a].react.uIds && u in Frame(questions, opts, 0, i)[b].react.uIds
  {
    forall i | 0 <= i < |questions|
      ensures RepeatedIn(questions, opts, 0, i, u) <==>
        exists a, b :: 0 <= a < b < |Frame(questions, opts, 0, i)|
          && u in Frame(questions, opts, 0, i)[a].react.uIds && u in Frame(questions, opts, 0, i)[b].react.uIds
    {
      var f := Frame(questions, opts, 0, i);
      SliceElements(opts, Offset(questions, i), Offset(questions, i + 1));
      ReactorsCountOptions(f, u);
      ReactedOnTwo(f, u);
    }
  }

  /** Every element of a Python slice is an element of the list. */
  lemma SliceElements<T>(s: seq<T>, a: int, b: int)
    ensures forall k :: 0 <= k < |Slice(s, a, b)| ==> Slice(s, a, b)[k] in s
  {
    var lo := SliceBound(a, |s|);
    var hi := SliceBound(b, |s|);
    if lo < hi {
      assert Slice(s, a, b) == s[lo..hi];
      forall k | 0 <= k < hi - lo
        ensures s[lo..hi][k] in s
      {
        assert s[lo..hi][k] == s[lo + k];
      }
    }
  }

  // ------------------------------------------------------------------------------------
  // The leaderboard

  /** `_get_handle_from_id`: the handle of the first user with this id; `None` if there is
      no such user. */
  function HandleOf(users: seq<User>, uid: int): (r: Option<string>)
    ensures r.Some? <==> exists i :: 0 <= i < |users| && users[i].uId == uid
    ensures r.Some? ==> exists i :: 0 <= i < |users| && users[i].uId == uid && users[i].handle == r.value
  {
    if |users| == 0 then None
    else if users[0].uId == uid then Some(users[0].handle)
    else
      assert forall i :: 1 <= i < |users| ==> users[1..][i - 1] == users[i];
      HandleOf(users[1..], uid)
  }

  /** The score table re-keyed by handle (a dict comprehension: a repeated handle keeps its
      first position and its last score). */
  function ByHandle(users: seq<User>, points: Assoc<int>, acc: Assoc<Option<string>>): (r: Assoc<Option<string>>)
    ensures NoDuplicates(Keys(acc)) ==> NoDuplicates(Keys(r))
    ensures |r| <= |acc| + |points|
    decreases |points|
  {
    if |points| == 0 then acc
    else ByHandle(users, points[1..], Put(acc, HandleOf(users, points[0].0), points[0].1))
  }

  /** The handle the `k`-th scored user is listed under. */
  function HandleAt(users: seq<User>, points: Assoc<int>, k: int): Option<string>
    requires 0 <= k < |points|
  {
    HandleOf(users, points[k].0)
  }

  /** No later scored user shares the handle of the `k`-th. */
  predicate LastWithHandle(users: seq<User>, points: Assoc<int>, k: int)
    requires 0 <= k < |points|
  {
    forall l :: k < l < |points| ==> HandleAt(users, points, l) != HandleAt(users, points, k)
  }

  /** Re-keying keeps the keys the table had, in their places, and adds the handle of
      every scored user; it adds nothing else. */
  lemma ByHandleKeys(users: seq<User>, points: Assoc<int>, acc: Assoc<Option<string>>)
    ensures var r := ByHandle(users, points, acc);
      && |r| >= |acc| && Keys(r)[..|acc|] == Keys(acc)
      && forall h :: h in Keys(r) <==> h in Keys(acc) || exists k :: 0 <= k < |points| && HandleAt(users, points, k) == h
  {
    var r := ByHandle(users, points, acc);
    ByHandleKeepsKeys(users, points, acc);
    forall h ensures h in Keys(r) <==> h in Keys(acc) || exists k :: 0 <= k < |points| && HandleAt(users, points, k) == h {
      if h in Keys(acc) {
        assert h in Keys(r)[..|acc|];
      }
      if exists k :: 0 <= k < |points| && HandleAt(users, points, k) == h {
        var k :| 0 <= k < |points| && HandleAt(users, points, k) == h;
        ByHandleAdds(users, points, acc, k);
      }
      if h in Keys(r) {
        ByHandleOnly(users, points, acc, h);
      }
    }
  }

  lemma {:induction false} ByHandleKeepsKeys(users: seq<User>, points: Assoc<int>, acc: Assoc<Option<string>>)
    ensures var r := ByHandle(users, points, acc);
      |r| >= |acc| && Keys(r)[..|acc|] == Keys(acc)
    decreases |points|
  {
    if |points| > 0 {
      var acc' := Put(acc, HandleOf(users, points[0].0), points[0].1);
      ByHandleKeepsKeys(users, points[1..], acc');
      PutKeepsKeys(acc, HandleOf(users, points[0].0), points[0].1);
      PrefixOfPrefix(Keys(acc), Keys(acc'), Keys(ByHandle(users, points[1..], acc')));
    }
  }

  /** `d[k] = v` keeps the existing keys in their places. */
  lemma PutKeepsKeys<K(!new)>(ps: Assoc<K>, k: K, v: int)
    ensures |Put(ps, k, v)| >= |ps| && Keys(Put(ps, k, v))[..|ps|] == Keys(ps)
  {
  }

  lemma PrefixOfPrefix<T>(a: seq<T>, b: seq<T>, c: seq<T>)
    requires |a| <= |b| <= |c| && b[..|a|] == a && c[..|b|] == b
    ensures c[..|a|] == a
  {
    assert c[..|b|][..|a|] == c[..|a|];
  }

  lemma {:induction false} ByHandleAdds(users: seq<User>, points: Assoc<int>, acc: Assoc<Option<string>>, k: int)
    requires 0 <= k < |points|
    ensures HandleAt(users, points, k) in Keys(ByHandle(users, points, acc))
    decreases |points|
  {
    var acc' := Put(acc, HandleOf(users, points[0].0), points[0].1);
    if k == 0 {
      ByHandleKeepsKeys(users, points[1..], acc');
      var r := ByHandle(users, points, acc);
      assert HandleAt(users, points, 0) in Keys(acc');
      assert Keys(acc') == Keys(r)[..|acc'|];
    } else {
      assert HandleAt(users, points[1..], k - 1) == HandleAt(users, points, k);
      ByHandleAdds(users, points[1..], acc', k - 1);
    }
  }

  lemma {:induction false} ByHandleOnly(users: seq<User>, points: Assoc<int>, acc: Assoc<Option<string>>, h: Option<string>)
    requires h in Keys(ByHandle(users, points, acc))
    ensures h in Keys(acc) || exists k :: 0 <= k < |points| && HandleAt(users, points, k) == h
    decreases |points|
  {
    if |points| > 0 {
      var acc' := Put(acc, HandleOf(users, points[0].0), points[0].1);
      ByHandleOnly(users, points[1..], acc', h);
      if h !in Keys(acc') {
        var k :| 0 <= k < |points[1..]| && HandleAt(users, points[1..], k) == h;
        assert HandleAt(users, points, k + 1) == h;
      } else if h !in Keys(acc) {
        assert HandleAt(users, points, 0) == h;
      }
    }
  }

  /** A handle reads the score of the last scored user listed under it (the comprehension
      overwrites earlier entries); a key no scored user maps to keeps its value. */
  lemma ByHandleLookup(users: seq<User>, points: Assoc<int>, acc: Assoc<Option<string>>)
    ensures var r := ByHandle(users, points, acc);
      && (forall k :: 0 <= k < |points| && LastWithHandle(users, points, k) ==> Lookup(r, HandleAt(users, points, k)) == points[k].1)
      && (forall h :: (forall k :: 0 <= k < |points| ==> HandleAt(users, points, k) != h) ==> Lookup(r, h) == Lookup(acc, h))
  {
    forall k | 0 <= k < |points| && LastWithHandle(users, points, k)
      ensures Lookup(ByHandle(users, points, acc), HandleAt(users, points, k)) == points[k].1
    {
      ByHandleLast(users, points, acc, k);
    }
    forall h | forall k :: 0 <= k < |points| ==> HandleAt(users, points, k) != h
      ensures Lookup(ByHandle(users, points, acc), h) == Lookup(acc, h)
    {
      ByHandleUntouched(users, points, acc, h);
    }
  }

  lemma {:induction false} ByHandleLast(users: seq<User>, points: Assoc<int>, acc: Assoc<Option<string>>, k: int)
    requires 0 <= k < |points| && LastWithHandle(users, points, k)
    ensures Lookup(ByHandle(users, points, acc), HandleAt(users, points, k)) == points[k].1
    decreases |points|
  {
    var h0 := HandleOf(users, points[0].0);
    var acc' := Put(acc, h0, points[0].1);
    HandlesShift(users, points);
    if k == 0 {
      ByHandleUntouched(users, points[1..], acc', h0);
      PutLookup(acc, h0, points[0].1, h0);
    } else {
      ByHandleLast(users, points[1..], acc', k - 1);
    }
  }

  /** The handles of the tail are those of the table, one place on. */
  lemma HandlesShift(users: seq<User>, points: Assoc<int>)
    requires |points| > 0
    ensures forall l :: 0 <= l < |points| - 1 ==> HandleAt(users, points[1..], l) == HandleAt(users, points, l + 1)
  {
  }

  lemma {:induction false} ByHandleUntouched(users: seq<User>, points: Assoc<int>, acc: Assoc<Option<string>>, h: Option<string>)
    requires forall k :: 0 <= k < |points| ==> HandleAt(users, points, k) != h
    ensures Lookup(ByHandle(users, points, acc), h) == Lookup(acc, h)
    decreases |points|
  {
    if |points| > 0 {
      var h0 := HandleOf(users, points[0].0);
      var acc' := Put(acc, h0, points[0].1);
      assert HandleAt(users, points, 0) != h;
      HandlesShift(users, points);
      ByHandleUntouched(users, points[1..], acc', h);
      PutLookup(acc, h0, points[0].1, h);
    }
  }

  predicate SortedDesc<K>(ps: Assoc<K>) {
    forall i, j :: 0 <= i < j < |ps| ==> ps[i].1 >= ps[j].1
  }

  /** The entries with score `v`, in list order. */
  function WithScore<K>(ps: Assoc<K>, v: int): (r: Assoc<K>)
    ensures forall k :: 0 <= k < |r| ==> r[k].1 == v
  {
    if |ps| == 0 then []
    else (if ps[0].1 == v then [ps[0]] else []) + WithScore(ps[1..], v)
  }

  lemma WithScoreCons<K>(y: (K, int), ps: Assoc<K>, v: int)
    ensures WithScore([y] + ps, v) == (if y.1 == v then [y] else []) + WithScore(ps, v)
  {
    assert ([y] + ps)[1..] == ps;
  }

  lemma WithScoreConsAll<K>(y: (K, int), ps: Assoc<K>)
    ensures forall v :: WithScore([y] + ps, v) == (if y.1 == v then [y] else []) + WithScore(ps, v)
  {
    forall v ensures WithScore([y] + ps, v) == (if y.1 == v then [y] else []) + WithScore(ps, v) {
      WithScoreCons(y, ps, v);
    }
  }

  /** Places `x` before the first entry it does not score below, so that among equal
      scores the earlier entry stays first. */
  function InsertDesc<K>(x: (K, int), ps: Assoc<K>): (r: Assoc<K>)
    ensures Inserted(x, ps, r)
  {
    if |ps| == 0 || x.1 >= ps[0].1 then
      SortedCons(x, ps);
      WithScoreConsAll(x, ps);
      [x] + ps
    else
      var rest := InsertDesc(x, ps[1..]);
      InsertStep(x, ps, rest);
      [ps[0]] + rest
  }

  /** `r` is `ps` with `x` added: the same entries and one more `x`, sorted if `ps` was, and
      `x` placed in front of the entries of its score that `ps` already holds. */
  ghost predicate Inserted<K>(x: (K, int), ps: Assoc<K>, r: Assoc<K>) {
    && multiset(r) == multiset(ps) + multiset{x}
    && |r| == |ps| + 1
    && (r[0] == x || (|ps| > 0 && r[0] == ps[0]))
    && (SortedDesc(ps) ==> SortedDesc(r))
    && forall v :: WithScore(r, v) == if x.1 == v then [x] + WithScore(ps, v) else WithScore(ps, v)
  }

  /** Inserting behind a head that scores more than `x` keeps the head in front. */
  lemma InsertStep<K>(x: (K, int), ps: Assoc<K>, rest: Assoc<K>)
    requires |ps| > 0 && x.1 < ps[0].1 && Inserted(x, ps[1..], rest)
    ensures Inserted(x, ps, [ps[0]] + rest)
  {
    assert ps == [ps[0]] + ps[1..];
    assert multiset([ps[0]] + rest) == multiset{ps[0]} + multiset(rest);
    SortedCons(ps[0], ps[1..]);
    SortedCons(ps[0], rest);
    InsertBehind(x, ps[0], ps[1..], rest);
  }

  /** An entry inserted behind a higher-scoring head keeps every score's run in order. */
  lemma InsertBehind<K>(x: (K, int), y: (K, int), tail: Assoc<K>, rest: Assoc<K>)
    requires x.1 < y.1
    requires forall v :: WithScore(rest, v) == if x.1 == v then [x] + WithScore(tail, v) else WithScore(tail, v)
    ensures forall v :: WithScore([y] + rest, v) == if x.1 == v then [x] + WithScore([y] + tail, v) else WithScore([y] + tail, v)
  {
    forall v
      ensures WithScore([y] + rest, v) == if x.1 == v then [x] + WithScore([y] + tail, v) else WithScore([y] + tail, v)
    {
      WithScoreCons(y, rest, v);
      WithScoreCons(y, tail, v);
    }
  }

  /** An entry scoring at least the head of a sorted list can go before it. */
  lemma SortedCons<K>(y: (K, int), ps: Assoc<K>)
    ensures SortedDesc(ps) && (|ps| > 0 ==> y.1 >= ps[0].1) ==> SortedDesc([y] + ps)
    ensures SortedDesc([y] + ps) ==> SortedDesc(ps)
  {
    var t := [y] + ps;
    assert forall i :: 0 <= i < |ps| ==> t[i + 1] == ps[i];
  }

  /** `sorted(..., key=score, reverse=True)`: descending by score, a permutation of the input,
      and stable: entries with equal scores keep their order. */
  function SortDesc<K>(ps: Assoc<K>): (r: Assoc<K>)
    ensures multiset(r) == multiset(ps)
    ensures |r| == |ps|
    ensures SortedDesc(r)
    ensures forall v :: WithScore(r, v) == WithScore(ps, v)
  {
    if |ps| == 0 then []
    else
      assert ps == [ps[0]] + ps[1..];
      var r := InsertDesc(ps[0], SortDesc(ps[1..]));
      assert ps == [ps[0]] + ps[1..];
      WithScoreConsAll(ps[0], ps[1..]);
      r
  }

  /** `b` ranks the table `ps`: highest scores first, equal scores in the table's order. */
  ghost predicate Ranks<K>(b: Assoc<K>, ps: Assoc<K>) {
    SortedDesc(b) && forall v :: WithScore(b, v) == WithScore(ps, v)
  }

  /** A table has one ranking: the order of the leaderboard is fully determined. */
  lemma RanksUnique<K>(b1: Assoc<K>, b2: Assoc<K>, ps: Assoc<K>)
    requires Ranks(b1, ps) && Ranks(b2, ps)
    ensures b1 == b2
  {
    SameRuns(b1, b2);
  }

  /** Two sorted lists with the same run for every score are equal. */
  lemma {:induction false} SameRuns<K>(b1: Assoc<K>, b2: Assoc<K>)
    requires SortedDesc(b1) && SortedDesc(b2)
    requires forall v :: WithScore(b1, v) == WithScore(b2, v)
    ensures b1 == b2
    decreases |b1| + |b2|, 1
  {
    if |b1| > 0 {
      SameRunsFrom(b1, b2);
    } else if |b2| > 0 {
      SameRunsFrom(b2, b1);
    }
  }

  lemma {:induction false} SameRunsFrom<K>(b1: Assoc<K>, b2: Assoc<K>)
    requires |b1| > 0 && SortedDesc(b1) && SortedDesc(b2)
    requires forall v :: WithScore(b1, v) == WithScore(b2, v)
    ensures b1 == b2
    decreases |b1| + |b2|, 0
  {
    SameHeads(b1, b2);
    SameTails(b1, b2);
    SortedCons(b1[0], b1[1..]);
    SortedCons(b2[0], b2[1..]);
    assert b1 == [b1[0]] + b1[1..];
    assert b2 == [b2[0]] + b2[1..];
    SameRuns(b1[1..], b2[1..]);
  }

  /** Two sorted lists with the same runs start with the same entry: the first entry of the
      top score's run. */
  lemma SameHeads<K>(b1: Assoc<K>, b2: Assoc<K>)
    requires |b1| > 0 && SortedDesc(b1) && SortedDesc(b2)
    requires forall v :: WithScore(b1, v) == WithScore(b2, v)
    ensures |b2| > 0 && b1[0] == b2[0]
  {
    var m := b1[0].1;
    HeadOfRun(b1);
    assert b1[0] in WithScore(b2, m);
    TopAboveRun(b2, m, b1[0]);
    HeadOfRun(b2);
    assert b2[0] in WithScore(b1, b2[0].1);
    TopAboveRun(b1, b2[0].1, b2[0]);
    assert WithScore(b1, m)[0] == b1[0] && WithScore(b2, m)[0] == b2[0];
  }

  /** A list's head opens the run of its own score. */
  lemma HeadOfRun<K>(b: Assoc<K>)
    requires |b| > 0
    ensures |WithScore(b, b[0].1)| > 0 && WithScore(b, b[0].1)[0] == b[0]
  {
    assert b == [b[0]] + b[1..];
    WithScoreCons(b[0], b[1..], b[0].1);
  }

  /** In a sorted list, the head scores at least as much as any run that is not empty. */
  lemma TopAboveRun<K>(b: Assoc<K>, v: int, e: (K, int))
    requires SortedDesc(b) && e in WithScore(b, v)
    ensures |b| > 0 && b[0].1 >= v
  {
    RunMember(b, v, e);
    var k :| 0 <= k < |b| && b[k] == e;
    var w := WithScore(b, v);
    var l :| 0 <= l < |w| && w[l] == e;
    assert e.1 == v;
  }

  /** Lists with the same runs and the same head have tails with the same runs. */
  lemma SameTails<K>(b1: Assoc<K>, b2: Assoc<K>)
    requires |b1| > 0 && |b2| > 0 && b1[0] == b2[0]
    requires forall v :: WithScore(b1, v) == WithScore(b2, v)
    ensures forall v :: WithScore(b1[1..], v) == WithScore(b2[1..], v)
  {
    assert b1 == [b1[0]] + b1[1..];
    assert b2 == [b2[0]] + b2[1..];
    forall v ensures WithScore(b1[1..], v) == WithScore(b2[1..], v) {
      WithScoreCons(b1[0], b1[1..], v);
      WithScoreCons(b2[0], b2[1..], v);
      var head := if b1[0].1 == v then [b1[0]] else [];
      assert (head + WithScore(b1[1..], v))[|head|..] == WithScore(b1[1..], v);
      assert (head + WithScore(b2[1..], v))[|head|..] == WithScore(b2[1..], v);
    }
  }

  /** A run holds entries of the list only. */
  lemma {:induction false} RunMember<K>(ps: Assoc<K>, v: int, e: (K, int))
    requires e in WithScore(ps, v)
    ensures exists k :: 0 <= k < |ps| && ps[k] == e
  {
    if ps[0] != e {
      assert e in WithScore(ps[1..], v);
      RunMember(ps[1..], v, e);
      var k :| 0 <= k < |ps[1..]| && ps[1..][k] == e;
      assert ps[k + 1] == e;
    }
  }

  function HandleText(h: Option<string>): string {
    match h
    case Some(x) => x
    case None => "None"
  }

  /** One `"\t{handle}: {score}\n"` line per entry. */
  function ScoreLines(ps: Assoc<Option<string>>): string {
    if |ps| == 0 then ""
    else "\t" + HandleText(ps[0].0) + ": " + IntToString(ps[0].1) + "\n" + ScoreLines(ps[1..])
  }

  const LeaderboardHeader: string := "Trivia ended!\nLeaderboard:\n"

  /** The whole scoring pipeline of `trivia_end` on the round's log and questions: the
      text is the header followed by one line per handle, in the one order that `Ranks`
      the per-handle table (highest first, ties in table order). */
  function Leaderboard(users: seq<User>, log: seq<Message>, msgIds: seq<int>, questions: seq<Question>): (r: Result<string>)
    ensures r.Fail? ==> r.error == RuntimeError
    ensures r.Ok? <==>
      (forall k :: 0 <= k < |questions| ==> |questions[k].options| > 0)
      && (forall m :: m in log && m.messageId in msgIds ==> Contains(m.text, OptionMarker))
    ensures r.Ok? ==> StartsWith(r.value, LeaderboardHeader)
    ensures r.Ok? ==>
      var opts := OptionMessages(log, msgIds);
      var points := Scores(Answers(opts, Corrects(questions).value).value, Cheaters(questions, opts));
      exists b :: Ranks(b, ByHandle(users, points, [])) && r.value == LeaderboardHeader + ScoreLines(b)
  {
    var opts := OptionMessages(log, msgIds);
    var corrects :- Corrects(questions);
    var answers :- Answers(opts, corrects);
    var points := Scores(answers, Cheaters(questions, opts));
    var ranked := SortDesc(ByHandle(users, points, []));
    Ok(LeaderboardHeader + ScoreLines(ranked))
  }
}

=== FILE: standup.dfy ===
/** Standups (standup.py): a timed window per channel during which members' lines are
    collected in the channel's buffer, then flushed as one message by the starter. */
module Standup {
  import opened Wrappers
  import opened Strings
  import opened Data
  import opened Helper
  import MessageOps
  import Trivia

  // ------------------------------------------------------------------------------------
  // standup_active

  /** `standup_active`: the token, the channel, membership, then the deadline of the first
      channel entry with the id; the standup is active iff the present is before it. */
  function Active(s: Store, t: Token, cid: int, now: int): (r: Result<Option<int>>)
    ensures GetUserId(s.users, t).Fail? ==> r == Fail(AccessError)
    ensures GetUserId(s.users, t).Ok? && CheckChannelValid(s.channels, cid).Fail? ==> r == Fail(InputError)
    ensures (GetUserId(s.users, t).Ok? && CheckChannelValid(s.channels, cid).Ok?
             && MissingMembership(s.users, Decode(t).value, cid)) ==> r == Fail(AccessError)
    ensures r.Ok? ==> var deadline := s.channels[CheckChannelValid(s.channels, cid).value].standup;
      && (r.value.Some? <==> now < deadline)
      && (r.value.Some? ==> r.value.value == deadline)
    ensures r.Ok? <==> (GetUserId(s.users, t).Ok? && CheckChannelValid(s.channels, cid).Ok?
                        && !MissingMembership(s.users, Decode(t).value, cid))
  {
    var uid :- GetUserId(s.users, t);
    var j :- CheckChannelValid(s.channels, cid);
    var _ :- CheckUserInChannel(s.users, uid, cid);
    var deadline := s.channels[j].standup;
    if now < deadline then Ok(Some(deadline)) else Ok(None)
  }

  // ------------------------------------------------------------------------------------
  // standup_start

  /** Some trivia record of the channel has a game running. */
  predicate TriviaRunning(ts: seq<TriviaState>, cid: int) {
    exists j :: 0 <= j < |ts| && ts[j].channelId == cid && ts[j].active
  }

  /** `standup_start`: the checks of `Active`, then a running standup or a running trivia
      game raises `InputError`. The deadline `now + length` is stored on the first channel
      entry with the id and returned, and the flush timer is queued. */
  function Start(s: Store, t: Token, cid: int, length: int, now: int): (r: Result<(Store, int)>)
    ensures Active(s, t, cid, now).Fail? ==> r == Fail(Active(s, t, cid, now).error)
    ensures Active(s, t, cid, now).Ok? && Active(s, t, cid, now).value.Some? ==> r == Fail(InputError)
    ensures (Active(s, t, cid, now).Ok? && Active(s, t, cid, now).value.None? && TriviaRunning(s.trivias, cid))
            ==> r == Fail(InputError)
    ensures r.Ok? <==> (Active(s, t, cid, now) == Ok(None) && !TriviaRunning(s.trivias, cid))
    ensures r.Ok? ==> r.value.1 == now + length
    ensures r.Ok? ==> var j := CheckChannelValid(s.channels, cid).value;
      && |r.value.0.channels| == |s.channels|
      && r.value.0.channels[j] == s.channels[j].(standup := now + length)
      && (forall k :: 0 <= k < |s.channels| && k != j ==> r.value.0.channels[k] == s.channels[k])
    ensures r.Ok? ==> r.value.0.pending == s.pending + [StandupFlush(Decode(t).value, cid, now + length)]
    ensures r.Ok? ==> r.value.0.users == s.users && r.value.0.logs == s.logs && r.value.0.trivias == s.trivias
                      && r.value.0.counter == s.counter && r.value.0.standupCounter == s.standupCounter
  {
    var running :- Active(s, t, cid, now);
    if running.Some? then Fail(InputError)
    else if TriviaRunning(s.trivias, cid) then Fail(InputError)
    else
      var uid := Decode(t).value;
      var j := CheckChannelValid(s.channels, cid).value;
      var finish := now + length;
      Ok((s.(channels := s.channels[j := s.channels[j].(standup := finish)],
             pending := s.pending + [StandupFlush(uid, cid, finish)]), finish))
  }

  /** Right after a start, and until the deadline, the standup reports active. */
  lemma StartThenActive(s: Store, t: Token, cid: int, length: int, now: int, later: int)
    requires Start(s, t, cid, length, now).Ok? && later < now + length
    ensures Active(Start(s, t, cid, length, now).value.0, t, cid, later) == Ok(Some(now + length))
  {
    var s' := Start(s, t, cid, length, now).value.0;
    var j := CheckChannelValid(s.channels, cid).value;
    assert forall k :: 0 <= k < |s.channels| ==> s'.channels[k].channelId == s.channels[k].channelId;
    assert CheckChannelValid(s'.channels, cid) == Ok(j);
  }

  // ------------------------------------------------------------------------------------
  // standup_send

  /** The line a member contributes: the text behind the handle of every user record with
      the caller's u_id (the loop does not stop at the first). */
  function Prefixed(users: seq<User>, uid: int, text: string): (r: string)
    ensures |r| >= |text|
  {
    if |users| == 0 then text
    else Prefixed(users[1..], uid, if users[0].uId == uid then users[0].handle + ": " + text else text)
  }

  /** With one user record per u_id, the line is `handle: text`. */
  lemma {:induction false} PrefixedUnique(users: seq<User>, uid: int, text: string, i: int)
    requires 0 <= i < |users| && users[i].uId == uid
    requires forall k :: 0 <= k < |users| && k != i ==> users[k].uId != uid
    ensures Prefixed(users, uid, text) == users[i].handle + ": " + text
  {
    if i == 0 {
      PrefixedNone(users[1..], uid, users[0].handle + ": " + text);
    } else {
      assert users[0].uId != uid;
      PrefixedUnique(users[1..], uid, text, i - 1);
    }
  }

  lemma {:induction false} PrefixedNone(users: seq<User>, uid: int, text: string)
    requires forall k :: 0 <= k < |users| ==> users[k].uId != uid
    ensures Prefixed(users, uid, text) == text
  {
    if |users| > 0 {
      PrefixedNone(users[1..], uid, text);
    }
  }

  /** Adds a line to a buffer: the line alone when the buffer is empty, else after a newline. */
  function AppendLine(buffer: string, line: string): string {
    if buffer == "" then line else buffer + "\n" + line
  }

  /** Nonempty lines added one by one make the buffer the lines joined by newlines, in the
      order they were sent. */
  lemma AppendLineJoin(lines: seq<string>, line: string)
    requires forall k :: 0 <= k < |lines| ==> lines[k] != ""
    ensures AppendLine(Join(lines, "\n"), line) == Join(lines + [line], "\n")
  {
    if |lines| == 0 {
      assert lines + [line] == [line];
    } else {
      JoinNonempty(lines, "\n");
      JoinSnoc(lines, line, "\n");
    }
  }

  lemma JoinNonempty(parts: seq<string>, sep: string)
    requires |parts| >= 1 && parts[0] != ""
    ensures Join(parts, sep) != ""
  {
    if |parts| > 1 {
      assert Join(parts, sep) == parts[0] + sep + Join(parts[1..], sep);
    }
  }

  lemma {:induction false} JoinSnoc(parts: seq<string>, x: string, sep: string)
    requires |parts| >= 1
    ensures Join(parts + [x], sep) == Join(parts, sep) + sep + x
  {
    if |parts| == 1 {
      assert parts + [x] == [parts[0], x];
      assert [parts[0], x][1..] == [x];
    } else {
      assert (parts + [x])[1..] == parts[1..] + [x];
      JoinSnoc(parts[1..], x, sep);
    }
  }

  /** Adds the line to the buffer of every log entry of the channel. */
  function BufferLine(logs: seq<ChannelLog>, cid: int, line: string): (r: seq<ChannelLog>)
    ensures |r| == |logs|
    ensures forall j :: 0 <= j < |logs| && logs[j].channelId != cid ==> r[j] == logs[j]
    ensures forall j :: 0 <= j < |logs| && logs[j].channelId == cid ==>
      r[j] == logs[j].(standupBuffer := AppendLine(logs[j].standupBuffer, line))
  {
    seq(|logs|, j requires 0 <= j < |logs| =>
      if logs[j].channelId == cid then logs[j].(standupBuffer := AppendLine(logs[j].standupBuffer, line))
      else logs[j])
  }

  /** `standup_send`: the checks of `Active`; then no running standup, a text over 1000
      characters, an empty text or a `/trivia` line each raise `InputError`. The line goes
      into the buffers of the channel's logs; nothing else changes. */
  function Send(s: Store, t: Token, cid: int, text: string, now: int): (r: Result<Store>)
    ensures Active(s, t, cid, now).Fail? ==> r == Fail(Active(s, t, cid, now).error)
    ensures r.Ok? <==> (Active(s, t, cid, now).Ok? && Active(s, t, cid, now).value.Some?
                        && |text| <= MessageOps.MaxMessageLength && text != ""
                        && !StartsWith(text, Trivia.CommandWord))
    ensures r.Fail? && Active(s, t, cid, now).Ok? ==> r.error == InputError
    ensures r.Ok? ==> r.value == s.(logs := BufferLine(s.logs, cid, Prefixed(s.users, Decode(t).value, text)))
  {
    var running :- Active(s, t, cid, now);
    if running.None? then Fail(InputError)
    else if |text| > MessageOps.MaxMessageLength then Fail(InputError)
    else if text == "" then Fail(InputError)
    else if StartsWith(text, Trivia.CommandWord) then Fail(InputError)
    else Ok(s.(logs := BufferLine(s.logs, cid, Prefixed(s.users, Decode(t).value, text))))
  }

  // ------------------------------------------------------------------------------------
  // send_standup_messages

  datatype Flushed = Flushed(logs: seq<ChannelLog>, counter: int)

  /** `r` is what the flush loop makes of `logs`: every log entry of the channel with a
      nonempty buffer gets one message holding the buffer, with the next id from `counter`,
      authored by the starter and created at the deadline; every buffer of the channel is
      then emptied; every other entry is as it was. */
  predicate FlushedFrom(logs: seq<ChannelLog>, cid: int, starter: int, at: int, counter: int, r: Flushed) {
    && |r.logs| == |logs|
    && r.counter >= counter
    && (forall j :: 0 <= j < |logs| && logs[j].channelId != cid ==> r.logs[j] == logs[j])
    && (forall j :: 0 <= j < |logs| && logs[j].channelId == cid && logs[j].standupBuffer == "" ==>
          r.logs[j] == logs[j])
    && (forall j :: 0 <= j < |logs| && logs[j].channelId == cid && logs[j].standupBuffer != "" ==>
          && r.logs[j].channelId == cid && r.logs[j].standupBuffer == ""
          && |r.logs[j].messages| == |logs[j].messages| + 1
          && r.logs[j].messages[..|logs[j].messages|] == logs[j].messages
          && var m := r.logs[j].messages[|logs[j].messages|];
             m == NewMessage(m.messageId, starter, logs[j].standupBuffer, at)
             && counter < m.messageId <= r.counter)
    && ((forall j :: 0 <= j < |logs| && logs[j].channelId == cid ==> logs[j].standupBuffer == "") ==>
          r == Flushed(logs, counter))
  }

  /** How many log entries of the channel hold a nonempty buffer. */
  function PendingBuffers(logs: seq<ChannelLog>, cid: int): nat {
    if |logs| == 0 then 0
    else (if logs[0].channelId == cid && logs[0].standupBuffer != "" then 1 else 0) + PendingBuffers(logs[1..], cid)
  }

  /** The flush loop over the logs, numbering from `counter`; the counter moves up once per
      message posted. */
  function FlushLogs(logs: seq<ChannelLog>, cid: int, starter: int, at: int, counter: int): (r: Flushed)
    ensures FlushedFrom(logs, cid, starter, at, counter, r)
    ensures r.counter == counter + PendingBuffers(logs, cid)
  {
    if |logs| == 0 then Flushed([], counter)
    else
      var first := FlushOne(logs[0], cid, starter, at, counter);
      var rest := FlushLogs(logs[1..], cid, starter, at, first.counter);
      FlushCons(logs, cid, starter, at, counter, first, rest);
      Flushed([first.logs[0]] + rest.logs, rest.counter)
  }

  /** The flush of the first log followed by the flush of the others is the flush of all. */
  lemma FlushCons(logs: seq<ChannelLog>, cid: int, starter: int, at: int, counter: int, first: Flushed, rest: Flushed)
    requires |logs| > 0 && first == FlushOne(logs[0], cid, starter, at, counter)
    requires FlushedFrom(logs[1..], cid, starter, at, first.counter, rest)
    ensures FlushedFrom(logs, cid, starter, at, counter, Flushed([first.logs[0]] + rest.logs, rest.counter))
  {
    FlushConsKept(logs, cid, starter, at, counter, first, rest);
    FlushConsAdded(logs, cid, starter, at, counter, first, rest);
    FlushConsQuiet(logs, cid, starter, at, counter, first, rest);
  }

  lemma FlushConsKept(logs: seq<ChannelLog>, cid: int, starter: int, at: int, counter: int, first: Flushed, rest: Flushed)
    requires |logs| > 0 && first == FlushOne(logs[0], cid, starter, at, counter)
    requires FlushedFrom(logs[1..], cid, starter, at, first.counter, rest)
    ensures var r := Flushed([first.logs[0]] + rest.logs, rest.counter);
      && |r.logs| == |logs| && r.counter >= counter
      && (forall j :: 0 <= j < |logs| && logs[j].channelId != cid ==> r.logs[j] == logs[j])
      && (forall j :: 0 <= j < |logs| && logs[j].channelId == cid && logs[j].standupBuffer == "" ==> r.logs[j] == logs[j])
  {
    var r := Flushed([first.logs[0]] + rest.logs, rest.counter);
    var tail := logs[1..];
    forall j | 1 <= j < |logs| ensures logs[j] == tail[j - 1] && r.logs[j] == rest.logs[j - 1] { }
  }

  lemma FlushConsAdded(logs: seq<ChannelLog>, cid: int, starter: int, at: int, counter: int, first: Flushed, rest: Flushed)
    requires |logs| > 0 && first == FlushOne(logs[0], cid, starter, at, counter)
    requires FlushedFrom(logs[1..], cid, starter, at, first.counter, rest)
    ensures var r := Flushed([first.logs[0]] + rest.logs, rest.counter);
      forall j :: 0 <= j < |logs| && logs[j].channelId == cid && logs[j].standupBuffer != "" ==>
        && r.logs[j].channelId == cid && r.logs[j].standupBuffer == ""
        && |r.logs[j].messages| == |logs[j].messages| + 1
        && r.logs[j].messages[..|logs[j].messages|] == logs[j].messages
        && var m := r.logs[j].messages[|logs[j].messages|];
           m == NewMessage(m.messageId, starter, logs[j].standupBuffer, at)
           && counter < m.messageId <= r.counter
  {
    var r := Flushed([first.logs[0]] + rest.logs, rest.counter);
    var tail := logs[1..];
    forall j | 0 <= j < |logs| && logs[j].channelId == cid && logs[j].standupBuffer != ""
      ensures && r.logs[j].channelId == cid && r.logs[j].standupBuffer == ""
              && |r.logs[j].messages| == |logs[j].messages| + 1
              && r.logs[j].messages[..|logs[j].messages|] == logs[j].messages
              && var m := r.logs[j].messages[|logs[j].messages|];
                 m == NewMessage(m.messageId, starter, logs[j].standupBuffer, at)
                 && counter < m.messageId <= r.counter
    {
      if j > 0 {
        assert logs[j] == tail[j - 1] && r.logs[j] == rest.logs[j - 1];
      }
    }
  }

  lemma FlushConsQuiet(logs: seq<ChannelLog>, cid: int, starter: int, at: int, counter: int, first: Flushed, rest: Flushed)
    requires |logs| > 0 && first == FlushOne(logs[0], cid, starter, at, counter)
    requires FlushedFrom(logs[1..], cid, starter, at, first.counter, rest)
    ensures (forall j :: 0 <= j < |logs| && logs[j].channelId == cid ==> logs[j].standupBuffer == "") ==>
      Flushed([first.logs[0]] + rest.logs, rest.counter) == Flushed(logs, counter)
  {
    var tail := logs[1..];
    if forall j :: 0 <= j < |logs| && logs[j].channelId == cid ==> logs[j].standupBuffer == "" {
      assert forall j :: 0 <= j < |tail| && tail[j].channelId == cid ==> tail[j].standupBuffer == "" by {
        forall j | 0 <= j < |tail| ensures tail[j] == logs[j + 1] { }
      }
      assert logs == [logs[0]] + tail;
    }
  }

  /** The flush of one log: a pending buffer of the channel becomes a message numbered
      one above the counter. */
  function FlushOne(head: ChannelLog, cid: int, starter: int, at: int, counter: int): (r: Flushed)
    ensures |r.logs| == 1
    ensures head.channelId != cid || head.standupBuffer == "" ==> r == Flushed([head], counter)
    ensures head.channelId == cid && head.standupBuffer != "" ==>
      && r.counter == counter + 1
      && r.logs[0].channelId == cid && r.logs[0].standupBuffer == ""
      && |r.logs[0].messages| == |head.messages| + 1
      && r.logs[0].messages[..|head.messages|] == head.messages
      && r.logs[0].messages[|head.messages|] == NewMessage(counter + 1, starter, head.standupBuffer, at)
  {
    if head.channelId != cid || head.standupBuffer == "" then Flushed([head], counter)
    else
      var m := NewMessage(counter + 1, starter, head.standupBuffer, at);
      assert (head.messages + [m])[..|head.messages|] == head.messages;
      Flushed([head.(messages := head.messages + [m], standupBuffer := "")], counter + 1)
  }

  /** The flush as written: it numbers the new messages from the standup module's own
      copy of the id counter, which sending never advances. */
  function FlushAsWritten(s: Store, starter: int, cid: int, at: int): (s': Store)
    ensures var f := FlushLogs(s.logs, cid, starter, at, s.standupCounter);
      s'.logs == f.logs && s'.standupCounter == f.counter && s'.counter == s.counter
    ensures s'.standupCounter == s.standupCounter + PendingBuffers(s.logs, cid)
    ensures s'.users == s.users && s'.channels == s.channels && s'.trivias == s.trivias
    ensures s'.pending == s.pending && s'.defaultCategory == s.defaultCategory
  {
    var f := FlushLogs(s.logs, cid, starter, at, s.standupCounter);
    s.(logs := f.logs, standupCounter := f.counter)
  }

  /** The flush numbering its messages from the counter sending uses. */
  function Flush(s: Store, starter: int, cid: int, at: int): (s': Store)
    ensures s'.counter == s.counter + PendingBuffers(s.logs, cid) && s'.standupCounter == s.standupCounter
    ensures s'.users == s.users && s'.channels == s.channels && s'.trivias == s.trivias
    ensures s'.pending == s.pending && s'.defaultCategory == s.defaultCategory
    ensures s'.logs == FlushLogs(s.logs, cid, starter, at, s.counter).logs
  {
    var f := FlushLogs(s.logs, cid, starter, at, s.counter);
    s.(logs := f.logs, counter := f.counter)
  }
}

=== FILE: strings.dfy ===
/** Python string and list primitives the store relies on, with Python's semantics:
    `str.startswith`, the substring test `a in b`, `str.split(sep)` and `sep.join(parts)`,
    ASCII case mapping, `str(n)`, `int(s)` and list slicing with negative bounds. */
module Strings {
  import opened Wrappers

  predicate IsUpper(c: char) { 'A' <= c <= 'Z' }
  predicate IsLower(c: char) { 'a' <= c <= 'z' }
  predicate IsLetter(c: char) { IsUpper(c) || IsLower(c) }
  predicate IsDigit(c: char) { '0' <= c <= '9' }

  /** The characters Python's `\s` matches among ASCII: space, tab, the line breaks,
      vertical tab, form feed and the four separators 0x1C to 0x1F. */
  predicate IsSpace(c: char) {
    c == ' ' || c == '\t' || c == '\n' || c == '\r' || c == '\U{000B}' || c == '\U{000C}'
    || ('\U{001C}' <= c <= '\U{001F}')
  }

  /** The characters Python's `\w` matches among ASCII. */
  predicate IsWordChar(c: char) { IsLetter(c) || IsDigit(c) || c == '_' }

  predicate StartsWith(s: string, prefix: string) {
    |prefix| <= |s| && s[..|prefix|] == prefix
  }

  /** `needle` occurs in `hay` at position `i`. */
  predicate OccursAt(hay: string, needle: string, i: int) {
    0 <= i && i + |needle| <= |hay| && hay[i..i + |needle|] == needle
  }

  /** Python's `needle in hay` on strings. */
  predicate Contains(hay: string, needle: string) {
    exists i | 0 <= i <= |hay| - |needle| :: OccursAt(hay, needle, i)
  }

  /** First position at or after `from` where `needle` occurs. */
  function FindFrom(hay: string, needle: string, from: nat): (r: Option<nat>)
    decreases |hay| - from
    ensures r.Some? ==> from <= r.value && OccursAt(hay, needle, r.value)
    ensures r.Some? ==> forall j :: from <= j < r.value ==> !OccursAt(hay, needle, j)
    ensures r.None? ==> forall j :: from <= j ==> !OccursAt(hay, needle, j)
  {
    if from + |needle| > |hay| then None
    else if hay[from..from + |needle|] == needle then Some(from)
    else FindFrom(hay, needle, from + 1)
  }

  /** The substring test decided by a search. */
  function Find(hay: string, needle: string): (r: Option<nat>)
    ensures r.Some? <==> Contains(hay, needle)
    ensures r.Some? ==> OccursAt(hay, needle, r.value)
    ensures r.Some? ==> forall j :: 0 <= j < r.value ==> !OccursAt(hay, needle, j)
  {
    FindFrom(hay, needle, 0)
  }

  /** Python's `s.split(sep)` for a non-empty separator: the pieces between
      successive leftmost non-overlapping occurrences. */
  function Split(s: string, sep: string): (parts: seq<string>)
    requires |sep| > 0
    decreases |s|
    ensures |parts| >= 1
    ensures forall k :: 0 <= k < |parts| ==> !Contains(parts[k], sep)
    ensures |parts| >= 2 <==> Contains(s, sep)
  {
    match Find(s, sep)
    case None => [s]
    case Some(k) =>
      NoEarlierOccurrence(s, sep, k);
      [s[..k]] + Split(s[k + |sep|..], sep)
  }

  lemma NoEarlierOccurrence(s: string, sep: string, k: nat)
    requires |sep| > 0
    requires OccursAt(s, sep, k)
    requires forall j :: 0 <= j < k ==> !OccursAt(s, sep, j)
    ensures !Contains(s[..k], sep)
  {
    forall j | 0 <= j <= k - |sep|
      ensures !OccursAt(s[..k], sep, j)
    {
      assert j < k && j + |sep| <= k <= |s|;
      assert s[..k][j..j + |sep|] == s[j..j + |sep|];
      assert !OccursAt(s, sep, j);
    }
  }

  /** Python's `sep.join(parts)`. */
  function Join(parts: seq<string>, sep: string): string
  {
    if |parts| == 0 then ""
    else if |parts| == 1 then parts[0]
    else parts[0] + sep + Join(parts[1..], sep)
  }

  /** Splitting and joining with the same separator gives the text back. */
  lemma {:induction false} JoinSplit(s: string, sep: string)
    requires |sep| > 0
    ensures Join(Split(s, sep), sep) == s
    decreases |s|
  {
    var f := Find(s, sep);
    if f.Some? {
      var k := f.value;
      var rest := s[k + |sep|..];
      var parts := Split(rest, sep);
      JoinSplit(rest, sep);
      assert Split(s, sep) == [s[..k]] + parts;
      assert Join([s[..k]] + parts, sep) == s[..k] + sep + Join(parts, sep) by {
        assert ([s[..k]] + parts)[1..] == parts;
      }
      assert s == s[..k] + sep + rest by {
        assert s[k..k + |sep|] == sep;
      }
    }
  }

  /** Joining pieces that do not contain the separator and splitting again gives the pieces back. */
  lemma {:induction false} SplitJoin(parts: seq<string>, sep: string)
    requires |sep| > 0 && |parts| >= 1
    requires forall k :: 0 <= k < |parts| ==> !Contains(parts[k], sep)
    requires forall k :: 0 <= k < |parts| - 1 ==> !Contains(parts[k] + sep[..|sep| - 1], sep)
    ensures Split(Join(parts, sep), sep) == parts
    decreases |parts|
  {
    if |parts| == 1 {
      assert Find(parts[0], sep).None?;
    } else {
      var rest := Join(parts[1..], sep);
      var s := parts[0] + sep + rest;
      assert Join(parts, sep) == s;
      var p := |parts[0]|;
      assert OccursAt(s, sep, p) by {
        assert s[p..p + |sep|] == sep;
      }
      forall j | 0 <= j < p
        ensures !OccursAt(s, sep, j)
      {
        var w := parts[0] + sep[..|sep| - 1];
        var ws, ss := w[j..j + |sep|], s[j..j + |sep|];
        forall m | 0 <= m < |sep| ensures ws[m] == ss[m] {
          if j + m >= p {
            assert w[j + m] == sep[j + m - p] == s[j + m];
          }
        }
        assert ws == ss;
        assert !OccursAt(w, sep, j);
      }
      assert Find(s, sep) == Some(p);
      assert s[..p] == parts[0];
      assert s[p + |sep|..] == rest;
      SplitJoin(parts[1..], sep);
    }
  }

  /** Single-character separators: a piece followed by a partial separator cannot contain it. */
  lemma SplitJoinChar(parts: seq<string>, c: char)
    requires |parts| >= 1
    requires forall k :: 0 <= k < |parts| ==> c !in parts[k]
    ensures Split(Join(parts, [c]), [c]) == parts
  {
    forall k | 0 <= k < |parts|
      ensures !Contains(parts[k], [c])
    {
      NoCharNoOccurrence(parts[k], c);
    }
    forall k | 0 <= k < |parts| - 1
      ensures !Contains(parts[k] + [c][..0], [c])
    {
      assert parts[k] + [c][..0] == parts[k];
      NoCharNoOccurrence(parts[k], c);
    }
    SplitJoin(parts, [c]);
  }

  /** Joining a list whose last piece is itself a join flattens. */
  lemma {:induction false} JoinFlatten(a: seq<string>, b: seq<string>, sep: string)
    requires |b| >= 1
    ensures Join(a + b, sep) == Join(a + [Join(b, sep)], sep)
    decreases |a|
  {
    if |a| == 0 {
      assert a + b == b;
      assert a + [Join(b, sep)] == [Join(b, sep)];
    } else {
      assert (a + b)[1..] == a[1..] + b;
      assert (a + [Join(b, sep)])[1..] == a[1..] + [Join(b, sep)];
      JoinFlatten(a[1..], b, sep);
      if |a| == 1 {
        assert a[1..] + b == b;
        assert a[1..] + [Join(b, sep)] == [Join(b, sep)];
      }
    }
  }

  lemma CharOccurs(s: string, c: char)
    requires c in s
    ensures Contains(s, [c])
  {
    var i :| 0 <= i < |s| && s[i] == c;
    assert s[i..i + 1] == [c];
    assert OccursAt(s, [c], i);
  }

  lemma PrefixOfConcat(a: string, b: string)
    ensures StartsWith(a + b, a)
  {
    assert (a + b)[..|a|] == a;
  }

  lemma JoinThree(a: string, b: string, c: string, sep: string)
    ensures Join([a, b, c], sep) == a + sep + b + sep + c
  {
    assert [a, b, c][1..] == [b, c];
    assert [b, c][1..] == [c];
    assert Join([b, c], sep) == b + sep + c;
    assert Join([a, b, c], sep) == a + sep + (b + sep + c);
  }

  /** Splitting a line whose leading words have no separator in them: the words come out
      unchanged, followed by the split of the remainder. */
  lemma SplitLeadingWords(words: seq<string>, rest: string, c: char)
    requires forall k :: 0 <= k < |words| ==> c !in words[k]
    ensures Split(Join(words + [rest], [c]), [c]) == words + Split(rest, [c])
  {
    var tail := Split(rest, [c]);
    JoinSplit(rest, [c]);
    JoinFlatten(words, tail, [c]);
    forall k | 0 <= k < |tail|
      ensures c !in tail[k]
    {
      if c in tail[k] {
        CharOccurs(tail[k], c);
      }
    }
    SplitJoinChar(words + tail, c);
  }

  lemma NoCharNoOccurrence(s: string, c: char)
    requires c !in s
    ensures !Contains(s, [c])
  {
    forall i | 0 <= i <= |s| - 1
      ensures !OccursAt(s, [c], i)
    {
      assert s[i..i + 1] == [s[i]];
    }
  }

  function ToLowerChar(c: char): char {
    if IsUpper(c) then (c as int + 32) as char else c
  }

  function ToUpperChar(c: char): char {
    if IsLower(c) then (c as int - 32) as char else c
  }

  /** Python's `s.lower()` on ASCII letters. */
  function Lower(s: string): (r: string)
    ensures |r| == |s|
    ensures forall k :: 0 <= k < |s| ==> r[k] == ToLowerChar(s[k])
    ensures forall k :: 0 <= k < |r| ==> !IsUpper(r[k])
  {
    seq(|s|, k requires 0 <= k < |s| => ToLowerChar(s[k]))
  }

  /** Python's `s.upper()` on ASCII letters. */
  function Upper(s: string): (r: string)
    ensures |r| == |s|
    ensures forall k :: 0 <= k < |s| ==> r[k] == ToUpperChar(s[k])
    ensures forall k :: 0 <= k < |r| ==> !IsLower(r[k])
  {
    seq(|s|, k requires 0 <= k < |s| => ToUpperChar(s[k]))
  }

  function DigitChar(d: nat): char
    requires d < 10
  {
    ('0' as int + d) as char
  }

  /** Python's `str(n)` for a natural number. */
  function NatToString(n: nat): (r: string)
    ensures |r| >= 1
    ensures forall k :: 0 <= k < |r| ==> IsDigit(r[k])
  {
    if n < 10 then [DigitChar(n)] else NatToString(n / 10) + [DigitChar(n % 10)]
  }

  /** Python's `str(i)` for an integer. */
  function IntToString(i: int): string {
    if i < 0 then "-" + NatToString(-i) else NatToString(i)
  }

  function DigitsValue(s: string): (v: nat)
    requires forall k :: 0 <= k < |s| ==> IsDigit(s[k])
  {
    if |s| == 0 then 0
    else
      assert IsDigit(s[|s| - 1]);
      10 * DigitsValue(s[..|s| - 1]) + (s[|s| - 1] as int - '0' as int)
  }

  predicate AllDigits(s: string) {
    |s| > 0 && forall k :: 0 <= k < |s| ==> IsDigit(s[k])
  }

  /** Python's `int(s)` on an optional sign followed by ASCII digits; any other text
      raises `ValueError`. */
  function ParseInt(s: string): (r: Option<int>)
    ensures r.Some? <==> (AllDigits(s) || (|s| > 1 && (s[0] == '-' || s[0] == '+') && AllDigits(s[1..])))
  {
    if AllDigits(s) then Some(DigitsValue(s))
    else if |s| > 1 && s[0] == '-' && AllDigits(s[1..]) then Some(0 - DigitsValue(s[1..]) as int)
    else if |s| > 1 && s[0] == '+' && AllDigits(s[1..]) then Some(DigitsValue(s[1..]))
    else None
  }

  lemma {:induction false} DigitsValueOfNatToString(n: nat)
    ensures DigitsValue(NatToString(n)) == n
  {
    if n >= 10 {
      var r := NatToString(n);
      assert r[..|r| - 1] == NatToString(n / 10);
      DigitsValueOfNatToString(n / 10);
    }
  }

  /** Reading back a printed integer gives the integer. */
  lemma ParseIntToString(i: int)
    ensures ParseInt(IntToString(i)) == Some(i)
  {
    if i < 0 {
      var d := NatToString(-i);
      assert IntToString(i)[1..] == d;
      DigitsValueOfNatToString(-i);
    } else {
      DigitsValueOfNatToString(i);
    }
  }

  /** The list reversed, newest first. */
  function Reverse<T>(s: seq<T>): (r: seq<T>)
    ensures |r| == |s|
    ensures forall k :: 0 <= k < |s| ==> r[k] == s[|s| - 1 - k]
  {
    if |s| == 0 then [] else Reverse(s[1..]) + [s[0]]
  }

  /** Python's normalisation of a slice bound against a list of length `n`. */
  function SliceBound(i: int, n: nat): (b: nat)
    ensures b <= n
    ensures 0 <= i <= n ==> b == i
  {
    if i < 0 then (if n + i < 0 then 0 else n + i) else if i > n then n else i
  }

  /** Python's `s[a:b]`. */
  function Slice<T>(s: seq<T>, a: int, b: int): seq<T> {
    var lo := SliceBound(a, |s|);
    var hi := SliceBound(b, |s|);
    if lo < hi then s[lo..hi] else []
  }

  /** Python's `s[a:]`. */
  function SliceFrom<T>(s: seq<T>, a: int): seq<T> {
    s[SliceBound(a, |s|)..]
  }

  /** Python's `list.remove(x)` once `x` is known to be present: drops the first occurrence. */
  function RemoveFirst<T(==)>(s: seq<T>, x: T): (r: seq<T>)
    ensures x in s ==> |r| == |s| - 1
    ensures x !in s ==> r == s
    ensures multiset(r) == multiset(s) - multiset{x}
    ensures forall y :: y in r ==> y in s
  {
    if |s| == 0 then []
    else if s[0] == x then
      assert s == [s[0]] + s[1..];
      s[1..]
    else
      assert s == [s[0]] + s[1..];
      [s[0]] + RemoveFirst(s[1..], x)
  }

  /** When nothing before position `k` equals `s[k]`, removing `s[k]` drops exactly that position. */
  lemma {:induction false} RemoveFirstAt<T>(s: seq<T>, k: nat)
    requires k < |s| && s[k] !in s[..k]
    ensures RemoveFirst(s, s[k]) == s[..k] + s[k + 1..]
  {
    var x := s[k];
    if k > 0 {
      var t := s[1..];
      assert s[0] == s[..k][0];
      assert t[..k - 1] == s[1..k];
      assert x !in s[1..k] by {
        assert forall y :: y in s[1..k] ==> y in s[..k];
      }
      RemoveFirstAt(t, k - 1);
      assert RemoveFirst(s, x) == [s[0]] + RemoveFirst(t, x);
      assert t[k..] == s[k + 1..];
      assert [s[0]] + (s[1..k] + s[k + 1..]) == ([s[0]] + s[1..k]) + s[k + 1..];
      assert [s[0]] + s[1..k] == s[..k];
    }
  }

  /** Removing a value that was appended to a list lacking it gives the list back. */
  lemma {:induction false} RemoveFirstAppended<T>(s: seq<T>, x: T)
    requires x !in s
    ensures RemoveFirst(s + [x], x) == s
  {
    if |s| > 0 {
      assert (s + [x])[1..] == s[1..] + [x];
      RemoveFirstAppended(s[1..], x);
      assert [s[0]] + s[1..] == s;
    }
  }

  predicate NoDuplicates<T(==)>(s: seq<T>) {
    forall i, j :: 0 <= i < j < |s| ==> s[i] != s[j]
  }

  /** Without duplicates, removing the first occurrence removes every occurrence. */
  lemma RemoveFirstNoDuplicates<T>(s: seq<T>, x: T)
    requires NoDuplicates(s)
    ensures x !in RemoveFirst(s, x)
    ensures NoDuplicates(RemoveFirst(s, x))
    ensures forall y :: y != x ==> (y in RemoveFirst(s, x) <==> y in s)
  {
    var r := RemoveFirst(s, x);
    assert multiset(r) == multiset(s) - multiset{x};
    assert multiset(s)[x] <= 1 by {
      MultiplicityOne(s, x);
    }
    assert multiset(r)[x] == 0;
    forall y | y != x
      ensures y in r <==> y in s
    {
      assert multiset(r)[y] == multiset(s)[y];
    }
    NoDuplicatesMultiset(s);
    NoDuplicatesFromMultiset(r);
  }

  lemma MultiplicityOne<T>(s: seq<T>, x: T)
    requires NoDuplicates(s)
    ensures multiset(s)[x] <= 1
  {
    NoDuplicatesMultiset(s);
  }

  lemma {:induction false} NoDuplicatesMultiset<T>(s: seq<T>)
    requires NoDuplicates(s)
    ensures forall y :: multiset(s)[y] <= 1
  {
    if |s| > 0 {
      NoDuplicatesMultiset(s[1..]);
      assert s == [s[0]] + s[1..];
      assert s[0] !in s[1..];
    }
  }

  lemma {:induction false} NoDuplicatesFromMultiset<T>(s: seq<T>)
    requires forall y :: multiset(s)[y] <= 1
    ensures NoDuplicates(s)
  {
    if |s| > 0 {
      assert s == [s[0]] + s[1..];
      forall y
        ensures multiset(s[1..])[y] <= 1
      {
        assert multiset(s)[y] == multiset([s[0]])[y] + multiset(s[1..])[y];
      }
      NoDuplicatesFromMultiset(s[1..]);
      assert s[0] !in s[1..] by {
        assert multiset(s)[s[0]] == 1 + multiset(s[1..])[s[0]];
        assert multiset(s[1..])[s[0]] == 0;
      }
      forall i, j | 0 <= i < j < |s|
        ensures s[i] != s[j]
      {
        if i == 0 {
          assert s[j] == s[1..][j - 1];
        } else {
          assert s[i] == s[1..][i - 1] && s[j] == s[1..][j - 1];
        }
      }
    }
  }
}

=== FILE: timers.dfy ===
/** The server's timers (a delayed send, the end of a standup) as explicit queue entries
    that fire one at a time. */
module Timers {
  import opened Data
  import MessageOps
  import Standup

  /** Fires the queued timer at position `i` and drops it from the queue, as the server
      does: the standup flush numbers its message from the standup module's own counter. */
  function Fire(s: Store, i: nat): (s': Store)
    requires i < |s.pending|
    ensures s'.pending == s.pending[..i] + s.pending[i + 1..]
    ensures s'.users == s.users && s'.channels == s.channels && s'.trivias == s.trivias
    ensures s'.defaultCategory == s.defaultCategory
    ensures s.pending[i].LaterSend? ==>
      var p := s.pending[i];
      s'.logs == MessageOps.AppendToLogs(s.logs, p.channelId, NewMessage(p.messageId, p.author, p.text, p.timeSent))
      && s'.counter == s.counter && s'.standupCounter == s.standupCounter
    ensures s.pending[i].StandupFlush? ==>
      var p := s.pending[i];
      var f := Standup.FlushLogs(s.logs, p.channelId, p.starter, p.timeFinish, s.standupCounter);
      s'.logs == f.logs && s'.standupCounter == f.counter && s'.counter == s.counter
  {
    var rest := s.(pending := s.pending[..i] + s.pending[i + 1..]);
    match s.pending[i]
    case LaterSend(author, cid, text, id, at) => MessageOps.FireLaterSend(rest, author, cid, text, id, at)
    case StandupFlush(starter, cid, at) => Standup.FlushAsWritten(rest, starter, cid, at)
  }

  /** The same queue with the corrected flush, which numbers from the counter sending uses. */
  function FireIntended(s: Store, i: nat): (s': Store)
    requires i < |s.pending|
    ensures s'.pending == s.pending[..i] + s.pending[i + 1..]
    ensures s'.users == s.users && s'.channels == s.channels && s'.trivias == s.trivias
    ensures s'.defaultCategory == s.defaultCategory && s'.standupCounter == s.standupCounter
    ensures s.pending[i].LaterSend? ==> s' == Fire(s, i)
    ensures s.pending[i].StandupFlush? ==>
      var p := s.pending[i];
      var f := Standup.FlushLogs(s.logs, p.channelId, p.starter, p.timeFinish, s.counter);
      s'.logs == f.logs && s'.counter == f.counter
  {
    var rest := s.(pending := s.pending[..i] + s.pending[i + 1..]);
    match s.pending[i]
    case LaterSend(author, cid, text, id, at) => MessageOps.FireLaterSend(rest, author, cid, text, id, at)
    case StandupFlush(starter, cid, at) => Standup.Flush(rest, starter, cid, at)
  }
}

=== FILE: trivia.dfy ===
/** The `/trivia` chat commands (trivia.py): the command parser, category and question
    management, the per-question time limit, and starting and ending a game.

    A command either completes with a reply text, is rejected with an `InputError` whose
    description the sender then sees as the message text, or raises another error. */
module Trivia {
  import opened Wrappers
  import opened Strings
  import opened Data
  import opened Helper
  import opened TriviaScoring

  datatype Reply =
    | Done(store: Store, text: string)
    | Rejected(reason: string)
    | Raised(error: Error)

  /** A command changes nothing but trivia state (the records and the shared default
      category), and its reply or rejection text is not itself a command (it does not begin
      with `/`), so the sending loop never runs a second command. */
  predicate Harmless(s: Store, r: Reply) {
    && (r.Done? ==> |r.text| > 0 && r.text[0] != '/')
    && (r.Rejected? ==> |r.reason| > 0 && r.reason[0] != '/')
    && (r.Done? ==> r.store.users == s.users && r.store.channels == s.channels && r.store.logs == s.logs
                    && r.store.counter == s.counter && r.store.standupCounter == s.standupCounter
                    && r.store.pending == s.pending)
  }

  // ------------------------------------------------------------------------------------
  // Trivia records of a channel

  /** Position of the first trivia record with this channel id. */
  function FirstTrivia(ts: seq<TriviaState>, cid: int): (r: Option<nat>)
    ensures r.None? <==> forall j :: 0 <= j < |ts| ==> ts[j].channelId != cid
    ensures r.Some? ==> r.value < |ts| && ts[r.value].channelId == cid
    ensures r.Some? ==> forall j :: 0 <= j < r.value ==> ts[j].channelId != cid
  {
    if |ts| == 0 then None
    else if ts[0].channelId == cid then Some(0)
    else
      match FirstTrivia(ts[1..], cid)
      case None => None
      case Some(j) => Some(j + 1)
  }

  /** Position of the first category with this name. */
  function FindCategory(cats: seq<Category>, name: string): (r: Option<nat>)
    ensures r.None? <==> forall k :: 0 <= k < |cats| ==> cats[k].name != name
    ensures r.Some? ==> r.value < |cats| && cats[r.value].name == name
    ensures r.Some? ==> forall k :: 0 <= k < r.value ==> cats[k].name != name
  {
    if |cats| == 0 then None
    else if cats[0].name == name then Some(0)
    else
      match FindCategory(cats[1..], name)
      case None => None
      case Some(k) => Some(k + 1)
  }

  predicate HasCategory(s: Store, t: TriviaState, name: string) {
    exists k :: 0 <= k < |CategoriesOf(s, t)| && CategoriesOf(s, t)[k].name == name
  }

  /** The changes the commands make to every trivia record of a channel. */
  datatype Edit =
    | AddCategory(name: string)
    | AppendQuestion(category: string, q: Question)
    | SetLimit(limit: int)
    | Activate(current: string)

  function ApplyEdit(tr: TriviaState, e: Edit): TriviaState {
    match e
    case AddCategory(name) => tr.(categories := tr.categories + [Category(name, [])])
    case AppendQuestion(name, q) => tr.(categories := AppendToNamed(tr.categories, name, q))
    case SetLimit(limit) => tr.(timeLimit := limit)
    case Activate(name) => tr.(active := true, currentCategory := Some(name))
  }

  /** Applies the edit to every trivia record with the channel id (the loops without `break`). */
  function UpdateTrivias(ts: seq<TriviaState>, cid: int, e: Edit): (r: seq<TriviaState>)
    ensures |r| == |ts|
    ensures forall j :: 0 <= j < |ts| && ts[j].channelId == cid ==> r[j] == ApplyEdit(ts[j], e)
    ensures forall j :: 0 <= j < |ts| && ts[j].channelId != cid ==> r[j] == ts[j]
  {
    seq(|ts|, j requires 0 <= j < |ts| => if ts[j].channelId == cid then ApplyEdit(ts[j], e) else ts[j])
  }

  function CountTrivias(ts: seq<TriviaState>, cid: int): nat {
    if |ts| == 0 then 0 else (if ts[0].channelId == cid then 1 else 0) + CountTrivias(ts[1..], cid)
  }

  function Repeat<T>(x: T, n: nat): (r: seq<T>)
    ensures |r| == n && forall k :: 0 <= k < n ==> r[k] == x
  {
    if n == 0 then [] else [x] + Repeat(x, n - 1)
  }

  // ------------------------------------------------------------------------------------
  // Instructions

  const Banner: string := " ******** TRIVIA ******** "
  const CategoriesHeading: string := "CATEGORIES:"

  const CommandsText: string :=
    "COMMANDS:\n"
    + "View categories and commands: /trivia ?\n"
    + "Create a new category: /trivia create <cateogry_name>\n"
    + "Add questions to a category: /trivia add_questions <name of category>\\n<question>\\n<max 4 options each on a new line>\n"
    + "Start playing a category: /trivia start <name of category>\n"
    + "End a game: /trivia end\n"
    + "Change the time limit for each question: /trivia time <seconds>"

  /** The category names the instructions list: for every trivia record of the channel, the
      shared default category and then the channel's own, in order. */
  function ListedCategories(s: Store, ts: seq<TriviaState>, cid: int): (r: seq<string>)
    ensures CountTrivias(ts, cid) == 0 ==> r == []
  {
    if |ts| == 0 then []
    else
      var here := if ts[0].channelId == cid
        then seq(|CategoriesOf(s, ts[0])|, k requires 0 <= k < |CategoriesOf(s, ts[0])| => CategoriesOf(s, ts[0])[k].name)
        else [];
      here + ListedCategories(s, ts[1..], cid)
  }

  /** With a single trivia record for the channel, the listing is the default category's name
      followed by the channel's own category names. */
  lemma {:induction false} ListedCategoriesSingle(s: Store, ts: seq<TriviaState>, cid: int, j: nat)
    requires j < |ts| && ts[j].channelId == cid
    requires forall i :: 0 <= i < |ts| && i != j ==> ts[i].channelId != cid
    ensures ListedCategories(s, ts, cid) ==
      [s.defaultCategory.name] + seq(|ts[j].categories|, k requires 0 <= k < |ts[j].categories| => ts[j].categories[k].name)
    decreases |ts|
  {
    var own := seq(|ts[j].categories|, k requires 0 <= k < |ts[j].categories| => ts[j].categories[k].name);
    if j == 0 {
      NoneListed(s, ts[1..], cid);
      var here := seq(|CategoriesOf(s, ts[0])|, k requires 0 <= k < |CategoriesOf(s, ts[0])| => CategoriesOf(s, ts[0])[k].name);
      assert here == [s.defaultCategory.name] + own;
    } else {
      assert forall i :: 0 <= i < |ts[1..]| ==> ts[1..][i] == ts[i + 1];
      ListedCategoriesSingle(s, ts[1..], cid, j - 1);
    }
  }

  lemma {:induction false} NoneListed(s: Store, ts: seq<TriviaState>, cid: int)
    requires forall i :: 0 <= i < |ts| ==> ts[i].channelId != cid
    ensures ListedCategories(s, ts, cid) == []
    decreases |ts|
  {
    if |ts| > 0 {
      assert forall i :: 0 <= i < |ts[1..]| ==> ts[1..][i] == ts[i + 1];
      NoneListed(s, ts[1..], cid);
    }
  }

  /** `trivia_instructions`: the banner, the category block and the command list, separated
      by blank lines. */
  function Instructions(s: Store, cid: int): (r: string)
    ensures StartsWith(r, Banner + "\n\n" + CategoriesHeading)
    ensures r == Banner + "\n\n" + Join([CategoriesHeading] + ListedCategories(s, s.trivias, cid), "\n") + "\n\n" + CommandsText
  {
    var rest := ListedCategories(s, s.trivias, cid);
    InstructionsLayout(Banner, CategoriesHeading, CommandsText, rest);
    Join([Banner, Join([CategoriesHeading] + rest, "\n"), CommandsText], "\n\n")
  }

  /** The layout of the instructions text for any banner, heading and command list. */
  lemma InstructionsLayout(banner: string, heading: string, commands: string, rest: seq<string>)
    ensures var r := Join([banner, Join([heading] + rest, "\n"), commands], "\n\n");
      && r == banner + "\n\n" + Join([heading] + rest, "\n") + "\n\n" + commands
      && StartsWith(r, banner + "\n\n" + heading)
  {
    var block := Join([heading] + rest, "\n");
    assert ([heading] + rest)[1..] == rest;
    var tail := if |rest| == 0 then "" else "\n" + Join(rest, "\n");
    assert block == heading + tail;
    JoinThree(banner, block, commands, "\n\n");
    PrefixOfConcat(banner + "\n\n" + heading, tail + "\n\n" + commands);
    assert banner + "\n\n" + block + "\n\n" + commands == (banner + "\n\n" + heading) + (tail + "\n\n" + commands);
  }

  /** With a single trivia record for the channel, the category block lists the default
      category's name and then the channel's own category names, one per line. */
  lemma InstructionsSingle(s: Store, cid: int, j: nat)
    requires j < |s.trivias| && s.trivias[j].channelId == cid
    requires forall i :: 0 <= i < |s.trivias| && i != j ==> s.trivias[i].channelId != cid
    ensures var own := seq(|s.trivias[j].categories|, k requires 0 <= k < |s.trivias[j].categories| => s.trivias[j].categories[k].name);
      Instructions(s, cid) == Banner + "\n\n" + CategoriesHeading + "\n" + Join([s.defaultCategory.name] + own, "\n") + "\n\n" + CommandsText
  {
    ListedCategoriesSingle(s, s.trivias, cid, j);
    var rest := ListedCategories(s, s.trivias, cid);
    assert ([CategoriesHeading] + rest)[1..] == rest;
  }

  // ------------------------------------------------------------------------------------
  // trivia_create

  const MaxCategoryName: int := 50

  function CreatedText(name: string): string {
    "Category: " + name + " has been succesfully " + "created\n"
      + "To add questions please " + "type /trivia and follow the " + "command for adding questions"
  }

  /** Some trivia record of the channel already offers a category with this name (the
      default category included). */
  predicate NameTaken(s: Store, cid: int, name: string) {
    exists j :: 0 <= j < |s.trivias| && s.trivias[j].channelId == cid && HasCategory(s, s.trivias[j], name)
  }

  function NameTakenScan(s: Store, ts: seq<TriviaState>, cid: int, name: string): (b: bool)
    ensures b <==> exists j :: 0 <= j < |ts| && ts[j].channelId == cid && HasCategory(s, ts[j], name)
  {
    if |ts| == 0 then false
    else if ts[0].channelId == cid && FindCategory(CategoriesOf(s, ts[0]), name).Some? then true
    else
      assert forall j :: 0 <= j < |ts| - 1 ==> ts[1..][j] == ts[j + 1];
      NameTakenScan(s, ts[1..], cid, name)
  }

  /** `trivia_create`. Only the channel's own records are consulted, so the same name can
      exist in different channels. Every record of the channel gains the new empty category. */
  function Create(s: Store, t: Token, cid: int, name: string): (r: Reply)
    ensures GetUserId(s.users, t).Fail? ==> r == Raised(AccessError)
    ensures GetUserId(s.users, t).Ok? && CheckChannelValid(s.channels, cid).Fail? ==> r == Rejected("Channel does not exist")
    ensures (GetUserId(s.users, t).Ok? && CheckChannelValid(s.channels, cid).Ok?) ==>
      && (|name| > MaxCategoryName ==> r.Rejected?)
      && (|name| <= MaxCategoryName && CountTrivias(s.trivias, cid) == 0 ==> r == Raised(RuntimeError))
      && (|name| <= MaxCategoryName && CountTrivias(s.trivias, cid) > 0 ==> (r.Rejected? <==> NameTaken(s, cid, name)))
    ensures r.Done? ==> !NameTaken(s, cid, name) && r.text == CreatedText(name)
    ensures r.Done? ==> r.store == s.(trivias := UpdateTrivias(s.trivias, cid, AddCategory(name)))
    ensures Harmless(s, r)
  {
    match GetUserId(s.users, t)
    case Fail(_) => Raised(AccessError)
    case Ok(_) =>
      if CheckChannelValid(s.channels, cid).Fail? then Rejected("Channel does not exist")
      else if |name| > MaxCategoryName then
        Rejected("Category name " + name + " is invalid (length is " + "greater than 50 characters)")
      else if CountTrivias(s.trivias, cid) == 0 then Raised(RuntimeError)
      else if NameTakenScan(s, s.trivias, cid, name) then Rejected("Category name " + name + " already exists")
      else
        Done(s.(trivias := UpdateTrivias(s.trivias, cid, AddCategory(name))),
             CreatedText(name))
  }

  // ------------------------------------------------------------------------------------
  // trivia_add_questions

  const AddQuestionsHelp: string :=
    "Please enter questions in " + "the following format:\n"
    + "/trivia add_questions <name of category>\\n<question>\\n<max 4 options each on a new line>"

  function AppendToNamed(cats: seq<Category>, name: string, q: Question): (r: seq<Category>)
    ensures |r| == |cats|
    ensures forall k :: 0 <= k < |cats| ==>
      r[k] == if cats[k].name == name then cats[k].(questions := cats[k].questions + [q]) else cats[k]
  {
    seq(|cats|, k requires 0 <= k < |cats| =>
      if cats[k].name == name then cats[k].(questions := cats[k].questions + [q]) else cats[k])
  }

  /** `trivia_add_questions`: the body's lines are a question and 2 to 4 options; the
      category must exist in the channel's first trivia record. The question is appended to
      every category of that name in every record of the channel; the default category is one
      shared object, so it receives the question once per record. */
  function AddQuestions(s: Store, t: Token, cid: int, name: string, body: string): (r: Reply)
    ensures GetUserId(s.users, t).Fail? ==> r == Raised(AccessError)
    ensures GetUserId(s.users, t).Ok? && CheckChannelValid(s.channels, cid).Fail? ==> r == Rejected("Channel does not exist")
    ensures (GetUserId(s.users, t).Ok? && CheckChannelValid(s.channels, cid).Ok?
             && MissingMembership(s.users, GetUserId(s.users, t).value, cid)) ==> r == Raised(AccessError)
    ensures r.Done? ==> 3 <= |Split(body, "\n")| <= 5
    ensures r.Done? && FirstTrivia(s.trivias, cid).Some? ==>
      HasCategory(s, s.trivias[FirstTrivia(s.trivias, cid).value], name)
    ensures r.Done? ==>
      var lines := Split(body, "\n");
      var q := Question(lines[0], lines[1..]);
      && r.text == "Question Successfully Added"
      && r.store.trivias == UpdateTrivias(s.trivias, cid, AppendQuestion(name, q))
      && r.store.defaultCategory == (if s.defaultCategory.name == name
           then s.defaultCategory.(questions := s.defaultCategory.questions + Repeat(q, CountTrivias(s.trivias, cid)))
           else s.defaultCategory)
      && r.store.users == s.users && r.store.channels == s.channels && r.store.logs == s.logs
    ensures (GetUserId(s.users, t).Ok? && CheckChannelValid(s.channels, cid).Ok?
             && !MissingMembership(s.users, GetUserId(s.users, t).value, cid)
             && !(3 <= |Split(body, "\n")| <= 5)) ==> r == Rejected(AddQuestionsHelp)
    ensures Harmless(s, r)
  {
    match GetUserId(s.users, t)
    case Fail(_) => Raised(AccessError)
    case Ok(uid) =>
      if CheckChannelValid(s.channels, cid).Fail? then Rejected("Channel does not exist")
      else if CheckUserInChannel(s.users, uid, cid).Fail? then Raised(AccessError)
      else
        var lines := Split(body, "\n");
        if !(2 < |lines| < 6) then Rejected(AddQuestionsHelp)
        else
          var first := FirstTrivia(s.trivias, cid);
          if first.Some? && FindCategory(CategoriesOf(s, s.trivias[first.value]), name).None? then
            Rejected("Invalid category name")
          else
            var q := Question(lines[0], lines[1..]);
            var d := s.defaultCategory;
            var d' := if d.name == name then d.(questions := d.questions + Repeat(q, CountTrivias(s.trivias, cid))) else d;
            Done(s.(trivias := UpdateTrivias(s.trivias, cid, AppendQuestion(name, q)),
                    defaultCategory := d'),
                 "Question Successfully Added")
  }

  // ------------------------------------------------------------------------------------
  // trivia_time

  const MinTimeLimit: int := 5
  const MaxTimeLimit: int := 20

  /** `trivia_time`: the limit must be a multiple of 5 within [5, 20]; every trivia record of
      the channel takes it. */
  function Time(s: Store, t: Token, cid: int, limit: int): (r: Reply)
    ensures GetUserId(s.users, t).Fail? ==> r == Raised(AccessError)
    ensures GetUserId(s.users, t).Ok? && CheckChannelValid(s.channels, cid).Fail? ==> r == Rejected("Channel does not exist")
    ensures (GetUserId(s.users, t).Ok? && CheckChannelValid(s.channels, cid).Ok?
             && MissingMembership(s.users, GetUserId(s.users, t).value, cid)) ==> r == Raised(AccessError)
    ensures r.Done? <==> (GetUserId(s.users, t).Ok? && CheckChannelValid(s.channels, cid).Ok?
                          && !MissingMembership(s.users, GetUserId(s.users, t).value, cid)
                          && limit % 5 == 0 && MinTimeLimit <= limit <= MaxTimeLimit)
    ensures r.Done? ==> r.store == s.(trivias := UpdateTrivias(s.trivias, cid, SetLimit(limit)))
    ensures r.Done? ==> limit in {5, 10, 15, 20}
    ensures Harmless(s, r)
  {
    match GetUserId(s.users, t)
    case Fail(_) => Raised(AccessError)
    case Ok(uid) =>
      if CheckChannelValid(s.channels, cid).Fail? then Rejected("Channel does not exist")
      else if CheckUserInChannel(s.users, uid, cid).Fail? then Raised(AccessError)
      else if limit % 5 != 0 then Rejected("Time given is not a " + "multiple of 5 seconds")
      else if limit < MinTimeLimit || limit > MaxTimeLimit then Rejected("Time given is not between 5 " + "and 20 seconds")
      else Done(s.(trivias := UpdateTrivias(s.trivias, cid, SetLimit(limit))),
                "Time limit has been changed " + "succesfully")
  }

  // ------------------------------------------------------------------------------------
  // trivia_start / trivia_end

  const StartedText: string := "Trivia started! React to " + "your chosen option!"

  /** `trivia_start`. The channel's first trivia record decides: it must be inactive and its
      first category of that name must have questions. Every record of the channel then
      becomes active on that category. The question thread it launches is not modelled. */
  function Start(s: Store, t: Token, cid: int, name: string): (r: Reply)
    ensures GetUserId(s.users, t).Fail? ==> r == Raised(AccessError)
    ensures GetUserId(s.users, t).Ok? && FirstTrivia(s.trivias, cid).None? ==> r == Rejected("Invalid channel id")
    ensures GetUserId(s.users, t).Ok? && FirstTrivia(s.trivias, cid).Some? ==>
      var tr := s.trivias[FirstTrivia(s.trivias, cid).value];
      && (tr.active ==> r == Rejected("Trivia is already running"))
      && (!tr.active && !HasCategory(s, tr, name) ==> r == Rejected("Category does not exist"))
      && (r.Done? <==> (!tr.active && HasCategory(s, tr, name)
                        && CategoriesOf(s, tr)[FindCategory(CategoriesOf(s, tr), name).value].questions != []))
    ensures r.Done? ==> r.text == StartedText
    ensures r.Done? ==> r.store == s.(trivias := UpdateTrivias(s.trivias, cid, Activate(name)))
    ensures Harmless(s, r)
  {
    match GetUserId(s.users, t)
    case Fail(_) => Raised(AccessError)
    case Ok(_) =>
      match FirstTrivia(s.trivias, cid)
      case None => Rejected("Invalid channel id")
      case Some(j) =>
        var tr := s.trivias[j];
        if tr.active then Rejected("Trivia is already running")
        else
          match FindCategory(CategoriesOf(s, tr), name)
          case None => Rejected("Category does not exist")
          case Some(k) =>
            if CategoriesOf(s, tr)[k].questions == [] then Rejected("Category " + name + " has no questions")
            else Done(s.(trivias := UpdateTrivias(s.trivias, cid, Activate(name))),
                      StartedText)
  }

  /** `trivia_end`. The channel's first trivia record must be active and offer the category;
      it becomes inactive with no current category, and the round is scored from the last log
      of the channel. A missing log, a question without options or an option message without
      its marker raises; the source has switched the game off by then, but a raised reply
      carries no store, so here the game stays on. */
  function End(s: Store, t: Token, cid: int, name: string): (r: Reply)
    ensures GetUserId(s.users, t).Fail? ==> r == Raised(AccessError)
    ensures GetUserId(s.users, t).Ok? && FirstTrivia(s.trivias, cid).None? ==> r == Rejected("Channel not found")
    ensures GetUserId(s.users, t).Ok? && FirstTrivia(s.trivias, cid).Some? ==>
      var tr := s.trivias[FirstTrivia(s.trivias, cid).value];
      && (!tr.active ==> r == Rejected("No trivia running"))
      && (tr.active && !HasCategory(s, tr, name) ==> r == Rejected("Category not found"))
      && (tr.active && HasCategory(s, tr, name) ==> !r.Rejected?)
    ensures r.Done? ==> FirstTrivia(s.trivias, cid).Some?
    ensures r.Done? ==>
      var j := FirstTrivia(s.trivias, cid).value;
      && r.store == s.(trivias := s.trivias[j := s.trivias[j].(active := false, currentCategory := None)])
      && StartsWith(r.text, LeaderboardHeader)
    ensures GetUserId(s.users, t).Ok? && FirstTrivia(s.trivias, cid).Some? ==>
      var tr := s.trivias[FirstTrivia(s.trivias, cid).value];
      tr.active && HasCategory(s, tr, name) ==>
        var questions := CategoriesOf(s, tr)[FindCategory(CategoriesOf(s, tr), name).value].questions;
        && (LastLog(s.logs, cid).None? ==> r == Raised(RuntimeError))
        && (LastLog(s.logs, cid).Some? ==>
              var board := Leaderboard(s.users, LastLog(s.logs, cid).value, tr.msgIds, questions);
              && (board.Fail? ==> r == Raised(board.error))
              && (board.Ok? ==> r.Done? && r.text == board.value))
    ensures Harmless(s, r)
  {
    match GetUserId(s.users, t)
    case Fail(_) => Raised(AccessError)
    case Ok(_) =>
      match FirstTrivia(s.trivias, cid)
      case None => Rejected("Channel not found")
      case Some(j) =>
        var tr := s.trivias[j];
        if !tr.active then Rejected("No trivia running")
        else
          match FindCategory(CategoriesOf(s, tr), name)
          case None => Rejected("Category not found")
          case Some(k) =>
            var questions := CategoriesOf(s, tr)[k].questions;
            var s' := s.(trivias := s.trivias[j := tr.(active := false, currentCategory := None)]);
            match LastLog(s.logs, cid)
            case None => Raised(RuntimeError)
            case Some(log) =>
              match Leaderboard(s.users, log, tr.msgIds, questions)
              case Fail(e) => Raised(e)
              case Ok(text) => Done(s', text)
  }

  // ------------------------------------------------------------------------------------
  // A game's lifecycle

  /** Records with the same channels in the same places have the same first record of a
      channel. */
  lemma SameChannelsFirst(a: seq<TriviaState>, b: seq<TriviaState>, cid: int)
    requires |a| == |b| && forall j :: 0 <= j < |a| ==> a[j].channelId == b[j].channelId
    ensures FirstTrivia(a, cid) == FirstTrivia(b, cid)
  {
    var fa, fb := FirstTrivia(a, cid), FirstTrivia(b, cid);
    if fa.Some? && fb.Some? {
      assert !(fa.value < fb.value) && !(fb.value < fa.value);
    }
  }

  /** Categories with the same names in the same places are found at the same position. */
  lemma SameNamesFind(a: seq<Category>, b: seq<Category>, name: string)
    requires |a| == |b| && forall k :: 0 <= k < |a| ==> a[k].name == b[k].name
    ensures FindCategory(a, name) == FindCategory(b, name)
  {
    var fa, fb := FindCategory(a, name), FindCategory(b, name);
    if fa.Some? && fb.Some? {
      assert !(fa.value < fb.value) && !(fb.value < fa.value);
    }
  }

  lemma {:induction false} CountedFirst(ts: seq<TriviaState>, cid: int)
    ensures CountTrivias(ts, cid) > 0 <==> FirstTrivia(ts, cid).Some?
  {
    if |ts| > 0 {
      CountedFirst(ts[1..], cid);
    }
  }

  /** A category just created has no questions, so starting it while no game runs is
      refused with that reason; creating it again is refused too. */
  lemma CreateThenStart(s: Store, t: Token, cid: int, name: string)
    requires Create(s, t, cid, name).Done?
    requires forall j :: 0 <= j < |s.trivias| && s.trivias[j].channelId == cid ==> !s.trivias[j].active
    ensures Start(Create(s, t, cid, name).store, t, cid, name) == Rejected("Category " + name + " has no questions")
    ensures Create(Create(s, t, cid, name).store, t, cid, name).Rejected?
  {
    var s' := Create(s, t, cid, name).store;
    SameChannelsFirst(s'.trivias, s.trivias, cid);
    CountedFirst(s.trivias, cid);
    var j := FirstTrivia(s.trivias, cid).value;
    var cats := CategoriesOf(s, s.trivias[j]);
    var cats' := CategoriesOf(s', s'.trivias[j]);
    assert cats' == cats + [Category(name, [])];
    assert !HasCategory(s, s.trivias[j], name);
    assert cats'[|cats|].name == name;
    assert FindCategory(cats', name) == Some(|cats|) by {
      assert forall k :: 0 <= k < |cats| ==> cats'[k] == cats[k];
      assert forall k :: 0 <= k < |cats| ==> cats'[k].name != name;
    }
    CountedFirst(s'.trivias, cid);
    assert NameTaken(s', cid, name);
  }

  /** Questions added to a category of an idle channel make it startable. */
  lemma AddQuestionsThenStart(s: Store, t: Token, cid: int, name: string, body: string)
    requires AddQuestions(s, t, cid, name, body).Done?
    requires FirstTrivia(s.trivias, cid).Some? && !s.trivias[FirstTrivia(s.trivias, cid).value].active
    ensures Start(AddQuestions(s, t, cid, name, body).store, t, cid, name).Done?
  {
    var s' := AddQuestions(s, t, cid, name, body).store;
    SameChannelsFirst(s'.trivias, s.trivias, cid);
    CountedFirst(s.trivias, cid);
    var j := FirstTrivia(s.trivias, cid).value;
    var cats := CategoriesOf(s, s.trivias[j]);
    var cats' := CategoriesOf(s', s'.trivias[j]);
    assert |cats'| == |cats| && forall k :: 0 <= k < |cats| ==> cats'[k].name == cats[k].name;
    SameNamesFind(cats', cats, name);
    var k := FindCategory(cats, name).value;
    assert cats'[k].questions != [] by {
      if k == 0 {
        assert cats'[0] == s'.defaultCategory;
        assert Repeat(Question(Split(body, "\n")[0], Split(body, "\n")[1..]), CountTrivias(s.trivias, cid)) != [];
      } else {
        assert cats'[k] == s'.trivias[j].categories[k - 1];
      }
    }
    assert HasCategory(s', s'.trivias[j], name) by {
      assert cats'[k].name == name;
    }
  }

  /** A started game can be ended, and once it has ended it can be started again. */
  lemma StartThenEnd(s: Store, t: Token, cid: int, name: string)
    requires Start(s, t, cid, name).Done?
    ensures !End(Start(s, t, cid, name).store, t, cid, name).Rejected?
    ensures var e := End(Start(s, t, cid, name).store, t, cid, name);
      e.Done? ==> Start(e.store, t, cid, name).Done?
  {
    var s1 := Start(s, t, cid, name).store;
    SameChannelsFirst(s1.trivias, s.trivias, cid);
    var j := FirstTrivia(s.trivias, cid).value;
    assert CategoriesOf(s1, s1.trivias[j]) == CategoriesOf(s, s.trivias[j]);
    var e := End(s1, t, cid, name);
    if e.Done? {
      SameChannelsFirst(e.store.trivias, s1.trivias, cid);
      assert CategoriesOf(e.store, e.store.trivias[j]) == CategoriesOf(s, s.trivias[j]);
    }
  }

  /** A new time limit reaches every trivia record of the channel and no other record. */
  lemma TimeSetsEveryRecord(s: Store, t: Token, cid: int, limit: int)
    requires Time(s, t, cid, limit).Done?
    ensures var ts := Time(s, t, cid, limit).store.trivias;
      && |ts| == |s.trivias|
      && (forall j :: 0 <= j < |ts| && s.trivias[j].channelId == cid ==> ts[j].timeLimit == limit)
      && (forall j :: 0 <= j < |ts| && s.trivias[j].channelId != cid ==> ts[j] == s.trivias[j])
  {
  }

  // ------------------------------------------------------------------------------------
  // trivia_check_command

  const CommandWord: string := "/trivia"

  /** The category the `end` command names: that of the last trivia record of the channel.
      A record without a current category gives `None` (a rejection), and no record at all
      leaves the name unbound. */
  function CurrentCategory(ts: seq<TriviaState>, cid: int): (r: Result<Option<string>>)
    ensures r.Fail? <==> CountTrivias(ts, cid) == 0
    ensures r.Fail? <==> forall j :: 0 <= j < |ts| ==> ts[j].channelId != cid
    ensures r.Fail? ==> r.error == RuntimeError
    ensures r == Ok(None) <==> exists j :: 0 <= j < |ts| && ts[j].channelId == cid && ts[j].currentCategory.None?
    ensures r.Ok? && r.value.Some? ==>
      exists k :: && 0 <= k < |ts| && ts[k].channelId == cid && ts[k].currentCategory == r.value
                  && forall i :: k < i < |ts| ==> ts[i].channelId != cid
  {
    if |ts| == 0 then Fail(RuntimeError)
    else
      assert forall j :: 0 <= j < |ts| - 1 ==> ts[1..][j] == ts[j + 1];
      var rest := CurrentCategory(ts[1..], cid);
      if ts[0].channelId != cid then rest
      else if ts[0].currentCategory.None? then Ok(None)
      else if rest.Fail? then Ok(ts[0].currentCategory)
      else
        assert rest.value.Some? ==> exists k :: && 0 <= k < |ts| && ts[k].channelId == cid && ts[k].currentCategory == rest.value
                                             && forall i :: k < i < |ts| ==> ts[i].channelId != cid by {
          if rest.value.Some? {
            var k :| && 0 <= k < |ts| - 1 && ts[1..][k].channelId == cid && ts[1..][k].currentCategory == rest.value
                     && forall i :: k < i < |ts| - 1 ==> ts[1..][i].channelId != cid;
            assert ts[k + 1] == ts[1..][k];
          }
        }
        rest
  }

  const AddQuestionsFormat: string :=
    "invalid format: /trivia " + "add_questions <name of category>\\n<question>\\n<max 4 options each on a new line>"

  /** The command a line of words asks for, before anything is run. */
  datatype Command =
    | Help
    | CreateCategory(name: string)
    | AddQuestionsTo(arg: string)
    | StartGame(name: string)
    | EndGame
    | SetTime(word: string)
    | Malformed(reason: string)

  /** Reads the second word; the rest of the line (joined back with spaces) is the argument. */
  function ParseCommand(words: seq<string>): (c: Command)
    requires |words| >= 1
    ensures words[0] != CommandWord ==> c == Malformed("invalid format: /trivia")
    ensures c.Malformed? ==> |c.reason| > 0 && c.reason[0] != '/'
    ensures words[0] == CommandWord && |words| > 2 && words[1] == "create" ==> c == CreateCategory(Join(words[2..], " "))
    ensures words[0] == CommandWord && |words| > 2 && words[1] == "start" ==> c == StartGame(Join(words[2..], " "))
    ensures words[0] == CommandWord && |words| > 2 && words[1] == "time" ==> c == SetTime(words[2])
  {
    if words[0] != CommandWord then Malformed("invalid format: /trivia")
    else if |words| == 1 || words[1] == "?" then Help
    else if words[1] == "create" then
      if |words| > 2 then CreateCategory(Join(words[2..], " "))
      else Malformed("invalid format: /trivia " + "create <cateogry_name>")
    else if words[1] == "add_questions" then
      if |words| > 2 then AddQuestionsTo(Join(words[2..], " "))
      else Malformed(AddQuestionsFormat)
    else if words[1] == "start" then
      if |words| > 2 then StartGame(Join(words[2..], " "))
      else Malformed("invalid format: /trivia " + "start <name of category>")
    else if words[1] == "end" then EndGame
    else if words[1] == "time" then
      if |words| > 2 then SetTime(words[2])
      else Malformed("invalid format: /trivia " + "time <seconds>")
    else Malformed("Invalid format. Type " + "/trivia to see the commands " + "available.")
  }

  /** Runs a parsed command against the store. */
  function Run(s: Store, t: Token, cid: int, c: Command): (r: Reply)
    requires c.Malformed? ==> |c.reason| > 0 && c.reason[0] != '/'
    ensures c.Malformed? ==> r == Rejected(c.reason)
    ensures Harmless(s, r)
  {
    match c
    case Help => Done(s, Instructions(s, cid))
    case CreateCategory(name) => Create(s, t, cid, name)
    case AddQuestionsTo(arg) => AddQuestionsCommand(s, t, cid, arg)
    case StartGame(name) => Start(s, t, cid, name)
    case EndGame => EndCommand(s, t, cid)
    case SetTime(word) => TimeCommandWord(s, t, cid, word)
    case Malformed(reason) => Rejected(reason)
  }

  /** `trivia_check_command`: split the text on single spaces, read the command, run it. */
  function CheckCommand(s: Store, t: Token, cid: int, text: string): (r: Reply)
    ensures Split(text, " ")[0] != CommandWord ==> r == Rejected("invalid format: /trivia")
    ensures Harmless(s, r)
  {
    Run(s, t, cid, ParseCommand(Split(text, " ")))
  }

  /** The `add_questions` argument: the category name on the first line, the question and
      options on the following lines. */
  function AddQuestionsCommand(s: Store, t: Token, cid: int, arg: string): (r: Reply)
    ensures |Split(arg, "\n")| > 1 ==>
      r == AddQuestions(s, t, cid, Split(arg, "\n")[0], Join(Split(arg, "\n")[1..], "\n"))
    ensures |Split(arg, "\n")| <= 1 ==> r == Rejected(AddQuestionsFormat)
    ensures Harmless(s, r)
  {
    var lines := Split(arg, "\n");
    if |lines| > 1 then AddQuestions(s, t, cid, lines[0], Join(lines[1..], "\n"))
    else Rejected(AddQuestionsFormat)
  }

  /** `end` ends the game on the current category of the channel's last trivia record. Any
      record of the channel without a current category stops the command first. */
  function EndCommand(s: Store, t: Token, cid: int): (r: Reply)
    ensures CountTrivias(s.trivias, cid) == 0 ==> r == Raised(RuntimeError)
    ensures (exists j :: 0 <= j < |s.trivias| && s.trivias[j].channelId == cid && s.trivias[j].currentCategory.None?)
            ==> r == Rejected("Current category not found")
    ensures forall k :: && 0 <= k < |s.trivias| && s.trivias[k].channelId == cid
                        && (forall i :: k < i < |s.trivias| ==> s.trivias[i].channelId != cid)
                        && (forall j :: 0 <= j < |s.trivias| && s.trivias[j].channelId == cid ==> s.trivias[j].currentCategory.Some?)
                        ==> r == End(s, t, cid, s.trivias[k].currentCategory.value)
    ensures Harmless(s, r)
  {
    var ts := s.trivias;
    forall k | && 0 <= k < |ts| && ts[k].channelId == cid
               && (forall i :: k < i < |ts| ==> ts[i].channelId != cid)
               && (forall j :: 0 <= j < |ts| && ts[j].channelId == cid ==> ts[j].currentCategory.Some?)
      ensures CurrentCategory(ts, cid) == Ok(ts[k].currentCategory)
    {
      var c := CurrentCategory(ts, cid);
      assert c.Ok? && c.value.Some?;
      var k' :| && 0 <= k' < |ts| && ts[k'].channelId == cid && ts[k'].currentCategory == c.value
                && forall i :: k' < i < |ts| ==> ts[i].channelId != cid;
      assert !(k < k') && !(k' < k);
    }
    match CurrentCategory(s.trivias, cid)
    case Fail(e) => Raised(e)
    case Ok(None) => Rejected("Current category not found")
    case Ok(Some(name)) => End(s, t, cid, name)
  }

  /** `time` converts its word with `int()`, which raises on anything but an optionally
      signed run of digits. */
  function TimeCommandWord(s: Store, t: Token, cid: int, word: string): (r: Reply)
    ensures ParseInt(word).None? ==> r == Raised(RuntimeError)
    ensures ParseInt(word).Some? ==> r == Time(s, t, cid, ParseInt(word).value)
    ensures Harmless(s, r)
  {
    match ParseInt(word)
    case None => Raised(RuntimeError)
    case Some(n) => Time(s, t, cid, n)
  }

  /** `/trivia create <name>` hands the whole rest of the line, spaces included, to `create`. */
  lemma CreateCommand(s: Store, t: Token, cid: int, name: string)
    ensures CheckCommand(s, t, cid, "/trivia create " + name) == Create(s, t, cid, name)
  {
    assert "/trivia create " + name == CommandWord + " " + "create" + " " + name;
    ParsesWithRest("create", name);
  }

  /** `/trivia start <name>` hands the whole rest of the line to `start`. */
  lemma StartCommand(s: Store, t: Token, cid: int, name: string)
    ensures CheckCommand(s, t, cid, "/trivia start " + name) == Start(s, t, cid, name)
  {
    assert "/trivia start " + name == CommandWord + " " + "start" + " " + name;
    ParsesWithRest("start", name);
  }

  /** `/trivia time <n>` sets the limit to `n`, however `n` is written in decimal. */
  lemma TimeCommand(s: Store, t: Token, cid: int, n: int)
    ensures CheckCommand(s, t, cid, "/trivia time " + IntToString(n)) == Time(s, t, cid, n)
  {
    ParsesTime(n);
    ParseIntToString(n);
  }

  /** The words after `create` or `start` are joined back into the one argument. */
  lemma ParsesWithRest(word: string, arg: string)
    requires word == "create" || word == "start"
    ensures var c := ParseCommand(Split(CommandWord + " " + word + " " + arg, " "));
      (word == "create" ==> c == CreateCategory(arg)) && (word == "start" ==> c == StartGame(arg))
  {
    CommandWords(word, arg);
    JoinSplit(arg, " ");
    var words := Split(CommandWord + " " + word + " " + arg, " ");
    assert words[0] == CommandWord && words[1] == word && words[2..] == Split(arg, " ");
  }

  lemma ParsesTime(n: int)
    ensures ParseCommand(Split("/trivia time " + IntToString(n), " ")) == SetTime(IntToString(n))
  {
    var digits := IntToString(n);
    assert "/trivia time " + digits == CommandWord + " " + "time" + " " + digits;
    CommandWords("time", digits);
    IntToStringOneWord(n);
    var words := Split("/trivia time " + digits, " ");
    assert words[0] == CommandWord && words[1] == "time" && words[2] == digits;
  }

  /** A decimal numeral is a single word. */
  lemma IntToStringOneWord(n: int)
    ensures Split(IntToString(n), " ") == [IntToString(n)]
  {
    var digits := IntToString(n);
    assert ' ' !in digits by {
      if n >= 0 {
        assert digits == NatToString(n);
      } else {
        assert digits == "-" + NatToString(-n);
        assert forall k :: 1 <= k < |digits| ==> digits[k] == NatToString(-n)[k - 1];
      }
    }
    NoCharNoOccurrence(digits, ' ');
  }

  /** A command line whose second word has no space splits into the command word, that
      word, and the words of the remainder. */
  lemma CommandWords(word: string, arg: string)
    requires ' ' !in word
    ensures Split(CommandWord + " " + word + " " + arg, " ") == [CommandWord, word] + Split(arg, " ")
  {
    assert ' ' !in CommandWord;
    var words := [CommandWord, word];
    SplitLeadingWords(words, arg, ' ');
    JoinThree(CommandWord, word, arg, " ");
    assert words + [arg] == [CommandWord, word, arg];
  }
}

=== FILE: user.dfy ===
/** Reading and updating a user's own profile (user.py). */
module UserProfile {
  import opened Wrappers
  import opened Strings
  import opened Data
  import opened Helper

  /** The `user` record a profile read returns. */
  datatype Profile = Profile(uId: int, email: string, nameFirst: string, nameLast: string,
                             handle: string, imgUrl: string)

  function ProfileOf(u: User): Profile {
    Profile(u.uId, u.email, u.nameFirst, u.nameLast, u.handle, u.imgUrl)
  }

  /** The position of the last user record with this u_id. */
  function LastUser(users: seq<User>, uid: int): (r: Option<nat>)
    ensures r.None? <==> forall i :: 0 <= i < |users| ==> users[i].uId != uid
    ensures r.Some? ==> IsLastUser(users, uid, r.value)
  {
    if |users| == 0 then None
    else if users[|users| - 1].uId == uid then Some(|users| - 1)
    else
      var prefix := users[..|users| - 1];
      assert forall i :: 0 <= i < |prefix| ==> prefix[i] == users[i];
      LastUser(prefix, uid)
  }

  /** `user_profile`: the token, then an unknown u_id raises `InputError`; the fields come
      from the last record with the u_id (the loop overwrites its result). */
  function ReadProfile(s: Store, t: Token, uid: int): (r: Result<Profile>)
    ensures GetUserId(s.users, t).Fail? ==> r == Fail(AccessError)
    ensures GetUserId(s.users, t).Ok? && GetUserIndex(s.users, uid).Fail? ==> r == Fail(InputError)
    ensures r.Ok? <==> GetUserId(s.users, t).Ok? && GetUserIndex(s.users, uid).Ok?
    ensures r.Ok? ==> exists i :: IsLastUser(s.users, uid, i) && r.value == ProfileOf(s.users[i])
    ensures r.Ok? ==> r.value.uId == uid
  {
    var _ :- GetUserId(s.users, t);
    var _ :- GetUserIndex(s.users, uid);
    match LastUser(s.users, uid)
    case Some(i) => Ok(ProfileOf(s.users[i]))
    case None => assert false; Fail(InputError)
  }

  /** With one record per u_id, the profile is that record's. */
  lemma ReadProfileUnique(s: Store, t: Token, i: int)
    requires 0 <= i < |s.users| && GetUserId(s.users, t).Ok?
    requires forall k :: 0 <= k < |s.users| && k != i ==> s.users[k].uId != s.users[i].uId
    ensures ReadProfile(s, t, s.users[i].uId) == Ok(ProfileOf(s.users[i]))
  {
    assert GetUserIndex(s.users, s.users[i].uId).Ok?;
  }

  const MaxNameLength: int := 50

  /** The per-character rule of `user_profile_setname`: letters, spaces and dashes. */
  predicate NameChars(s: string) {
    forall k :: 0 <= k < |s| ==> IsLetter(s[k]) || s[k] == ' ' || s[k] == '-'
  }

  /** Python's `str.isalpha()`: nonempty and letters only. */
  predicate IsAlpha(s: string) {
    |s| > 0 && forall k :: 0 <= k < |s| ==> IsLetter(s[k])
  }

  /** `user_profile_setname`: the token; each name 1 to 50 characters; the joined name
      first passes the letters-spaces-dashes loop and then `isalpha`, so only letters get
      through. Every record with the caller's u_id gets both names. */
  function SetName(s: Store, t: Token, first: string, last: string): (r: Result<Store>)
    ensures GetUserId(s.users, t).Fail? ==> r == Fail(AccessError)
    ensures r.Fail? ==> r.error != RuntimeError
    ensures r.Ok? <==> (GetUserId(s.users, t).Ok? && 1 <= |first| <= MaxNameLength && 1 <= |last| <= MaxNameLength
                        && IsAlpha(first) && IsAlpha(last))
    ensures r.Ok? ==> r.value == s.(users := EditUsers(s.users, Decode(t).value, Names(first, last)))
  {
    var uid :- GetUserId(s.users, t);
    if |first| > MaxNameLength || |first| < 1 || |last| > MaxNameLength || |last| < 1 then Fail(InputError)
    else
      var full := first + last;
      assert forall k :: 0 <= k < |first| ==> full[k] == first[k];
      assert forall k :: 0 <= k < |last| ==> full[|first| + k] == last[k];
      if !NameChars(full) then Fail(InputError)
      else if !IsAlpha(full) then Fail(InputError)
      else Ok(s.(users := EditUsers(s.users, uid, Names(first, last))))
  }

  /** A name with a space or a dash passes the character loop but not `isalpha`. */
  lemma SpaceOrDashRejected(s: Store, t: Token, first: string, last: string)
    requires GetUserId(s.users, t).Ok? && 1 <= |first| <= MaxNameLength && 1 <= |last| <= MaxNameLength
    requires ' ' in first || '-' in first
    ensures SetName(s, t, first, last) == Fail(InputError)
  {
  }

  /** Some user record holds this email. */
  predicate EmailTaken(users: seq<User>, email: string) {
    exists i :: 0 <= i < |users| && users[i].email == email
  }

  /** `user_profile_setemail`: the token; `emailOk` is the verdict of the address check
      (its DNS lookup and pattern are not modelled); an address held by any user, the caller
      included, raises `InputError`. Every record with the caller's u_id gets the address. */
  function SetEmail(s: Store, t: Token, email: string, emailOk: bool): (r: Result<Store>)
    ensures GetUserId(s.users, t).Fail? ==> r == Fail(AccessError)
    ensures r.Fail? ==> r.error != RuntimeError
    ensures r.Ok? <==> GetUserId(s.users, t).Ok? && emailOk && !EmailTaken(s.users, email)
    ensures r.Ok? ==> r.value == s.(users := EditUsers(s.users, Decode(t).value, EmailTo(email)))
  {
    var uid :- GetUserId(s.users, t);
    if !emailOk then Fail(InputError)
    else if EmailTaken(s.users, email) then Fail(InputError)
    else Ok(s.(users := EditUsers(s.users, uid, EmailTo(email))))
  }

  /** Emails stay distinct: a successful email change cannot create a clash. */
  lemma SetEmailKeepsDistinct(s: Store, t: Token, email: string, emailOk: bool)
    requires SetEmail(s, t, email, emailOk).Ok?
    requires forall i, j :: 0 <= i < j < |s.users| ==> s.users[i].uId != s.users[j].uId
    requires forall i, j :: 0 <= i < j < |s.users| ==> s.users[i].email != s.users[j].email
    ensures var us := SetEmail(s, t, email, emailOk).value.users;
      forall i, j :: 0 <= i < j < |us| ==> us[i].email != us[j].email
  {
    var us := SetEmail(s, t, email, emailOk).value.users;
    var uid := Decode(t).value;
    forall i, j | 0 <= i < j < |us|
      ensures us[i].email != us[j].email
    {
      if s.users[i].uId == uid {
        assert s.users[j].uId != uid;
        assert s.users[j].email != email;
      } else if s.users[j].uId == uid {
        assert s.users[i].email != email;
      }
    }
  }

  const MinHandleLength: int := 3
  const MaxHandleLength: int := 20

  /** Some user record holds this handle. */
  predicate HandleTaken(users: seq<User>, handle: string) {
    exists i :: 0 <= i < |users| && users[i].handle == handle
  }

  /** `user_profile_sethandle`: the token; 3 to 20 characters; a handle held by any user,
      the caller included, raises `InputError`. */
  function SetHandle(s: Store, t: Token, handle: string): (r: Result<Store>)
    ensures GetUserId(s.users, t).Fail? ==> r == Fail(AccessError)
    ensures r.Fail? ==> r.error != RuntimeError
    ensures r.Ok? <==> (GetUserId(s.users, t).Ok? && MinHandleLength <= |handle| <= MaxHandleLength
                        && !HandleTaken(s.users, handle))
    ensures r.Ok? ==> r.value == s.(users := EditUsers(s.users, Decode(t).value, HandleTo(handle)))
  {
    var uid :- GetUserId(s.users, t);
    if !(MinHandleLength <= |handle| <= MaxHandleLength) then Fail(InputError)
    else if HandleTaken(s.users, handle) then Fail(InputError)
    else Ok(s.(users := EditUsers(s.users, uid, HandleTo(handle))))
  }

  /** Handles stay distinct: a successful handle change cannot create a clash. */
  lemma SetHandleKeepsDistinct(s: Store, t: Token, handle: string)
    requires SetHandle(s, t, handle).Ok?
    requires forall i, j :: 0 <= i < j < |s.users| ==> s.users[i].uId != s.users[j].uId
    requires forall i, j :: 0 <= i < j < |s.users| ==> s.users[i].handle != s.users[j].handle
    ensures var us := SetHandle(s, t, handle).value.users;
      forall i, j :: 0 <= i < j < |us| ==> us[i].handle != us[j].handle
  {
    var us := SetHandle(s, t, handle).value.users;
    var uid := Decode(t).value;
    forall i, j | 0 <= i < j < |us|
      ensures us[i].handle != us[j].handle
    {
      if s.users[i].uId == uid {
        assert s.users[j].uId != uid;
        assert s.users[j].handle != handle;
      } else if s.users[j].uId == uid {
        assert s.users[i].handle != handle;
      }
    }
  }
}

=== FILE: wrappers.dfy ===
/** The two outcome types every operation of the chat store returns.

    The store's operations either return a plain record or raise. The source raises
    `InputError` (HTTP 400) for malformed or duplicate input and `AccessError` (HTTP 403)
    for a bad token or missing rights; a few code paths can also fail with an uncaught
    Python exception (`ValueError`, `IndexError`, `UnboundLocalError`), which the server
    turns into an HTTP 500. Those are `RuntimeError` here. */
module Wrappers {

  datatype Option<+T> = None | Some(value: T)

  datatype Error = InputError | AccessError | RuntimeError

  /** Success with a value, or one of the error kinds. Usable with `:-`. */
  datatype Result<+T> = Ok(value: T) | Fail(error: Error) {

    predicate IsFailure() {
      Fail?
    }

    function PropagateFailure<U>(): Result<U>
      requires Fail?
    {
      Fail(error)
    }

    function Extract(): T
      requires Ok?
    {
      value
    }
  }

  /** The unit success used by guards that only check. */
  const Pass: Result<()> := Ok(())

  function Need(condition: bool, e: Error): (r: Result<()>)
    ensures r.Ok? <==> condition
    ensures r.Fail? ==> r.error == e
  {
    if condition then Pass else Fail(e)
  }
}
